=== FILE: README.md ===
# ec-interface, modelled in Dafny

A model of the core of `ec-interface`. This Python package prepares and reduces a
series of fixed-charge VASP calculations of a slab. Each calculation has a different
electron count. From each step the package extracts the work function and the free
energy, and from those the grand potential of the interface.

The model covers:

- the per-step reduction of `ECResults`: the search for the vacuum plateau in the
  planar-averaged charge density, the reference and average potentials, the
  aggregation that skips failing steps, and the pointwise work-function, charge and
  grand-potential vectors (`vacuum.dfy`, `ec_results.dfy`);
- the POSCAR geometry (`vasp_geometry.dfy`). This covers reading and writing, the ion
  labels, the direct-to-cartesian map as written, slab thickness, interslab distance,
  and changing the interslab distance;
- the sweep parameters (`ec_parameters.dfy`, `ec_input.dfy`). This covers the schema
  rule of the YAML input, the step generator, and the equivalence of the two copies of
  that code. It also covers the existence checks of `ECInput.create_directories`;
- the molecular geometry (`molecular_geometry.dfy`, `pair_sort.dfy`). This covers the
  XYZ reader and writer and their round trip, and the sort and shift of `to_vasp`;
- the scripts:
  - `create_potcar.dfy`: the `key=val,...` parser and the POTCAR concatenation;
  - `integrate_xy_average.dfy`: the threshold-crossing regions and their charges;
  - `make_directories.dfy`: the preflight checks, the `NELECT` warning and the
    per-step plan of `create_input_directories`.

Shared pieces:

- `outcomes.dfy`: the `Option`/`Result` types.
- `text.dfy`: Python's `str.split()`, `strip()`, `split(sep)`, `int()` and `str(int)`.
  Whitespace is the set `str.isspace()` accepts, Unicode included.
- `real_seq.dfy`: sums, minimum and maximum of real sequences.
- `schema.dfy`: the part of the `schema` library the input files use.
- `checks.dfy`: "first failing check".

Physical quantities are exact `real`s. Files are given as the values they hold:
- a POSCAR or XYZ file is its list of lines;
- a step directory is what its `vaspout.h5`, `CHGCAR` and `LOCPOT` provide;
- a directory tree is the set of names it holds.

Writing and reading a real number are a formatter `fmt` and a parser `parse` passed as
parameters. Round trips hold up to what `parse` reads back from `fmt`'s output.

Three points where the model follows the code as written:

- The Poisson-Boltzmann grand potential subtracts the charge times the work function:
  `F - dnelect * (vacuum - fermi)` (`ec_interface/ec_results.py:206`).
- `ECResults` reads the reference electron count as `ec_parameters.ne_zc`, but the
  `ECParameters` in this version stores it as `ne_pzc`. The model takes the reference
  count as a parameter (`neZc`).
- The input file is validated against `SCHEMA_EC_INPUT`
  (`ec_interface/ec_parameters.py:7-17`), and the model applies the same rules.

## Model

| member | source | states |
|---|---|---|
| Vacuum.ArgMin | ec_interface/ec_results.py:68 | `numpy.argmin`: the index holds the least value and no earlier index holds it (the first minimum) |
| Vacuum.Mask | ec_interface/ec_results.py:77-84 | a plane is in the mask iff its value is within `1e-3` of the given value (the minimum, where the search uses it) |
| Vacuum.TruncDivWrap | ec_interface/ec_results.py:79 | the index `k - int(k / n) * n` is `k` folded into `[0, n)` whenever `0 <= k < 2n` |
| Vacuum.TruncDivRemainder | ec_interface/ec_results.py:79 | for any `k >= 0` that index is `k mod n` (Python's `int()` truncates toward zero) |
| Vacuum.ScanUp | ec_interface/ec_results.py:77-81 | the first index at or after `k` that leaves the mask, with every index before it inside |
| Vacuum.ScanDown | ec_interface/ec_results.py:83-84 | the first index at or before `k` that leaves the mask, with every index after it inside |
| Vacuum.ScanUpFrom | ec_interface/ec_results.py:77-81 | any first exit upward is the one `ScanUp` finds |
| Vacuum.ScanDownFrom | ec_interface/ec_results.py:83-84 | any first exit downward is the one `ScanDown` finds |
| Vacuum.CenterInCell | ec_interface/ec_results.py:86-90 | with `max` in `[m+1, m+n-1]` and `min` in `[m-n+1, m-1]`, the truncated midpoint shifted once by `±n` lies in `[0, n)` |
| Vacuum.SearchIn | ec_interface/ec_results.py:75-90 | no plateau iff every plane is inside the mask; otherwise the bounds are the first exits both ways and the center is the folded truncated midpoint |
| Vacuum.Search | ec_interface/ec_results.py:67-90 | the reference search: `None` exactly when the profile is flat (within `1e-3` of its minimum everywhere); otherwise the plateau around the first minimum |
| Vacuum.ScanBounds | ec_interface/ec_results.py:77-84 | once some plane leaves the mask, `max` ends in `[m+1, m+n-1]` and `min` in `[m-n+1, m-1]` |
| Vacuum.FindVacuum | ec_interface/ec_results.py:67-90 | the two while loops and the fold, as written, under the termination precondition (the profile is not flat): no `IndexError`, and the result is the plateau of `Search` |
| Vacuum.WalkUp | ec_interface/ec_results.py:77-81 | the upward loop stops at the first index past `m` outside the mask, and every index it passed is inside |
| Vacuum.WalkDown | ec_interface/ec_results.py:83-84 | the downward loop, with Python's negative indexing, stops at the first index below `m` outside the mask |
| Vacuum.SearchFromBounds | ec_interface/ec_results.py:75-90 | bounds that are first exits are those of the functional search |
| Vacuum.FlatNeverLeaves | ec_interface/ec_results.py:77-81 | on a flat profile the condition of the upward loop holds at every index, so the source never leaves that loop |
| Vacuum.ReferencePotentials | ec_interface/ec_results.py:102-107 | the vacuum potential is the potential profile at the center; the average is its sum over `nZ`; a center past the end raises |
| Vacuum.ReferencesShift | ec_interface/ec_results.py:102-107 | a constant offset of the potential moves both references by that offset |
| EcResults.ExtractStep | ec_interface/ec_results.py:47-107 | a successful step has all three files, a non-empty charge profile and a plateau; it takes the three energies from `vaspout.h5`, the potential at the vacuum center, and as average potential the sum of the potential profile over the number of planes `nZ` of the charge profile |
| EcResults.FromProfiles | ec_interface/ec_results.py:62-107 | the same, once the charge profile is known to be non-empty |
| EcResults.FromProfilesOutcomes | ec_interface/ec_results.py:77-107 | the step diverges iff the charge profile is flat; a missing `LOCPOT` raises; so does a center past the end of the potential profile |
| EcResults.ExtractStepErrors | ec_interface/ec_results.py:47-81 | which exception a step raises, each as an if-and-only-if, checked in source order: directory, `vaspout.h5`, `CHGCAR`, empty profile, then divergence |
| EcResults.PlateauUnique | ec_interface/ec_results.py:75-90 | the plateau of a profile is unique, so the row does not depend on how it was found |
| EcResults.BoundsUnique | ec_interface/ec_results.py:77-84 | the mask determines both bounds |
| EcResults.CenterUnique | ec_interface/ec_results.py:86-90 | at most one shift of the midpoint by a period lies in `[0, n)` |
| EcResults.Collect | ec_interface/ec_results.py:147-164 | the rows of the steps in order: no result iff some step diverges, otherwise at most one row per step |
| EcResults.CollectSkipsRaised | ec_interface/ec_results.py:150-164 | a step that raises changes nothing in what the earlier steps gave |
| EcResults.CollectAppendsRow | ec_interface/ec_results.py:154-161 | a step that succeeds appends its row after the earlier rows (directory order is kept) |
| EcResults.CountExtracted | ec_interface/ec_results.py:150-164 | the successful steps are at most all steps |
| EcResults.CollectCount | ec_interface/ec_results.py:150-164 | exactly one row per successful step |
| EcResults.Columns | ec_interface/ec_results.py:168-172 | the five arrays have equal length, one entry per row, holding that row's values |
| EcResults.Aggregate | ec_interface/ec_results.py:134-172 | `None` iff some step diverges; otherwise five arrays of equal length, at most one entry per directory |
| EcResults.AggregateSkipsMissingDirectory | ec_interface/ec_results.py:150-152 | a missing step directory drops that step only |
| EcResults.WorkFunction | ec_interface/ec_results.py:178 | `work_function[i] + fermi[i] == vacuum[i]` for every kept step |
| EcResults.DeltaNelect | ec_interface/ec_results.py:179 | `dnelect[i] + ne_zc == nelect[i]` for every kept step |
| EcResults.FeeActiveFraction | ec_interface/ec_results.py:180 | one grand potential per kept step (values: `FeesFromRows`) |
| EcResults.FeePbm | ec_interface/ec_results.py:204-206 | one grand potential per kept step (values: `FeesFromRows`) |
| EcResults.FeesFromRows | ec_interface/ec_results.py:178-180 | active fraction: `F - (n - ne_zc) * fermi`; PBM (lines 204-206): `F - (n - ne_zc) * (vacuum - fermi)` |
| EcResults.FeesAtNeutrality | ec_interface/ec_results.py:204-206 | at the reference electron count both grand potentials are the free energy |
| EcResults.FeesDiffer | ec_interface/ec_results.py:204-206 | the two grand potentials differ by `dnelect * (work_function - fermi)` |
| VaspGeometry.Repeat | ec_interface/vasp_geometry.py:27 | `[t] * k`: `k` copies of `t`, none for `k <= 0` |
| VaspGeometry.IonsAppend | ec_interface/vasp_geometry.py:25-27 | one more type appends its block of labels after the others |
| VaspGeometry.IonsLength | ec_interface/vasp_geometry.py:25-32 | with non-negative counts, `len(ions) == sum(ion_numbers) == len(g)` |
| VaspGeometry.SumIntsAppend | ec_interface/vasp_geometry.py:32 | the count sum is additive |
| VaspGeometry.IntStrings | ec_interface/vasp_geometry.py:37 | `str(x)` of each count, in order |
| VaspGeometry.ToLines | ec_interface/vasp_geometry.py:34-54 | the header lines, then one line per ion (contents: `ParsePrinted`) |
| VaspGeometry.ParseReals | ec_interface/vasp_geometry.py:62 | `[float(x) for x in tokens]` succeeds iff every token parses, giving each token's number in order |
| VaspGeometry.ParseInts | ec_interface/vasp_geometry.py:65 | `[int(x) for x in tokens]` succeeds iff every token parses, giving each token's integer in order |
| VaspGeometry.ParseLatticeRow | ec_interface/vasp_geometry.py:62 | a lattice line is accepted iff all its tokens are numbers and there are exactly three of them (stricter than numpy; see Left out); the row is those three numbers in order |
| VaspGeometry.LatticeRowScaled | ec_interface/vasp_geometry.py:62 | an accepted lattice line times the scale is that line's three numbers each times the scale |
| VaspGeometry.ParsePositionRow | ec_interface/vasp_geometry.py:80-83 | an accepted position line has at least three tokens (six with selective dynamics), the first of which reads as the x coordinate; without selective dynamics the flags are all clear |
| VaspGeometry.PositionRowMeaning | ec_interface/vasp_geometry.py:80-83 | coordinates are the first three tokens; a flag is true iff its token is exactly `T`; no flags without selective dynamics |
| VaspGeometry.ParseRows | ec_interface/vasp_geometry.py:79-85 | exactly `count` position rows are read |
| VaspGeometry.ParseRowsAt | ec_interface/vasp_geometry.py:79-85 | row `j` read is what the row reader makes of line `start + j` |
| VaspGeometry.ParseRowsReads | ec_interface/vasp_geometry.py:79-85 | the rows read iff every one of the `count` lines reads |
| VaspGeometry.RowFromLine | ec_interface/vasp_geometry.py:79-85 | row `j`'s coordinates are the first three numbers of line `start + j`; its flags say which of the next three tokens are `T`, and are clear without selective dynamics |
| VaspGeometry.ParseCell | ec_interface/vasp_geometry.py:61-62 | the cell reads iff the scale and the three lattice lines read; the lattice is the scale times the three rows, in file order |
| VaspGeometry.CellIsScaled | ec_interface/vasp_geometry.py:61-62 | `scaling * numpy.array(rows)`: each lattice vector is the scale of line 1 times the three numbers on its own line |
| VaspGeometry.ParseMode | ec_interface/vasp_geometry.py:67-73 | selective iff the stripped line after the counts starts with `s`/`S`; direct iff the mode line starts with `d`/`D`; an empty mode line raises |
| VaspGeometry.ParseHeader | ec_interface/vasp_geometry.py:58-73 | stripped title, types split on whitespace, counts parsed as integers, the lattice as `ParseCell`, mode as `ParseMode` |
| VaspGeometry.Parse | ec_interface/vasp_geometry.py:56-100 | `from_poscar`: title, types, counts, `max(sum(counts), 0)` positions, flags iff selective, direct mode as the mode line says; the lattice as `ParseCell`; the positions and flags are the rows read from the position lines |
| VaspGeometry.PositionsFromLines | ec_interface/vasp_geometry.py:56-100 | position `j` of the geometry read has the first three numbers of position line `j` as coordinates; with selective dynamics, its flags say which of the next three tokens are `T` |
| VaspGeometry.ParsePrintedText | ec_interface/vasp_geometry.py:34-100 | the text of `str(g)`, split into lines as `readline()` sees them, is the written lines plus the empty rest after the final newline, and reads back as `ParsePrinted` says |
| VaspGeometry.TextLines | ec_interface/vasp_geometry.py:34-54 | every line of `str(g)` ends in a newline, and no line holds one inside |
| VaspGeometry.TrailingEmptyLine | ec_interface/vasp_geometry.py:56-100 | an empty line after the last one reads like the end of the file |
| VaspGeometry.ParseSameLines | ec_interface/vasp_geometry.py:56-100 | `from_poscar` reads only through `readline()`: two files whose lines agree, an empty line past the end included, read the same |
| VaspGeometry.IonsAreTypes | ec_interface/vasp_geometry.py:25-27 | every ion label is one of the ion types |
| VaspGeometry.ParsePrinted | ec_interface/vasp_geometry.py:34-100 | serialise then parse gives back title, types, counts, mode and flags exactly, and lattice and positions up to the formatter |
| VaspGeometry.HeaderParses | ec_interface/vasp_geometry.py:34-45 | the written header reads back as the header of the geometry |
| VaspGeometry.PositionsParse | ec_interface/vasp_geometry.py:47-52 | the written position lines read back as the positions and flags |
| VaspGeometry.PrintedRowParses | ec_interface/vasp_geometry.py:48-52 | one written position line reads back as its re-read coordinates and its flags |
| VaspGeometry.CoordinatesSplit | ec_interface/vasp_geometry.py:48 | three written numbers followed by other tokens split into those tokens |
| VaspGeometry.Cartesian | ec_interface/vasp_geometry.py:102-111 | one row per position; in cartesian mode the positions themselves |
| VaspGeometry.CartesianEinsum | ec_interface/vasp_geometry.py:107 | for every lattice in direct mode, entry `(i, j)` is `einsum('ij,jk->ij')`'s sum over `k` of `positions[i][j] * lattice[j][k]` |
| VaspGeometry.CartesianDiagonal | ec_interface/vasp_geometry.py:107 | for a diagonal lattice, `einsum('ij,jk->ij')` agrees with the row-vector-times-matrix map |
| VaspGeometry.CartesianObliqueCell | tests/test_geometry.py:24-39 | for the oblique test cell it does not: `(0.5, 0.25, 0)` goes to `(1.5, 1.125, 0)`, not `(1.875, 0.75, 0)` |
| VaspGeometry.ZCoords | ec_interface/vasp_geometry.py:117 | one z coordinate per ion |
| VaspGeometry.ZCoordsAt | ec_interface/vasp_geometry.py:117 | the z coordinate scaled by the sum of the third lattice row in direct mode, unchanged in cartesian mode |
| VaspGeometry.SlabThickness | ec_interface/vasp_geometry.py:120-125 | none exactly for a geometry without ions (numpy raises) |
| VaspGeometry.SlabThicknessSpan | ec_interface/vasp_geometry.py:120-125 | the thickness is non-negative, bounds every z difference, and is reached by one |
| VaspGeometry.InterslabDistance | ec_interface/vasp_geometry.py:113-118 | none exactly for a geometry without ions |
| VaspGeometry.ThicknessPlusInterslab | ec_interface/vasp_geometry.py:113-125 | `slab_thickness + interslab_distance == lattice[2][2]` |
| VaspGeometry.CellHeight | ec_interface/vasp_geometry.py:134-140 | the new cell height is the z span plus `d` |
| VaspGeometry.ResettledBounds | ec_interface/vasp_geometry.py:134-143 | after the two shifts the lowest z is `d/2` and the highest is the span plus `d/2` |
| VaspGeometry.ResettledAt | ec_interface/vasp_geometry.py:134-143 | each z moves by `d/2 - min z` |
| VaspGeometry.ResettledSpan | ec_interface/vasp_geometry.py:134-143 | the shifts keep the span |
| VaspGeometry.ChangeInterslab | ec_interface/vasp_geometry.py:127-164 | fails with `NoAtoms` iff there is no ion (numpy's `min` raises); fails with `ZeroCell` iff in direct mode the new cell height is zero (where numpy would divide by zero) |
| VaspGeometry.ChangeInterslabKeeps | ec_interface/vasp_geometry.py:146-163 | title, types, counts, mode, flags, lattice rows 0-1 and position columns 0-1 are kept; row 2 becomes `(0, 0, thickness + d)` |
| VaspGeometry.DirectZ | ec_interface/vasp_geometry.py:149 | a direct z of `v / n` in a cell of height `n` is the cartesian `v` |
| VaspGeometry.ChangeInterslabResettles | ec_interface/vasp_geometry.py:131-151 | the new cartesian z are the old ones shifted by `d/2 - min z` |
| VaspGeometry.ChangeInterslabZ | ec_interface/vasp_geometry.py:131-151 | the same, ion by ion |
| VaspGeometry.ChangeInterslabGap | tests/test_set_vacuum.py:46-52 | the thickness is kept, the interslab distance becomes exactly `d`, and the lowest ion sits at `d/2` |
| Schema.EntriesHoldAt | ec_interface/ec_parameters.py:11-17 | a dictionary schema's entries hold iff each required key is present and each present key passes its check |
| EcParameters.InputSchemaRule | ec_interface/ec_parameters.py:7-17 | the schema accepts exactly the mappings with float `ne_pzc > 0`, `ne_added >= 0`, `ne_removed >= 0`, `step > 0`, an optional string `prefix`, and no other key |
| EcParameters.FromYaml | ec_interface/ec_parameters.py:43-52 | a rejected document raises `ECInputError`; an accepted one gives its numbers, and `prefix` defaults to `EC` |
| EcParameters.Steps | ec_interface/ec_parameters.py:32-41 | the generator terminates iff `start > stop` or `step > 0`; it then yields `Count` values, value `k` being `start + k * step` |
| EcParameters.CountBounds | ec_interface/ec_parameters.py:39-41 | below the count the values stay `<= stop`; the value at the count is past `stop` |
| EcParameters.StepWithin | ec_interface/ec_parameters.py:39 | values below the count pass the loop test |
| EcParameters.StepBeyond | ec_interface/ec_parameters.py:39 | the value at the count fails it |
| EcParameters.CountPositive | ec_interface/ec_parameters.py:36-39 | some value is yielded iff `start <= stop` |
| EcParameters.StepAtNext | ec_interface/ec_parameters.py:41 | consecutive values differ by exactly `step` |
| EcParameters.StepsSweep | ec_interface/ec_parameters.py:36-41 | first value `ne_pzc - ne_removed`; each value is the previous plus `step` (strictly increasing); all `<= ne_pzc + ne_added`; the next would not be |
| EcParameters.ValidatedStepCount | ec_interface/ec_parameters.py:36-41 | for validated input there are `floor((ne_added + ne_removed) / step) + 1` values, at least one |
| EcParameters.SweepExample | tests/test_ec_parameters.py:26-28 | `ne = 1.0`, 0.2 added and removed, step 0.1 gives `[0.8, 0.9, 1.0, 1.1, 1.2]` |
| EcParameters.GenerateSteps | ec_interface/ec_parameters.py:36-41 | the while loop, as written, yields exactly `Steps` |
| EcParameters.Insert | tests/test_ec_parameters.py:31-63 | inserting keeps the sequence increasing and adds exactly the new value |
| EcParameters.InsertAll | tests/test_ec_parameters.py:31-63 | the same for a list of extras |
| EcParameters.MergedSteps | tests/test_ec_parameters.py:31-63 | the steps with the extras: increasing, holding exactly the steps and the extras, each once |
| EcParameters.IncreasingUnique | tests/test_ec_parameters.py:45-63 | an increasing sequence is determined by its values, so order and repeats of the extras do not matter |
| EcInput.InputSchemaRule | ec_interface/ec_input.py:8-17 | this schema accepts exactly the four numbers, with no `prefix` and no other key |
| EcInput.FromYaml | ec_interface/ec_input.py:42-51 | a rejected document raises `ECInputError`; an accepted one gives its four numbers |
| EcInput.SchemasAgree | ec_interface/ec_input.py:12-17 | the two readers accept the same documents, except those with `prefix`, and read the same numbers |
| EcInput.PrefixRejected | ec_interface/ec_input.py:12-17 | a document with `prefix` is rejected |
| EcInput.RemainingStep | ec_interface/ec_input.py:38-40 | each increment leaves one value fewer to yield (the generator terminates) |
| EcInput.StepsAgree | ec_interface/ec_input.py:31-40 | `ECInput.steps` yields exactly what `ECParameters.steps` yields for the same numbers |
| EcInput.Steps | ec_interface/ec_input.py:31-40 | the generator ends iff `start > stop` or `step > 0`; it then yields something iff `start <= stop`, starting at `start`, each value the previous plus `step`, all within `[start, stop]` |
| EcInput.From | ec_interface/ec_input.py:35-40 | from `i` with a positive step: values iff `i <= stop`, starting at `i`, each the previous plus `step`, all within `[i, stop]` |
| EcInput.FromIsSuffix | ec_interface/ec_input.py:35-40 | started from the `k`-th value, the generator yields the values from `k` on |
| EcInput.CreateDirectories | ec_interface/ec_input.py:63-70 | succeeds iff the four files exist; otherwise names the first missing one in the order INCAR, POSCAR, POTCAR, KPOINTS |
| Checks.FirstFailing | ec_interface/ec_input.py:67-70 | the first failing item, with all before it passing; none iff all pass |
| MolecularGeometry.FromRows | ec_interface/molecular_geometry.py:12-16 | the constructor's shape assertion: accepted iff there are as many rows as symbols, each of three numbers, and at least one (an empty `numpy.array` has shape `(0,)`) |
| MolecularGeometry.AtomRow | ec_interface/molecular_geometry.py:33-35 | an atom line reads iff it has a first item and the rest parse; the symbol is the first item |
| MolecularGeometry.ReadAtoms | ec_interface/molecular_geometry.py:32-35 | exactly `count` atom lines are read |
| MolecularGeometry.ReadAtomsRows | ec_interface/molecular_geometry.py:32-35 | atom `i` comes from line `2 + i` |
| MolecularGeometry.AtomsFromLines | ec_interface/molecular_geometry.py:32-35 | lines that each read as given atoms are read as those atoms |
| MolecularGeometry.FromXyz | ec_interface/molecular_geometry.py:21-37 | a bad count line raises `ValueError`; success means `n > 0` atoms with `n` from the first line; `n <= 0` fails the constructor's assertion |
| MolecularGeometry.Pad2 | ec_interface/molecular_geometry.py:44 | `'{:2}'`: the symbol left-aligned, padded with spaces to width 2 |
| MolecularGeometry.XyzLines | ec_interface/molecular_geometry.py:42-46 | the count, the title, then one line per atom in order |
| MolecularGeometry.AsXyz | ec_interface/molecular_geometry.py:39-46 | the text opens with the atom count, a newline and the title; it is exactly that for a molecule without atoms |
| MolecularGeometry.AsXyzLines | ec_interface/molecular_geometry.py:39-46 | splitting the text on newlines gives back those lines |
| MolecularGeometry.AtomLineSplit | ec_interface/molecular_geometry.py:44 | a written atom line splits into the symbol, then the coordinate tokens |
| MolecularGeometry.AtomLineParses | ec_interface/molecular_geometry.py:44 | a written atom line reads back as its symbol and re-read coordinates |
| MolecularGeometry.XyzRoundTrip | ec_interface/molecular_geometry.py:21-46 | reading what `as_xyz` wrote gives the symbols and, up to the formatter, the positions |
| MolecularGeometry.EmptyNotReadable | ec_interface/molecular_geometry.py:29-37 | the text of a molecule without atoms cannot be read back |
| MolecularGeometry.Zip | ec_interface/molecular_geometry.py:62 | pair `i` is `(symbols[i], i)` |
| MolecularGeometry.SortedPairs | ec_interface/molecular_geometry.py:62 | each sorted pair holds an original index and that atom's symbol |
| MolecularGeometry.Reorder | ec_interface/molecular_geometry.py:57-64 | the copy keeps one position per symbol; without `sort` it is the molecule itself |
| MolecularGeometry.Origin | ec_interface/molecular_geometry.py:64 | one original index per place |
| MolecularGeometry.PositionsFollowSymbols | ec_interface/molecular_geometry.py:61-64 | place `i` holds the symbol and the position of the same original atom |
| MolecularGeometry.OriginIsPermutation | ec_interface/molecular_geometry.py:62-64 | sorting visits every original atom exactly once |
| MolecularGeometry.SortedBySymbol | ec_interface/molecular_geometry.py:62-63 | sorted symbols are non-decreasing in Python's string order, and equal symbols keep their original order |
| MolecularGeometry.SortedPairsCharacterised | ec_interface/molecular_geometry.py:62 | the sorted pairs are the one sorted permutation of the zipped pairs |
| MolecularGeometry.ToVasp | ec_interface/molecular_geometry.py:48-80 | title and lattice passed through; cartesian, without flags; ions counted on the reordered symbols; every position reordered then shifted (no shift: unchanged) |
| PairSort.StrLessTotal | ec_interface/molecular_geometry.py:62 | Python's string order is total on distinct strings |
| PairSort.StrLessTransitive | ec_interface/molecular_geometry.py:62 | and transitive |
| PairSort.Sort | ec_interface/molecular_geometry.py:62 | `sorted` returns a permutation of its input |
| PairSort.SortSorted | ec_interface/molecular_geometry.py:62 | in tuple order |
| PairSort.SortedUnique | ec_interface/molecular_geometry.py:62 | two sorted permutations of the same pairs are equal |
| PairSort.SortCharacterised | ec_interface/molecular_geometry.py:62 | `r == sorted(s)` iff `r` is sorted and a permutation of `s` |
| CreatePotcar.PairOf | ec_interface/scripts/create_potcar.py:18 | `key, val = chunk.split('=')` succeeds iff there is exactly one `=`; `key + '=' + val` is the chunk |
| CreatePotcar.Fold | ec_interface/scripts/create_potcar.py:15-21 | the loop raises iff some chunk is not `key=val` |
| CreatePotcar.TranslateList | ec_interface/scripts/create_potcar.py:12-23 | the empty string gives the empty map; otherwise success iff every comma chunk is `key=val` |
| CreatePotcar.LastChunkWins | ec_interface/scripts/create_potcar.py:16-19 | the keys are those of the chunks, each mapped to the value of the last chunk setting it |
| CreatePotcar.PairOfJoined | ec_interface/scripts/create_potcar.py:18 | `key=val` without other `=` reads back as `(key, val)` |
| CreatePotcar.SingleChunk | ec_interface/scripts/create_potcar.py:13-19 | one chunk gives one pair, untrimmed |
| CreatePotcar.TwoEqualsRejected | ec_interface/scripts/create_potcar.py:18-21 | `a=b=c` raises `ArgumentTypeError` |
| CreatePotcar.TrailingCommaRejected | ec_interface/scripts/create_potcar.py:15-21 | a trailing comma raises `ArgumentTypeError` |
| CreatePotcar.FoldTwo | ec_interface/scripts/create_potcar.py:16-19 | two chunks set their keys in order |
| CreatePotcar.LaterChunkOverrides | ec_interface/scripts/create_potcar.py:16-19 | a later chunk with the same key overrides the earlier one |
| CreatePotcar.PseudoDirectories | ec_interface/scripts/create_potcar.py:54-58 | per ion type, in order, `pseudos[t]` when present, else `t` |
| CreatePotcar.RootOf | ec_interface/scripts/create_potcar.py:60 | `pathlib`'s root of a path string: none iff it does not start with `/`; otherwise `/` or `//` |
| CreatePotcar.Components | ec_interface/scripts/create_potcar.py:60 | the components kept are the non-empty pieces other than `.`, and all of them |
| CreatePotcar.ParsePath | ec_interface/scripts/create_potcar.py:60 | `PurePosixPath(s)`: absolute iff `s` starts with `/`; no component is empty, `.` or holds a slash |
| CreatePotcar.JoinPath | ec_interface/scripts/create_potcar.py:60 | `p / seg`: an absolute `seg` replaces `p`; otherwise its components are appended to those of `p` |
| CreatePotcar.FilePath | ec_interface/scripts/create_potcar.py:60 | `potpaw / dir / name` names a file called `name` |
| CreatePotcar.PotcarPath | ec_interface/scripts/create_potcar.py:60 | `potpaw / dir / 'POTCAR'` names a file called `POTCAR` |
| CreatePotcar.FilePathOfName | ec_interface/scripts/create_potcar.py:60 | for a normalised `potpaw` and a one-component `dir`, the path is `potpaw/dir/name` |
| CreatePotcar.PotcarPathOfName | ec_interface/scripts/create_potcar.py:60 | the same for `POTCAR` |
| CreatePotcar.FilePathAbsolute | ec_interface/scripts/create_potcar.py:60 | an absolute `dir` makes the path independent of `potpaw` |
| CreatePotcar.FilePathEmptyDir | ec_interface/scripts/create_potcar.py:60 | an empty `dir` acts like `.`, giving the file directly under `potpaw` |
| CreatePotcar.FilePathSlashes | ec_interface/scripts/create_potcar.py:60 | repeated and trailing slashes add no component |
| CreatePotcar.PotcarPaths | ec_interface/scripts/create_potcar.py:54-60 | one path per ion type, each naming a `POTCAR` |
| CreatePotcar.MakePotcar | ec_interface/scripts/create_potcar.py:54-62 | completes iff every POTCAR exists, then writing their contents in ion-type order; otherwise it stops at a POTCAR path of one of the types |
| CreatePotcar.Concatenate | ec_interface/scripts/create_potcar.py:60-62 | nothing is missing iff every POTCAR exists |
| CreatePotcar.ConcatenateStopsAtMissing | ec_interface/scripts/create_potcar.py:54-62 | the output is the POTCARs before the first missing one (all if none), one block per type; the reported one is the first missing |
| CreatePotcar.NoPseudosUsesTypes | ec_interface/scripts/create_potcar.py:54-60 | without `--pseudos` each type is read from its own directory |
| IntegrateXyAverage.Divide | ec_interface/scripts/integrate_xy_average.py:27 | every value divided by `nZ` |
| IntegrateXyAverage.SumDivide | ec_interface/scripts/integrate_xy_average.py:27-29 | the total of the divided profile is the raw total over `nZ` |
| IntegrateXyAverage.Regions | ec_interface/scripts/integrate_xy_average.py:32-40 | the boundaries start at 0 and end at N, and every interior boundary is an index where the profile crosses the threshold |
| IntegrateXyAverage.FindRegions | ec_interface/scripts/integrate_xy_average.py:32-40 | the loop, as written, builds `Regions` |
| IntegrateXyAverage.CrossingsBelowSpec | ec_interface/scripts/integrate_xy_average.py:36-38 | the boundaries found are increasing and are exactly the crossings |
| IntegrateXyAverage.RegionsShape | ec_interface/scripts/integrate_xy_average.py:32-40 | starts at 0, ends at N; an interior index is a boundary iff the values on each side lie strictly on opposite sides of the threshold; strictly increasing for a non-empty profile |
| IntegrateXyAverage.IncreasingCardinality | ec_interface/scripts/integrate_xy_average.py:42 | an increasing sequence has as many distinct values as entries |
| IntegrateXyAverage.RegionCount | ec_interface/scripts/integrate_xy_average.py:42 | the reported region count is the number of crossings plus one |
| IntegrateXyAverage.Charges | ec_interface/scripts/integrate_xy_average.py:46-50 | one sum per region: charge `k` is `xy_average[beg:end].sum()` between boundaries `k` and `k + 1` |
| IntegrateXyAverage.ChargesAddUp | ec_interface/scripts/integrate_xy_average.py:46-50 | the region sums add up to the sum from the first to the last boundary |
| IntegrateXyAverage.Integrate | ec_interface/scripts/integrate_xy_average.py:25-50 | raises `ZeroDivisionError` iff `nZ == 0` |
| IntegrateXyAverage.IntegrateRegion | ec_interface/scripts/integrate_xy_average.py:44-55 | one printed line per region; line `k` is `[beg / nZ * z_max, end / nZ * z_max)` for boundaries `k` and `k + 1` of `regions`, with the divided profile's sum from `beg` to `end` |
| IntegrateXyAverage.IntegrateTiles | ec_interface/scripts/integrate_xy_average.py:46-48 | the printed regions start at z = 0, end at `N / nZ * z_max`, each starting where the previous ends |
| IntegrateXyAverage.IntegrateTotal | ec_interface/scripts/integrate_xy_average.py:29-50 | the total is the raw sum over `nZ`, and the region charges add up to it |
| MakeDirectories.SkipSpaces | ec_interface/scripts/make_directories.py:38 | a greedy `\s*`: the first non-whitespace index, all whitespace before it |
| MakeDirectories.GreedyIsRegex | ec_interface/scripts/make_directories.py:38 | the greedy match of `KEY\s*=\s*TAIL` exists iff the regular expression matches there |
| MakeDirectories.GreedyGivesRegex | ec_interface/scripts/make_directories.py:38 | a greedy match is a regular-expression match |
| MakeDirectories.RegexGivesGreedy | ec_interface/scripts/make_directories.py:38 | a regular-expression match is found greedily |
| MakeDirectories.NelectDigitsOptional | ec_interface/scripts/make_directories.py:41 | `[0-9]*` may be empty, so any `NELECT =` triggers the warning |
| MakeDirectories.Preflight | ec_interface/scripts/make_directories.py:20-39 | succeeds iff the five files exist, the input is valid and INCAR sets LCHARG, LVHAR, LVTOT; each error names the first failing item in that order |
| MakeDirectories.FirstErrorReported | ec_interface/scripts/make_directories.py:20-29 | a missing file is reported iff some file is missing; an input error iff all files exist and the input is invalid |
| MakeDirectories.StepAction | ec_interface/scripts/make_directories.py:49-61 | against the directories present at that moment: a present directory is skipped iff `force` is not set, recreated iff it is; a written INCAR is the step's INCAR |
| MakeDirectories.Actions | ec_interface/scripts/make_directories.py:45-61 | one action per step, in order; step `i` is skipped (without `force`) or recreated (with it) iff its directory existed before the call or an earlier step has the same directory, since `exists()` sees what earlier iterations made |
| MakeDirectories.ActionsFromAt | ec_interface/scripts/make_directories.py:45-61 | step `i` of the loop acts on the directories present when the loop reaches it |
| MakeDirectories.ActionsFromEach | ec_interface/scripts/make_directories.py:45-61 | the same, for every step at once |
| MakeDirectories.PresentAtTail | ec_interface/scripts/make_directories.py:49-56 | after the first step its directory is present, so the rest of the loop sees it |
| MakeDirectories.CreateInputDirectories | ec_interface/scripts/make_directories.py:15-61 | fails iff a preflight check fails, with that error; otherwise warns iff the INCAR already assigns `NELECT`, and plans one action per generated step, each decided against the directories present when the loop reaches it (see `Actions`) |
| MakeDirectories.StepIncar | ec_interface/scripts/make_directories.py:59-61 | the step's INCAR starts with the original text, assigns `NELECT` (the warning check matches it), and still sets every required keyword the original sets |
| MakeDirectories.NelectLineAssigns | ec_interface/scripts/make_directories.py:61 | the appended `NELECT = ...` line matches `NELECT\s*=` |
| MakeDirectories.FoundExtends | ec_interface/scripts/make_directories.py:38 | a match of `KEY\s*=\s*TAIL` stays a match when text is appended |
| MakeDirectories.StepIncarKeepsOriginal | ec_interface/scripts/make_directories.py:59-61 | each INCAR is the original text followed by `\n! EC calculation\nNELECT = ` and the count |
| MakeDirectories.ForceDecidesSkips | ec_interface/scripts/make_directories.py:49-56 | with `force` no step is skipped; without it a step is skipped iff its directory existed before the call or an earlier step has the same directory; a step is created iff its directory is new and no earlier step has it |
| MakeDirectories.SharedDirectory | ec_interface/scripts/make_directories.py:49-56 | a later step sharing a directory with an earlier one never creates it: it is skipped without `force`, recreated with it |
| MakeDirectories.SharedDirectoryExample | ec_interface/scripts/make_directories.py:45-56 | three steps whose `{:.3f}` names coincide (`EC_21.000`), in a fresh directory: created once, then skipped twice |
| Text.SplitJoinTokens | ec_interface/vasp_geometry.py:37 | `' '.join` of tokens then `split()` gives back the tokens |
| Text.StripIdentity | ec_interface/vasp_geometry.py:58 | `strip()` leaves a string without surrounding whitespace unchanged |
| Text.SplitOn | ec_interface/scripts/create_potcar.py:15 | `split(sep)` gives at least one part, none holding `sep`, and the parts joined by `sep` are the input |
| Text.SplitOnJoinOn | ec_interface/scripts/create_potcar.py:15 | parts without `sep`, joined then split, come back |
| Text.JoinOnAppend | ec_interface/scripts/create_potcar.py:60 | joining two lists of parts is joining each and putting the separator between |
| Text.IntToStringRoundTrip | ec_interface/molecular_geometry.py:29 | `int(str(n)) == n` |

## Left out

- Reading `vaspout.h5`, `CHGCAR` and `LOCPOT`, grid parsing and planar averaging:
  `VaspChgCar`, `VaspLocPot` and `VaspResultGrid` are not part of this model. Each step
  is given by what those files provide. The planar-averaged profiles are inputs.
- The CSV files written by `_extract_data`, and all verbose printing.
- The capacitance fits of `estimate_active_fraction`. They are floating-point least
  squares (`numpy.polyfit`). Only the vectors they fit are modelled.
- `compute_fee_hbm`, an empty stub.
- The `numpy.hstack(work_function, fee)` call of `compute_fee_pbm`. It passes two
  arguments where numpy expects one sequence. Only the fee vector is modelled.
- `directories()` of the parameters: it is called by the source but not defined in this
  version. The step directory names are a parameter (`name`).
- `vasp_geometry.count_ions` is not part of this model. It is a parameter of `ToVasp`.
- Float formatting (`{: 16.12f}`, `{: .7f}`, `{:.3f}`) and float parsing: they are the
  parameters `fmt`, `parse` and `fmt3`.
- Float rounding, including the drift of `i += step`. That drift can drop or add the
  last step, and exact reals do not reproduce it.
- NaN, infinities and numpy's division by zero. `ChangeInterslab` reports a zero new
  cell height in direct mode as an error instead of producing non-finite coordinates.
- VaspGeometry.ChangeInterslab: the in-place aliasing is not reproduced. The source's
  version also overwrites the cached cartesian array, and in cartesian mode the
  geometry's own positions. The model returns a new geometry and leaves the old one
  unchanged.
- VaspGeometry.ParseLatticeRow: requires exactly three numbers per lattice line. The source builds one `numpy.array` from the three rows, whatever their length. Three rows of another common length (a 3×4 lattice, say) are accepted there and fail only later; rows of unequal length raise `ValueError` in current numpy. The model reports every row without exactly three numbers as `InvalidValue`.
- VaspGeometry.ParseCell: stricter than the source in the same way: the cell reads only when each lattice line holds exactly three numbers.
- VaspGeometry.PositionRowMeaning: the model rejects a position line with fewer than three tokens, and a selective-dynamics line with fewer than six, as `InvalidValue`. The source takes `chunks[:3]` and `chunks[3:6]` as they come. A line with two tokens, a missing line at the end of the file (read as `""`), or a line with a single flag gives a shorter list, and numpy then builds a narrower or ragged array, or raises. The same holds for `VaspGeometry.ParsePositionRow`.
- VaspGeometry.ParsePrinted: stated for geometries `str(g)` writes and `from_poscar`
  reads as written. The title must be already stripped and hold no newline, the types
  must be single tokens, there must be one position (and one flag triple) per ion, and
  the formatter must write no newline. `VaspGeometry.ParsePrintedText` states the same
  for the text itself, split into lines.
- MolecularGeometry.XyzRoundTrip: stated for molecules with at least one atom. The
  written form of an empty molecule is not readable (`EmptyNotReadable`).
- MolecularGeometry.ToVasp: only a single 3-vector shift. The numpy broadcast of an
  `(n, 3)` array of shifts is not modelled.
- MolecularGeometry.FromRows: for ragged rows, current numpy raises `ValueError` when
  building the array, and older numpy builds an object array that fails the assertion.
  Both are reported as `ShapeMismatch`.
- Text: `int()` is modelled on ASCII digits with an optional sign. The underscores and
  the non-ASCII digits `int()` also accepts are not. Neither are universal newlines:
  text is split on `\n` only.
- YAML loading and the `schema` library's messages: a document is the value
  `yaml.load` returns, and `ECInputError` carries no message.
- Filesystem effects of `create_input_directories`: `mkdir`, `rmtree`, symlinks and
  copies. The function returns the plan of what it would do. The plan does track
  which step directories are present: each step sees those made by earlier steps.
- In `create_potcar`:
  - the argument parser and `to_directory`;
  - the output file, modelled as the text written; what was written before a missing
    POTCAR stays written;
  - the filesystem: the existing files are a map keyed by the path string `pathlib`
    prints. What the operating system does with that path (symlinks, `..`, a
    directory named where a file is expected) is not modelled.
- Test-only APIs that this version of the sources does not define: `ne_zc`,
  `Geometry.to_poscar`, `ECResults.from_hdf5`. The `additional` extra steps of the
  tests are modelled as `EcParameters.MergedSteps`, separate from `Steps`.
- The command-line scripts other than the three above, which add no logic of their own.
- IntegrateXyAverage.RegionsShape: for an empty profile the boundaries are `[0, 0]`,
  which are not strictly increasing. The lemma states this case separately.
- EcResults.FeeActiveFraction: its own contract states only the length. The values are stated by `EcResults.FeesFromRows`.
- EcResults.FeePbm: its own contract states only the length. The values are stated by `EcResults.FeesFromRows`.
- EcResults.CountExtracted: its own contract states only the bound. `EcResults.CollectCount` states what it counts.
- VaspGeometry.ToLines: its own contract states only the number of lines. The contents are stated by `VaspGeometry.ParsePrinted` and the lemmas under it.
- VaspGeometry.ZCoords: its own contract states only the length. The values are stated by `VaspGeometry.ZCoordsAt`.
- VaspGeometry.SlabThickness: its own contract states only when it is defined. The value is stated by `VaspGeometry.SlabThicknessSpan`.
- VaspGeometry.InterslabDistance: its own contract states only when it is defined. The value is stated by `VaspGeometry.ThicknessPlusInterslab`.
- VaspGeometry.Cartesian: its own contract fixes only the cartesian case. The direct case is stated for every lattice by `VaspGeometry.CartesianEinsum` (the sum `einsum` computes). Agreement with the crystallographic map is proved only for diagonal lattices (`VaspGeometry.CartesianDiagonal`). For oblique lattices there is one counterexample (`VaspGeometry.CartesianObliqueCell`), not a general statement of where the two differ.
- VaspGeometry.ParseRows: its own contract states only the count. For any lines, `VaspGeometry.ParseRowsAt`, `VaspGeometry.ParseRowsReads` and `VaspGeometry.RowFromLine` state the rows.
- MolecularGeometry.ReadAtoms: its own contract states only the count. The rows are stated by `MolecularGeometry.ReadAtomsRows`.
- MolecularGeometry.Origin: its own contract states only the length. `MolecularGeometry.OriginIsPermutation` and `MolecularGeometry.PositionsFollowSymbols` state the rest.

=== FILE: checks.dfy ===
/** Checks made one after the other, the first failure being the one reported. */
module Checks {
  import opened Outcomes

  /** The index of the first item that fails `ok`, or `None` when all pass. */
  function FirstFailing<T>(items: seq<T>, ok: T -> bool): (r: Option<nat>)
    ensures r.None? <==> forall i :: 0 <= i < |items| ==> ok(items[i])
    ensures r.Some? ==> r.value < |items| && !ok(items[r.value])
                        && forall i :: 0 <= i < r.value ==> ok(items[i])
  {
    if |items| == 0 then None
    else if !ok(items[0]) then Some(0)
    else
      match FirstFailing(items[1..], ok)
      case None => None
      case Some(i) => Some(i + 1)
  }
}

=== FILE: create_potcar.dfy ===
/** The `create_potcar` script: `translate_list`, the parser of the `--pseudos`
    option (`key=val,key=val,...`), and the loop that appends, for each ion type of the
    geometry, the POTCAR of its pseudopotential directory. Files are given as a map
    from path to content. */
module CreatePotcar {
  import opened Outcomes
  import opened Text

  /** `argparse.ArgumentTypeError('Must be `key=val`')`. */
  datatype ArgumentTypeError = MustBeKeyVal

  /** `key, val = chunk.split('=')`: the chunk's key and value when it holds exactly
      one `=`, and `None` when the unpacking raises. */
  function PairOf(chunk: string): (r: Option<(string, string)>)
    ensures r.Some? <==> |SplitOn(chunk, '=')| == 2
    ensures r.Some? ==> r.value.0 + "=" + r.value.1 == chunk
    ensures r.Some? ==> '=' !in r.value.0 && '=' !in r.value.1
  {
    var parts := SplitOn(chunk, '=');
    if |parts| == 2 then
      assert JoinOn(parts, '=') == parts[0] + "=" + JoinOn(parts[1..], '=');
      Some((parts[0], parts[1]))
    else None
  }

  /** The loop over the chunks, as a fold: each chunk, in order, sets its key; the
      first chunk `pair` rejects raises. */
  function Fold(chunks: seq<string>, pair: string -> Option<(string, string)>): (r: Result<map<string, string>, ArgumentTypeError>)
    ensures r.Ok? <==> forall i :: 0 <= i < |chunks| ==> pair(chunks[i]).Some?
    decreases |chunks|
  {
    if |chunks| == 0 then Ok(map[])
    else
      var tr :- Fold(chunks[..|chunks| - 1], pair);
      match pair(chunks[|chunks| - 1])
      case Some(kv) => Ok(tr[kv.0 := kv.1])
      case None => Err(MustBeKeyVal)
  }

  /** `translate_list(inp)`: the empty string gives an empty mapping; otherwise every
      comma-separated chunk must be `key=val`. */
  function TranslateList(inp: string): (r: Result<map<string, string>, ArgumentTypeError>)
    ensures |inp| == 0 ==> r == Ok(map[])
    ensures |inp| > 0 ==> (r.Ok? <==> forall c :: c in SplitOn(inp, ',') ==> PairOf(c).Some?)
  {
    if |inp| > 0 then
      var chunks := SplitOn(inp, ',');
      assert forall c :: c in chunks <==> exists i :: 0 <= i < |chunks| && chunks[i] == c;
      Fold(chunks, PairOf)
    else Ok(map[])
  }

  /** Chunk `i` sets `k`, and no later chunk sets it again. */
  predicate LastSetter(chunks: seq<string>, pair: string -> Option<(string, string)>, k: string, i: int) {
    && 0 <= i < |chunks|
    && pair(chunks[i]).Some? && pair(chunks[i]).value.0 == k
    && forall j :: i < j < |chunks| ==> pair(chunks[j]).None? || pair(chunks[j]).value.0 != k
  }

  /** The keys are those of the chunks, and each maps to the value of the LAST chunk
      with that key: a later chunk overrides an earlier one. */
  lemma {:induction false} LastChunkWins(chunks: seq<string>, pair: string -> Option<(string, string)>)
    requires Fold(chunks, pair).Ok?
    ensures forall i :: 0 <= i < |chunks| ==> pair(chunks[i]).Some? && pair(chunks[i]).value.0 in Fold(chunks, pair).value
    ensures forall k :: k in Fold(chunks, pair).value ==>
              exists i :: LastSetter(chunks, pair, k, i) && Fold(chunks, pair).value[k] == pair(chunks[i]).value.1
    decreases |chunks|
  {
    if |chunks| > 0 {
      var init := chunks[..|chunks| - 1];
      FoldLast(chunks, pair);
      LastChunkWins(init, pair);
      var m0 := Fold(init, pair).value;
      var last := pair(chunks[|chunks| - 1]).value;
      KeysAfterLast(chunks, pair, m0, last);
      ValuesAfterLast(chunks, pair, m0, last);
    }
  }

  /** Folding one more chunk adds its pair to the mapping of the others. */
  lemma FoldLast(chunks: seq<string>, pair: string -> Option<(string, string)>)
    requires |chunks| > 0 && Fold(chunks, pair).Ok?
    ensures var init := chunks[..|chunks| - 1];
            && Fold(init, pair).Ok? && pair(chunks[|chunks| - 1]).Some?
            && var last := pair(chunks[|chunks| - 1]).value;
               Fold(chunks, pair).value == Fold(init, pair).value[last.0 := last.1]
  {
  }

  lemma KeysAfterLast(chunks: seq<string>, pair: string -> Option<(string, string)>,
                      m0: map<string, string>, last: (string, string))
    requires |chunks| > 0 && pair(chunks[|chunks| - 1]) == Some(last)
    requires var init := chunks[..|chunks| - 1];
             forall i :: 0 <= i < |init| ==> pair(init[i]).Some? && pair(init[i]).value.0 in m0
    ensures forall i :: 0 <= i < |chunks| ==> pair(chunks[i]).Some? && pair(chunks[i]).value.0 in m0[last.0 := last.1]
  {
    var init := chunks[..|chunks| - 1];
    forall i | 0 <= i < |chunks|
      ensures pair(chunks[i]).Some? && pair(chunks[i]).value.0 in m0[last.0 := last.1]
    {
      if i < |init| {
        assert init[i] == chunks[i];
      }
    }
  }

  lemma ValuesAfterLast(chunks: seq<string>, pair: string -> Option<(string, string)>,
                        m0: map<string, string>, last: (string, string))
    requires |chunks| > 0 && pair(chunks[|chunks| - 1]) == Some(last)
    requires var init := chunks[..|chunks| - 1];
             forall k :: k in m0 ==> exists i :: LastSetter(init, pair, k, i) && m0[k] == pair(init[i]).value.1
    ensures var m := m0[last.0 := last.1];
            forall k :: k in m ==> exists i :: LastSetter(chunks, pair, k, i) && m[k] == pair(chunks[i]).value.1
  {
    var init := chunks[..|chunks| - 1];
    var n := |init|;
    var m := m0[last.0 := last.1];
    forall k | k in m
      ensures exists i :: LastSetter(chunks, pair, k, i) && m[k] == pair(chunks[i]).value.1
    {
      if k == last.0 {
        assert LastSetter(chunks, pair, k, n);
      } else {
        var i :| LastSetter(init, pair, k, i) && m0[k] == pair(init[i]).value.1;
        assert init[i] == chunks[i];
        assert LastSetter(chunks, pair, k, i);
      }
    }
  }

  /** No character of `s` is a separator. */
  predicate Plain(s: string) {
    '=' !in s && ',' !in s
  }

  /** A chunk made of a key and a value without `=` reads back as that pair. */
  lemma PairOfJoined(key: string, value: string)
    requires '=' !in key && '=' !in value
    ensures PairOf(key + "=" + value) == Some((key, value))
  {
    SplitOnJoinOn([key, value], '=');
    assert JoinOn([key, value], '=') == key + "=" + value;
  }

  /** `key=val` gives that one pair, untrimmed. */
  lemma SingleChunk(key: string, value: string)
    requires Plain(key) && Plain(value)
    ensures TranslateList(key + "=" + value) == Ok(map[key := value])
  {
    var chunk := key + "=" + value;
    assert ',' !in chunk;
    SplitOnNoSep(chunk, ',');
    PairOfJoined(key, value);
    assert [chunk][..0] == [];
    assert Fold([chunk], PairOf) == Ok(map[key := value]);
  }

  /** A chunk with two `=` (`a=b=c`) raises. */
  lemma TwoEqualsRejected(a: string, b: string, c: string)
    requires Plain(a) && Plain(b) && Plain(c)
    ensures TranslateList(a + "=" + b + "=" + c) == Err(MustBeKeyVal)
  {
    var chunk := a + "=" + b + "=" + c;
    SplitOnJoinOn([a, b, c], '=');
    assert [a, b, c][1..] == [b, c] && [b, c][1..] == [c];
    assert JoinOn([c], '=') == c;
    assert JoinOn([b, c], '=') == b + "=" + c;
    assert JoinOn([a, b, c], '=') == a + "=" + (b + "=" + c);
    assert JoinOn([a, b, c], '=') == chunk;
    assert ',' !in chunk;
    SplitOnNoSep(chunk, ',');
    assert PairOf(chunk).None?;
  }

  /** A trailing comma leaves an empty last chunk, which raises. */
  lemma TrailingCommaRejected(chunk: string)
    requires ',' !in chunk
    ensures TranslateList(chunk + ",") == Err(MustBeKeyVal)
  {
    SplitOnJoinOn([chunk, ""], ',');
    assert JoinOn([chunk, ""], ',') == chunk + [','] + JoinOn([""], ',');
    assert JoinOn([chunk, ""], ',') == chunk + ",";
    SplitOnNoSep("", '=');
    assert PairOf("").None?;
    assert [chunk, ""][..1] == [chunk];
    assert SplitOn(chunk + ",", ',') == [chunk, ""];
    assert Fold([chunk, ""], PairOf).Err?;
  }

  /** The fold over two accepted chunks. */
  lemma FoldTwo(a: string, b: string, pair: string -> Option<(string, string)>)
    requires pair(a).Some? && pair(b).Some?
    ensures Fold([a, b], pair) == Ok(map[pair(a).value.0 := pair(a).value.1][pair(b).value.0 := pair(b).value.1])
  {
    assert [a][..0] == [];
    assert Fold([a][..0], pair) == Ok(map[]);
    assert Fold([a], pair) == Ok(map[pair(a).value.0 := pair(a).value.1]);
    assert [a, b][..1] == [a];
  }

  /** A second chunk with the same key overrides the first. */
  lemma LaterChunkOverrides(key: string, first: string, second: string)
    requires Plain(key) && Plain(first) && Plain(second)
    ensures TranslateList(key + "=" + first + "," + key + "=" + second) == Ok(map[key := second])
  {
    var a, b := key + "=" + first, key + "=" + second;
    assert ',' !in a && ',' !in b;
    SplitOnJoinOn([a, b], ',');
    assert JoinOn([a, b], ',') == key + "=" + first + "," + key + "=" + second;
    PairOfJoined(key, first);
    PairOfJoined(key, second);
    FoldTwo(a, b, PairOf);
    assert map[key := first][key := second] == map[key := second];
  }

  // ---------------------------------------------------------------------------
  // The POTCAR loop of `main`

  /** The pseudopotential directory of each ion type: the one `--pseudos` gives for it,
      otherwise the type itself. */
  function PseudoDirectories(ionTypes: seq<string>, pseudos: map<string, string>): (r: seq<string>)
    ensures |r| == |ionTypes|
    ensures forall i :: 0 <= i < |ionTypes| ==>
              r[i] == (if ionTypes[i] in pseudos then pseudos[ionTypes[i]] else ionTypes[i])
  {
    seq(|ionTypes|, i requires 0 <= i < |ionTypes| =>
          if ionTypes[i] in pseudos then pseudos[ionTypes[i]] else ionTypes[i])
  }

  // ---------------------------------------------------------------------------
  // pathlib paths

  /** A `PurePosixPath`: its root (`""`, `"/"`, or `"//"` for exactly two leading
      slashes) and its components. */
  datatype PurePath = PurePath(root: string, parts: seq<string>)

  /** The components `pathlib` keeps from the pieces between slashes: empty pieces
      (from repeated, leading or trailing slashes) and `.` are dropped, in order. */
  function Components(pieces: seq<string>): (r: seq<string>)
    ensures forall k :: 0 <= k < |r| ==> r[k] != "" && r[k] != "." && r[k] in pieces
    ensures forall k :: 0 <= k < |pieces| && pieces[k] != "" && pieces[k] != "." ==> pieces[k] in r
    ensures |r| <= |pieces|
  {
    if |pieces| == 0 then []
    else
      var rest := Components(pieces[1..]);
      assert forall k :: 1 <= k < |pieces| ==> pieces[k] == pieces[1..][k - 1];
      if pieces[0] == "" || pieces[0] == "." then rest else [pieces[0]] + rest
  }

  /** The root `pathlib` gives a path string: none for a relative one, `//` for exactly
      two leading slashes, `/` for one or three and more. */
  function RootOf(s: string): (r: string)
    ensures r == "" <==> |s| == 0 || s[0] != '/'
    ensures r == "" || r == "/" || r == "//"
  {
    if |s| == 0 || s[0] != '/' then ""
    else if |s| >= 2 && s[1] == '/' && (|s| == 2 || s[2] != '/') then "//"
    else "/"
  }

  /** `PurePosixPath(s)`. */
  function ParsePath(s: string): (p: PurePath)
    ensures p.root == "" <==> |s| == 0 || s[0] != '/'
    ensures p.root == "" || p.root == "/" || p.root == "//"
    ensures forall k :: 0 <= k < |p.parts| ==> '/' !in p.parts[k] && p.parts[k] != "" && p.parts[k] != "."
  {
    var pieces := SplitOn(s, '/');
    var parts := Components(pieces);
    assert forall k :: 0 <= k < |parts| ==> parts[k] in pieces;
    PurePath(RootOf(s), parts)
  }

  /** `p / seg`: an absolute `seg` replaces `p`; otherwise its components follow those
      of `p`. */
  function JoinPath(p: PurePath, seg: string): (r: PurePath)
    ensures |seg| > 0 && seg[0] == '/' ==> r == ParsePath(seg)
    ensures (|seg| == 0 || seg[0] != '/') ==> r == PurePath(p.root, p.parts + ParsePath(seg).parts)
  {
    var q := ParsePath(seg);
    if q.root != "" then q else PurePath(p.root, p.parts + q.parts)
  }

  /** `str(p)`: the root, then the components separated by slashes; `.` when both are
      empty. */
  function PathString(p: PurePath): string
  {
    if |p.parts| == 0 then (if p.root == "" then "." else p.root)
    else p.root + JoinOn(p.parts, '/')
  }

  /** A single path component: not empty, not `.`, without a slash. */
  predicate IsName(s: string) {
    |s| > 0 && s != "." && '/' !in s
  }

  /** A name is read as a relative path of that one component. */
  lemma NameParses(name: string)
    requires IsName(name)
    ensures ParsePath(name) == PurePath("", [name])
  {
    SplitOnNoSep(name, '/');
    assert [name][1..] == [];
  }

  /** `r` names a file called `name`: `name` alone, or after a slash. */
  predicate NamesFile(r: string, name: string) {
    r == name || (|r| > |name| && r[|r| - |name| - 1..] == "/" + name)
  }

  /** `potpaw / dir / name`, as the string naming the file. */
  function FilePath(potpaw: string, dir: string, name: string): (r: string)
    requires IsName(name)
    ensures NamesFile(r, name)
  {
    var base := JoinPath(ParsePath(potpaw), dir);
    PathUnder(base, name);
    PathString(JoinPath(base, name))
  }

  /** `potpaw / dir / 'POTCAR'`, as the string naming the file. */
  function PotcarPath(potpaw: string, dir: string): (r: string)
    ensures NamesFile(r, "POTCAR")
  {
    FilePath(potpaw, dir, "POTCAR")
  }

  /** A path joined with a name prints as the name alone or ending in a slash and
      the name. */
  lemma PathUnder(base: PurePath, name: string)
    requires base.root == "" || base.root == "/" || base.root == "//"
    requires IsName(name)
    ensures NamesFile(PathString(JoinPath(base, name)), name)
  {
    NameParses(name);
    PathOfLast(base.root, base.parts, name);
  }

  /** A path whose last component is `name` prints as `name` alone or ending in a
      slash and `name`. */
  lemma PathOfLast(root: string, parts: seq<string>, name: string)
    requires root == "" || root == "/" || root == "//"
    ensures var r := PathString(PurePath(root, parts + [name]));
            r == name || (|r| > |name| && r[|r| - |name| - 1..] == "/" + name)
  {
    var r := PathString(PurePath(root, parts + [name]));
    if |parts| > 0 {
      JoinOnAppend(parts, [name], '/');
      assert r == root + JoinOn(parts, '/') + ("/" + name);
    } else {
      assert parts + [name] == [name];
      assert r == root + name;
      if root != "" {
        assert r == root[..|root| - 1] + ("/" + name);
      }
    }
  }

  /** With a `potpaw` already in the form `pathlib` prints and a plain directory name,
      the path is the text `potpaw/dir/name`. */
  lemma FilePathOfName(potpaw: string, dir: string, name: string)
    requires potpaw == PathString(ParsePath(potpaw)) && |ParsePath(potpaw).parts| > 0
    requires IsName(dir) && IsName(name)
    ensures FilePath(potpaw, dir, name) == potpaw + "/" + dir + "/" + name
  {
    NamesUnder(ParsePath(potpaw), dir, name);
  }

  /** The same for the POTCAR: `potpaw/dir/POTCAR`. */
  lemma PotcarPathOfName(potpaw: string, dir: string)
    requires potpaw == PathString(ParsePath(potpaw)) && |ParsePath(potpaw).parts| > 0
    requires IsName(dir)
    ensures PotcarPath(potpaw, dir) == potpaw + "/" + dir + "/" + "POTCAR"
  {
    assert IsName("POTCAR");
    FilePathOfName(potpaw, dir, "POTCAR");
  }

  /** Joining a path that has components with two names puts a slash before each. */
  lemma NamesUnder(p: PurePath, dir: string, name: string)
    requires |p.parts| > 0 && IsName(dir) && IsName(name)
    ensures PathString(JoinPath(JoinPath(p, dir), name)) == PathString(p) + "/" + dir + "/" + name
  {
    NameParses(dir);
    NameParses(name);
    JoinOnAppend(p.parts, [dir], '/');
    JoinOnAppend(p.parts + [dir], [name], '/');
  }

  /** An absolute directory replaces `potpaw`: the path does not depend on it. */
  lemma FilePathAbsolute(potpaw: string, other: string, dir: string, name: string)
    requires |dir| > 0 && dir[0] == '/' && IsName(name)
    ensures FilePath(potpaw, dir, name) == FilePath(other, dir, name)
    ensures FilePath(potpaw, dir, name) == PathString(PurePath(RootOf(dir), ParsePath(dir).parts + [name]))
  {
    NameParses(name);
  }

  /** The empty string and `.` are read as a path without components. */
  lemma EmptyParses()
    ensures ParsePath("") == PurePath("", [])
    ensures ParsePath(".") == PurePath("", [])
  {
    assert SplitOn("", '/') == [""];
    SplitOnNoSep(".", '/');
    assert Components([""]) == [];
    assert Components(["."]) == [];
  }

  /** An empty directory name, like `.`, adds no component: the file directly under
      `potpaw`. */
  lemma FilePathEmptyDir(potpaw: string, name: string)
    requires IsName(name)
    ensures FilePath(potpaw, "", name) == FilePath(potpaw, ".", name)
    ensures potpaw == PathString(ParsePath(potpaw)) && |ParsePath(potpaw).parts| > 0 ==>
              FilePath(potpaw, "", name) == potpaw + "/" + name
  {
    var pp := ParsePath(potpaw);
    EmptyParses();
    assert pp.parts + [] == pp.parts;
    assert JoinPath(pp, "") == pp && JoinPath(pp, ".") == pp;
    if |pp.parts| > 0 {
      NameUnder(pp, name);
    }
  }

  /** Joining a path that has components with a name puts a slash before it. */
  lemma NameUnder(p: PurePath, name: string)
    requires |p.parts| > 0 && IsName(name)
    ensures PathString(JoinPath(p, name)) == PathString(p) + "/" + name
  {
    NameParses(name);
    JoinOnAppend(p.parts, [name], '/');
  }

  /** The pieces between the slashes of a name followed by one or two slashes. */
  lemma NameSlashesSplit(name: string)
    requires IsName(name)
    ensures SplitOn(name + "/", '/') == [name, ""]
    ensures SplitOn(name + "//", '/') == [name, "", ""]
  {
    assert '/' !in name;
    assert SplitOn(name + "/", '/') == [name, ""] by {
      SlashesSplit();
      assert name + ['/'] + "" == name + "/";
      SplitOnFirstSep(name, "", '/');
    }
    assert SplitOn(name + "//", '/') == [name, "", ""] by {
      SlashesSplit();
      assert name + ['/'] + "/" == name + "//";
      SplitOnFirstSep(name, "/", '/');
    }
  }

  /** One slash separates two empty pieces, two slashes three. */
  lemma SlashesSplit()
    ensures SplitOn("/", '/') == ["", ""]
    ensures SplitOn("//", '/') == ["", "", ""]
  {
    assert SplitOn("", '/') == [""];
    SplitOnFirstSep("", "", '/');
    assert "" + ['/'] + "" == "/";
    SplitOnFirstSep("", "/", '/');
    assert "" + ['/'] + "/" == "//";
  }

  /** A name followed by slashes is read as that one component. */
  lemma NameSlashesParse(name: string)
    requires IsName(name)
    ensures ParsePath(name + "/") == PurePath("", [name])
    ensures ParsePath(name + "//") == PurePath("", [name])
  {
    NameSlashesSplit(name);
    assert [name, ""][1..] == [""] && [name, "", ""][1..] == ["", ""];
    assert [""][1..] == [] && ["", ""][1..] == [""];
    assert Components([""]) == [];
    assert Components(["", ""]) == [];
    assert Components([name, ""]) == [name];
    assert Components([name, "", ""]) == [name];
  }

  /** Repeated and trailing slashes add no component. */
  lemma FilePathSlashes(potpaw: string, dir: string, name: string)
    requires IsName(potpaw) && IsName(dir) && IsName(name)
    ensures FilePath(potpaw + "//", dir + "/", name) == potpaw + "/" + dir + "/" + name
  {
    NameSlashesParse(potpaw);
    NameSlashesParse(dir);
    var p := PurePath("", [potpaw]);
    assert JoinPath(p, dir + "/") == JoinPath(p, dir);
    NamesUnder(p, dir, name);
    assert JoinOn([potpaw], '/') == potpaw;
  }

  /** What the loop writes: the POTCAR contents in ion-type order, and the path that
      raised `FileNotFoundError`, if any; what was written before it stays written. */
  datatype Output = Output(written: string, missing: Option<string>)

  function Concatenate(paths: seq<string>, files: map<string, string>): (r: Output)
    ensures r.missing.None? <==> forall i :: 0 <= i < |paths| ==> paths[i] in files
    decreases |paths|
  {
    if |paths| == 0 then Output("", None)
    else if paths[0] !in files then Output("", Some(paths[0]))
    else
      var rest := Concatenate(paths[1..], files);
      Output(files[paths[0]] + rest.written, rest.missing)
  }

  /** The contents of the files at `paths`, concatenated; all must exist. */
  function Contents(paths: seq<string>, files: map<string, string>): string
    requires forall i :: 0 <= i < |paths| ==> paths[i] in files
  {
    if |paths| == 0 then "" else files[paths[0]] + Contents(paths[1..], files)
  }

  /** The output is the contents of the files before the first missing one (all of
      them when none is missing), and the missing one is the first. */
  lemma {:induction false} ConcatenateStopsAtMissing(paths: seq<string>, files: map<string, string>)
    ensures var r := Concatenate(paths, files);
            && (r.missing.None? ==> r.written == Contents(paths, files))
            && (r.missing.Some? ==>
                  exists i :: 0 <= i < |paths| && paths[i] == r.missing.value && paths[i] !in files
                              && (forall j :: 0 <= j < i ==> paths[j] in files)
                              && r.written == Contents(paths[..i], files))
    decreases |paths|
  {
    if |paths| > 0 {
      ConcatenateStopsAtMissing(paths[1..], files);
      var r := Concatenate(paths, files);
      if paths[0] !in files {
        assert paths[..0] == [];
      } else if r.missing.Some? {
        var i :| 0 <= i < |paths[1..]| && paths[1..][i] == r.missing.value && paths[1..][i] !in files
                 && (forall j :: 0 <= j < i ==> paths[1..][j] in files)
                 && Concatenate(paths[1..], files).written == Contents(paths[1..][..i], files);
        assert paths[..i + 1][1..] == paths[1..][..i];
        assert paths[i + 1] == r.missing.value;
      }
    }
  }

  /** The POTCAR path of each ion type, in order. */
  function PotcarPaths(ionTypes: seq<string>, pseudos: map<string, string>, potpaw: string): (r: seq<string>)
    ensures |r| == |ionTypes|
    ensures forall i :: 0 <= i < |r| ==> NamesFile(r[i], "POTCAR")
  {
    var dirs := PseudoDirectories(ionTypes, pseudos);
    seq(|dirs|, i requires 0 <= i < |dirs| => PotcarPath(potpaw, dirs[i]))
  }

  /** The loop of `main`: one block per ion type, read from the directory of its
      pseudopotential under `potpaw`. It completes iff every such POTCAR exists,
      then writing all of them in ion-type order; otherwise it stops at the first
      missing one, a POTCAR path of one of the types. */
  function MakePotcar(ionTypes: seq<string>, pseudos: map<string, string>, potpaw: string,
                      files: map<string, string>): (r: Output)
    ensures var paths := PotcarPaths(ionTypes, pseudos, potpaw);
            && (r.missing.None? <==> forall i :: 0 <= i < |ionTypes| ==> paths[i] in files)
            && (r.missing.None? ==> r.written == Contents(paths, files))
            && (r.missing.Some? ==> exists i :: 0 <= i < |ionTypes| && r.missing.value == paths[i]
                                               && NamesFile(paths[i], "POTCAR"))
  {
    var paths := PotcarPaths(ionTypes, pseudos, potpaw);
    ConcatenateStopsAtMissing(paths, files);
    MissingIsPath(paths, files, "POTCAR");
    Concatenate(paths, files)
  }

  /** The path `Concatenate` stops at is one of the paths it was given. */
  lemma MissingIsPath(paths: seq<string>, files: map<string, string>, name: string)
    requires forall i :: 0 <= i < |paths| ==> NamesFile(paths[i], name)
    ensures var r := Concatenate(paths, files);
            r.missing.Some? ==> exists i :: 0 <= i < |paths| && r.missing.value == paths[i] && NamesFile(paths[i], name)
  {
    ConcatenateStopsAtMissing(paths, files);
  }

  /** Without `--pseudos`, each ion type is read from the directory of its own name. */
  lemma NoPseudosUsesTypes(ionTypes: seq<string>, potpaw: string, files: map<string, string>)
    ensures MakePotcar(ionTypes, map[], potpaw, files) ==
            Concatenate(seq(|ionTypes|, i requires 0 <= i < |ionTypes| => PotcarPath(potpaw, ionTypes[i])), files)
  {
    var dirs := PseudoDirectories(ionTypes, map[]);
    assert dirs == ionTypes;
  }
}

=== FILE: ec_input.dfy ===
/** `ECInput`, the earlier copy of `ECParameters`: the same four numbers without a
    `prefix`, the same step generator written again, and `create_directories`, which
    checks that the four VASP input files exist. */
module EcInput {
  import opened Outcomes
  import opened Schema
  import EcParameters
  import opened Checks

  /** `SCHEMA_EC_INPUT` of this file: no `prefix` key. */
  const InputSchema: seq<Entry> := [
    Entry("ne_pzc", false, PositiveFloat),
    Entry("ne_added", false, NonNegativeFloat),
    Entry("ne_removed", false, NonNegativeFloat),
    Entry("step", false, PositiveFloat)
  ]

  /** This file's own `ECInputError`: a schema violation, or a missing input file,
      named by its path. */
  datatype EcInputError = SchemaViolation | DoesNotExist(path: string)

  datatype Input = Input(nePzc: real, neAdded: real, neRemoved: real, step: real)

  /** The accepted documents, key by key. */
  predicate AcceptedInput(doc: Value) {
    && doc.Mapping?
    && var m := doc.entries;
       && (forall k :: k in m ==> k in {"ne_pzc", "ne_added", "ne_removed", "step"})
       && "ne_pzc" in m && m["ne_pzc"].Float? && m["ne_pzc"].x > 0.0
       && "ne_added" in m && m["ne_added"].Float? && m["ne_added"].x >= 0.0
       && "ne_removed" in m && m["ne_removed"].Float? && m["ne_removed"].x >= 0.0
       && "step" in m && m["step"].Float? && m["step"].x > 0.0
  }

  /** This schema accepts exactly the documents described key by key. */
  lemma InputSchemaRule(doc: Value)
    ensures Validates(InputSchema, doc) <==> AcceptedInput(doc)
  {
    if doc.Mapping? {
      var m := doc.entries;
      EntriesHoldAt(InputSchema, m);
      forall k | k in m
        ensures Declares(InputSchema, k) <==> k in {"ne_pzc", "ne_added", "ne_removed", "step"}
      {
        if k in {"ne_pzc", "ne_added", "ne_removed", "step"} {
          assert InputSchema[0].key == "ne_pzc" && InputSchema[1].key == "ne_added";
          assert InputSchema[2].key == "ne_removed" && InputSchema[3].key == "step";
        }
      }
      assert !InputSchema[0].optional && !InputSchema[1].optional;
      assert !InputSchema[2].optional && !InputSchema[3].optional;
    }
  }

  /** `ECInput.from_yaml` after loading: a rejected document raises `ECInputError`,
      an accepted one gives its four numbers. */
  function FromYaml(doc: Value): (r: Result<Input, EcInputError>)
    ensures r.Ok? <==> AcceptedInput(doc)
    ensures r.Ok? ==> r.value == Input(doc.entries["ne_pzc"].x, doc.entries["ne_added"].x,
                                       doc.entries["ne_removed"].x, doc.entries["step"].x)
    ensures r.Err? ==> r.error == SchemaViolation
  {
    InputSchemaRule(doc);
    if !Validates(InputSchema, doc) then Err(SchemaViolation)
    else
      var m := doc.entries;
      Ok(Input(m["ne_pzc"].x, m["ne_added"].x, m["ne_removed"].x, m["step"].x))
  }

  /** The two input readers accept the same documents, except that only
      `ECParameters` accepts a `prefix`; on the documents both accept they read the
      same numbers. */
  lemma SchemasAgree(doc: Value)
    ensures FromYaml(doc).Ok? <==> EcParameters.FromYaml(doc).Ok? && "prefix" !in doc.entries
    ensures FromYaml(doc).Ok? ==> AsParameters(FromYaml(doc).value, "EC") == EcParameters.FromYaml(doc).value
  {
  }

  /** A document with a `prefix` key is rejected. */
  lemma PrefixRejected(doc: Value)
    requires doc.Mapping? && "prefix" in doc.entries
    ensures FromYaml(doc) == Err(SchemaViolation)
  {
    SchemasAgree(doc);
  }

  /** The same numbers as an `ECParameters`. */
  function AsParameters(q: Input, prefix: string): EcParameters.Parameters {
    EcParameters.Parameters(q.nePzc, q.neAdded, q.neRemoved, q.step, prefix)
  }

  // ---------------------------------------------------------------------------
  // steps(), written as the generator runs: yield `i`, continue from `i + step`

  /** How many more values the generator yields from `i`; defined when `step > 0`. */
  function Remaining(i: real, stop: real, step: real): nat
    requires step > 0.0
  {
    if i > stop then 0 else ((stop - i) / step).Floor + 1
  }

  /** The values yielded from `i` on. */
  function From(i: real, stop: real, step: real): (r: seq<real>)
    requires step > 0.0
    ensures |r| > 0 <==> i <= stop
    ensures |r| > 0 ==> r[0] == i
    ensures forall k :: 0 <= k < |r| ==> i <= r[k] <= stop
    ensures forall k :: 0 < k < |r| ==> r[k] == r[k - 1] + step
    decreases Remaining(i, stop, step)
  {
    if i > stop then []
    else
      RemainingStep(i, stop, step);
      var rest := From(i + step, stop, step);
      assert forall k :: 1 < k < |rest| + 1 ==> ([i] + rest)[k] == rest[k - 1];
      [i] + rest
  }

  /** One more increment leaves one value fewer. */
  lemma RemainingStep(i: real, stop: real, step: real)
    requires step > 0.0 && i <= stop
    ensures Remaining(i + step, stop, step) == Remaining(i, stop, step) - 1
  {
    var q := (stop - i) / step;
    DivLessOne(stop - i, step);
    if i + step <= stop {
      assert (stop - (i + step)) / step == q - 1.0;
      assert (q - 1.0).Floor == q.Floor - 1;
    } else {
      assert 0.0 <= q < 1.0;
    }
  }

  /** Removing one `s` from `a` removes one from `a / s`. */
  lemma DivLessOne(a: real, s: real)
    requires s > 0.0
    ensures (a - s) / s == a / s - 1.0
    ensures a >= 0.0 ==> a / s >= 0.0
    ensures a < s ==> a / s < 1.0
  {
    var q := a / s;
    assert q * s == a;
    assert (q - 1.0) * s == a - s;
    assert ((a - s) / s) * s == a - s;
    MulCancel((a - s) / s, q - 1.0, s);
    if a < s {
      if q >= 1.0 {
        MulMonoReal(1.0, q, s);
      }
    }
  }

  lemma MulCancel(x: real, y: real, s: real)
    requires x * s == y * s && s > 0.0
    ensures x == y
  {
    assert (x - y) * s == 0.0;
  }

  lemma MulMonoReal(a: real, b: real, s: real)
    requires a <= b && s > 0.0
    ensures a * s <= b * s
  {
  }

  /** `ECInput.steps()`, or `None` when the generator never stops: it stops iff the
      range is empty or the step is positive, and then yields `ne_pzc - ne_removed`
      first, each next value one step up, all at most `ne_pzc + ne_added`. */
  function Steps(q: Input): (r: Option<seq<real>>)
    ensures r.Some? <==> q.nePzc - q.neRemoved > q.nePzc + q.neAdded || q.step > 0.0
    ensures r.Some? ==> (|r.value| > 0 <==> q.nePzc - q.neRemoved <= q.nePzc + q.neAdded)
    ensures r.Some? && |r.value| > 0 ==> r.value[0] == q.nePzc - q.neRemoved
    ensures r.Some? ==> forall k :: 0 <= k < |r.value| ==>
                          q.nePzc - q.neRemoved <= r.value[k] <= q.nePzc + q.neAdded
    ensures r.Some? ==> forall k :: 0 < k < |r.value| ==> r.value[k] == r.value[k - 1] + q.step
  {
    var start, stop := q.nePzc - q.neRemoved, q.nePzc + q.neAdded;
    if start > stop then Some([])
    else if q.step <= 0.0 then None
    else Some(From(start, stop, q.step))
  }

  /** The two copies of `steps()` yield the same values for the same numbers. */
  lemma StepsAgree(q: Input, prefix: string)
    ensures Steps(q) == EcParameters.Steps(AsParameters(q, prefix))
  {
    var p := AsParameters(q, prefix);
    if EcParameters.Start(p) <= EcParameters.Stop(p) && q.step > 0.0 {
      FromIsSuffix(p, 0);
      var s := EcParameters.Steps(p).value;
      assert s[0..] == s;
      assert EcParameters.StepAt(p, 0) == EcParameters.Start(p);
    }
  }

  /** Started from the `k`-th value, the generator yields the values from `k` on. */
  lemma {:induction false} FromIsSuffix(p: EcParameters.Parameters, k: nat)
    requires p.step > 0.0 && k <= EcParameters.Count(p)
    ensures From(EcParameters.StepAt(p, k), EcParameters.Stop(p), p.step) == EcParameters.Steps(p).value[k..]
    decreases EcParameters.Count(p) - k
  {
    var s := EcParameters.Steps(p).value;
    EcParameters.CountBounds(p, k);
    if k < EcParameters.Count(p) {
      EcParameters.StepAtNext(p, k);
      FromIsSuffix(p, k + 1);
      assert s[k..] == [s[k]] + s[k + 1..];
    }
  }

  // ---------------------------------------------------------------------------
  // create_directories

  /** `create_directories`: INCAR, POSCAR, POTCAR then KPOINTS must exist; the first
      that does not raises `ECInputError` naming it. Nothing else happens. */
  function CreateDirectories(present: set<string>, incar: string, poscar: string, potcar: string,
                             kpoints: string): (r: Result<(), EcInputError>)
    ensures r.Ok? <==> incar in present && poscar in present && potcar in present && kpoints in present
    ensures incar !in present ==> r == Err(DoesNotExist(incar))
    ensures incar in present && poscar !in present ==> r == Err(DoesNotExist(poscar))
    ensures incar in present && poscar in present && potcar !in present ==> r == Err(DoesNotExist(potcar))
    ensures incar in present && poscar in present && potcar in present && kpoints !in present ==>
              r == Err(DoesNotExist(kpoints))
  {
    var files := [incar, poscar, potcar, kpoints];
    assert files[0] == incar && files[1] == poscar && files[2] == potcar && files[3] == kpoints;
    match FirstFailing(files, (f: string) => f in present)
    case Some(i) => Err(DoesNotExist(files[i]))
    case None => Ok(())
  }
}

=== FILE: ec_parameters.dfy ===
/** `ECParameters`: the electron counts of an electrochemical sweep, read from the
    YAML input (`ne_pzc`, `ne_added`, `ne_removed`, `step`, optional `prefix`), and the
    generator of the electron count of every step, from `ne_pzc - ne_removed` up to
    `ne_pzc + ne_added` by `step`. Numbers are exact reals: the float rounding of
    `i += step` is not modelled. */
module EcParameters {
  import opened Outcomes
  import opened Schema

  /** `SCHEMA_EC_INPUT`. */
  const InputSchema: seq<Entry> := [
    Entry("ne_pzc", false, PositiveFloat),
    Entry("ne_added", false, NonNegativeFloat),
    Entry("ne_removed", false, NonNegativeFloat),
    Entry("step", false, PositiveFloat),
    Entry("prefix", true, AnyString)
  ]

  /** `ECInputError`; its message is the text of the schema error, not modelled. */
  datatype EcInputError = SchemaViolation

  /** An `ECParameters` object. The constructor stores its arguments as they are. */
  datatype Parameters = Parameters(nePzc: real, neAdded: real, neRemoved: real, step: real, prefix: string)

  /** What an accepted document guarantees about the numbers. */
  predicate Validated(p: Parameters) {
    p.nePzc > 0.0 && p.neAdded >= 0.0 && p.neRemoved >= 0.0 && p.step > 0.0
  }

  /** The accepted documents, key by key. */
  predicate AcceptedInput(doc: Value) {
    && doc.Mapping?
    && var m := doc.entries;
       && (forall k :: k in m ==> k in {"ne_pzc", "ne_added", "ne_removed", "step", "prefix"})
       && "ne_pzc" in m && m["ne_pzc"].Float? && m["ne_pzc"].x > 0.0
       && "ne_added" in m && m["ne_added"].Float? && m["ne_added"].x >= 0.0
       && "ne_removed" in m && m["ne_removed"].Float? && m["ne_removed"].x >= 0.0
       && "step" in m && m["step"].Float? && m["step"].x > 0.0
       && ("prefix" in m ==> m["prefix"].Str?)
  }

  /** The schema accepts exactly the documents described key by key. */
  lemma InputSchemaRule(doc: Value)
    ensures Validates(InputSchema, doc) <==> AcceptedInput(doc)
  {
    if doc.Mapping? {
      var m := doc.entries;
      EntriesHoldAt(InputSchema, m);
      forall k | k in m
        ensures Declares(InputSchema, k) <==> k in {"ne_pzc", "ne_added", "ne_removed", "step", "prefix"}
      {
        if k in {"ne_pzc", "ne_added", "ne_removed", "step", "prefix"} {
          assert InputSchema[0].key == "ne_pzc" && InputSchema[1].key == "ne_added";
          assert InputSchema[2].key == "ne_removed" && InputSchema[3].key == "step";
          assert InputSchema[4].key == "prefix";
        }
      }
      assert !InputSchema[0].optional && !InputSchema[1].optional;
      assert !InputSchema[2].optional && !InputSchema[3].optional;
      assert InputSchema[4].optional;
    }
  }

  /** `ECParameters.from_yaml` after loading: a document the schema rejects raises
      `ECInputError`; otherwise the object holds the document's numbers, and `prefix`
      is `'EC'` unless the document gives one. */
  function FromYaml(doc: Value): (r: Result<Parameters, EcInputError>)
    ensures r.Ok? <==> AcceptedInput(doc)
    ensures r.Ok? ==> Validated(r.value)
    ensures r.Ok? ==>
              var m := doc.entries;
              && r.value.nePzc == m["ne_pzc"].x && r.value.neAdded == m["ne_added"].x
              && r.value.neRemoved == m["ne_removed"].x && r.value.step == m["step"].x
              && r.value.prefix == (if "prefix" in m then m["prefix"].s else "EC")
  {
    InputSchemaRule(doc);
    if !Validates(InputSchema, doc) then Err(SchemaViolation)
    else
      var m := doc.entries;
      Ok(Parameters(m["ne_pzc"].x, m["ne_added"].x, m["ne_removed"].x, m["step"].x,
                    if "prefix" in m then m["prefix"].s else "EC"))
  }

  // ---------------------------------------------------------------------------
  // steps()

  function Start(p: Parameters): real {
    p.nePzc - p.neRemoved
  }

  function Stop(p: Parameters): real {
    p.nePzc + p.neAdded
  }

  /** The generator stops: either it yields nothing, or `step` is positive. */
  predicate Ends(p: Parameters) {
    Start(p) > Stop(p) || p.step > 0.0
  }

  /** The number of values the generator yields. */
  function Count(p: Parameters): nat
    requires Ends(p)
  {
    if Start(p) > Stop(p) then 0 else ((Stop(p) - Start(p)) / p.step).Floor + 1
  }

  /** The `k`-th value yielded: `i` after `k` increments. */
  function StepAt(p: Parameters, k: nat): real {
    Start(p) + (k as real) * p.step
  }

  /** `steps()`: the values the generator yields, or `None` when it never stops. */
  function Steps(p: Parameters): (r: Option<seq<real>>)
    ensures r.Some? <==> Ends(p)
    ensures r.Some? ==> |r.value| == Count(p)
    ensures r.Some? ==> forall k :: 0 <= k < |r.value| ==> r.value[k] == StepAt(p, k)
  {
    if Ends(p) then Some(seq(Count(p), k requires 0 <= k => StepAt(p, k))) else None
  }

  /** Below `Count` the values stay at most `stop`; the value at `Count` is past it. */
  lemma {:induction false} CountBounds(p: Parameters, k: nat)
    requires Ends(p)
    ensures k < Count(p) ==> StepAt(p, k) <= Stop(p)
    ensures k >= Count(p) && p.step > 0.0 ==> StepAt(p, k) > Stop(p)
    ensures Count(p) == 0 ==> Start(p) > Stop(p)
  {
    if k < Count(p) {
      StepWithin(p, k);
    } else if p.step > 0.0 {
      StepBeyond(p, k);
    }
  }

  lemma StepWithin(p: Parameters, k: nat)
    requires Ends(p) && k < Count(p)
    ensures StepAt(p, k) <= Stop(p)
  {
    WithinArith(Start(p), Stop(p), p.step, k);
  }

  lemma StepBeyond(p: Parameters, k: nat)
    requires Ends(p) && p.step > 0.0 && k >= Count(p)
    ensures StepAt(p, k) > Stop(p)
  {
    if Start(p) <= Stop(p) {
      BeyondArith(Start(p), Stop(p), p.step, k);
    } else {
      MulMono(0.0, k as real, p.step);
    }
  }

  /** Up to `floor((stop - start) / s)` increments stay at most `stop`. */
  lemma WithinArith(start: real, stop: real, s: real, k: nat)
    requires s > 0.0 && start <= stop && k <= ((stop - start) / s).Floor
    ensures start + (k as real) * s <= stop
  {
    var f := ((stop - start) / s).Floor;
    FloorTimes(stop - start, s);
    MulMono(k as real, f as real, s);
    AtMost(start, stop, (k as real) * s, (f as real) * s);
  }

  /** One more increment than that goes past `stop`. */
  lemma BeyondArith(start: real, stop: real, s: real, k: nat)
    requires s > 0.0 && start <= stop && k > ((stop - start) / s).Floor
    ensures start + (k as real) * s > stop
  {
    var f := ((stop - start) / s).Floor;
    FloorTimes(stop - start, s);
    MulMono((f + 1) as real, k as real, s);
    Beyond(start, stop, ((f + 1) as real) * s, (k as real) * s);
  }

  lemma AtMost(start: real, stop: real, x: real, y: real)
    requires x <= y <= stop - start
    ensures start + x <= stop
  {
  }

  lemma Beyond(start: real, stop: real, x: real, y: real)
    requires stop - start < x <= y
    ensures start + y > stop
  {
  }

  /** `floor(d / s) * s <= d < (floor(d / s) + 1) * s`. */
  lemma FloorTimes(d: real, s: real)
    requires d >= 0.0 && s > 0.0
    ensures ((d / s).Floor as real) * s <= d < (((d / s).Floor + 1) as real) * s
  {
    FloorScaled(d / s, s, d);
  }

  lemma FloorScaled(q: real, s: real, d: real)
    requires q * s == d && s > 0.0
    ensures (q.Floor as real) * s <= d < ((q.Floor + 1) as real) * s
  {
    var f := q.Floor;
    assert (f as real) <= q < (f as real) + 1.0;
    MulMono(f as real, q, s);
    assert (f as real) * s <= q * s;
    assert (f as real) * s <= d;
    MulStrict(q, (f + 1) as real, s);
    assert q * s < ((f + 1) as real) * s;
  }

  lemma MulMono(a: real, b: real, s: real)
    requires a <= b && s > 0.0
    ensures a * s <= b * s
  {
  }

  /** What the generator promises: it starts at `ne_pzc - ne_removed`, each value is
      the previous one plus `step` (so the values increase strictly), every value is at
      most `ne_pzc + ne_added`, and the next value would not be. */
  lemma StepsSweep(p: Parameters)
    requires Ends(p)
    ensures var s := Steps(p).value;
            && (|s| > 0 <==> Start(p) <= Stop(p))
            && (|s| > 0 ==> s[0] == Start(p))
            && (forall k :: 0 < k < |s| ==> s[k] == s[k - 1] + p.step && s[k - 1] < s[k])
            && (forall k :: 0 <= k < |s| ==> s[k] <= Stop(p))
            && (|s| > 0 ==> s[|s| - 1] + p.step > Stop(p))
  {
    var s := Steps(p).value;
    CountPositive(p);
    forall k | 0 <= k < |s| ensures s[k] <= Stop(p) {
      CountBounds(p, k);
    }
    forall k | 0 < k < |s| ensures s[k] == s[k - 1] + p.step && s[k - 1] < s[k] {
      StepAtNext(p, k - 1);
    }
    if |s| > 0 {
      CountBounds(p, |s|);
      StepAtNext(p, |s| - 1);
    }
  }

  lemma CountPositive(p: Parameters)
    requires Ends(p)
    ensures Count(p) > 0 <==> Start(p) <= Stop(p)
    ensures Count(p) > 0 ==> p.step > 0.0
  {
    if Start(p) <= Stop(p) {
      assert (Stop(p) - Start(p)) / p.step >= 0.0;
    }
  }

  lemma StepAtNext(p: Parameters, k: nat)
    ensures StepAt(p, k + 1) == StepAt(p, k) + p.step
  {
    assert ((k + 1) as real) * p.step == (k as real) * p.step + p.step;
  }

  /** The values of a validated input: `floor((ne_added + ne_removed) / step) + 1` of
      them, never none. */
  lemma ValidatedStepCount(p: Parameters)
    requires Validated(p)
    ensures Steps(p).Some?
    ensures |Steps(p).value| == ((p.neAdded + p.neRemoved) / p.step).Floor + 1
    ensures |Steps(p).value| >= 1
  {
    assert Stop(p) - Start(p) == p.neAdded + p.neRemoved;
    assert (p.neAdded + p.neRemoved) / p.step >= 0.0;
  }

  /** `ne_pzc = 1.0`, 0.2 added and removed, step 0.1: five steps. */
  lemma SweepExample()
    ensures Steps(Parameters(1.0, 0.2, 0.2, 0.1, "EC")) == Some([0.8, 0.9, 1.0, 1.1, 1.2])
  {
    var p := Parameters(1.0, 0.2, 0.2, 0.1, "EC");
    assert (Stop(p) - Start(p)) / p.step == 4.0;
    var s := Steps(p).value;
    assert |s| == 5;
    assert s[0] == 0.8 && s[1] == 0.9 && s[2] == 1.0 && s[3] == 1.1 && s[4] == 1.2;
    assert s == [0.8, 0.9, 1.0, 1.1, 1.2];
  }

  /** The `while` loop of `steps()`: yield `i`, then add `step`, while `i <= stop`. */
  method GenerateSteps(p: Parameters) returns (s: seq<real>)
    requires Ends(p)
    ensures Steps(p) == Some(s)
  {
    var i := Start(p);
    var stop := Stop(p);
    s := [];
    CountPositive(p);
    while i <= stop
      invariant |s| <= Count(p)
      invariant i == StepAt(p, |s|)
      invariant forall k :: 0 <= k < |s| ==> s[k] == StepAt(p, k)
      decreases Count(p) - |s|
    {
      CountBounds(p, |s|);
      assert |s| < Count(p);
      StepAtNext(p, |s|);
      s := s + [i];
      i := i + p.step;
    }
    CountBounds(p, |s|);
    assert |s| == Count(p);
    assert s == Steps(p).value;
  }

  // ---------------------------------------------------------------------------
  // Extra steps (the `additional` keyword of the tests; not in `ECParameters` itself)

  predicate Increasing(s: seq<real>) {
    forall i, j :: 0 <= i < j < |s| ==> s[i] < s[j]
  }

  /** `x` put in its place in an increasing sequence, unless already there. */
  function Insert(s: seq<real>, x: real): (r: seq<real>)
    requires Increasing(s)
    ensures Increasing(r)
    ensures forall y :: y in r <==> y in s || y == x
  {
    if |s| == 0 then [x]
    else if x < s[0] then
      assert forall y :: y in s ==> x < y;
      ConsIncreasing(x, s);
      [x] + s
    else if x == s[0] then s
    else
      var rest := Insert(s[1..], x);
      assert forall y :: y in s[1..] ==> s[0] < y;
      ConsIncreasing(s[0], rest);
      [s[0]] + rest
  }

  lemma ConsIncreasing(a: real, r: seq<real>)
    requires Increasing(r)
    requires forall y :: y in r ==> a < y
    ensures Increasing([a] + r)
  {
    forall i, j | 0 <= i < j < |r| + 1 ensures ([a] + r)[i] < ([a] + r)[j] {
      assert ([a] + r)[j] == r[j - 1] && r[j - 1] in r;
      if i > 0 {
        assert ([a] + r)[i] == r[i - 1];
      }
    }
  }

  /** The regular steps with `extra` merged in: increasing, without repeats, holding
      exactly the steps and the extra values. */
  function MergedSteps(p: Parameters, extra: seq<real>): (r: Option<seq<real>>)
    ensures r.Some? <==> Ends(p)
    ensures r.Some? ==> Increasing(r.value)
    ensures r.Some? ==> forall y :: y in r.value <==> y in Steps(p).value || y in extra
  {
    if !Ends(p) then None
    else
      var s := Steps(p).value;
      CountPositive(p);
      assert Increasing(s) by {
        forall i, j | 0 <= i < j < |s| ensures s[i] < s[j] {
          assert s[i] == StepAt(p, i) && s[j] == StepAt(p, j);
          MulStrict(i as real, j as real, p.step);
        }
      }
      Some(InsertAll(s, extra))
  }

  lemma MulStrict(a: real, b: real, s: real)
    requires a < b && s > 0.0
    ensures a * s < b * s
  {
  }

  function InsertAll(s: seq<real>, extra: seq<real>): (r: seq<real>)
    requires Increasing(s)
    ensures Increasing(r)
    ensures forall y :: y in r <==> y in s || y in extra
    decreases |extra|
  {
    if |extra| == 0 then s
    else
      var r := InsertAll(Insert(s, extra[0]), extra[1..]);
      assert forall y :: y in extra <==> y == extra[0] || y in extra[1..];
      r
  }

  /** An increasing sequence is determined by its values: the merged steps are the
      sorted union, whatever the order or repetitions of the extras. */
  lemma {:induction false} IncreasingUnique(a: seq<real>, b: seq<real>)
    requires Increasing(a) && Increasing(b)
    requires forall y :: y in a <==> y in b
    ensures a == b
    decreases |a|
  {
    if |a| > 0 {
      assert a[0] in a;
    }
    if |b| > 0 {
      assert b[0] in b;
    }
    if |a| > 0 && |b| > 0 {
      assert a[0] in b;
      var j :| 0 <= j < |b| && b[j] == a[0];
      assert b[0] in a;
      var i :| 0 <= i < |a| && a[i] == b[0];
      assert a[0] <= a[i] && b[0] <= b[j];
      forall y ensures y in a[1..] <==> y in b[1..] {
        if y in a[1..] {
          var i' :| 1 <= i' < |a| && a[i'] == y;
          assert y in b;
          var j' :| 0 <= j' < |b| && b[j'] == y;
          assert j' != 0;
        }
        if y in b[1..] {
          var j' :| 1 <= j' < |b| && b[j'] == y;
          assert y in a;
          var i' :| 0 <= i' < |a| && a[i'] == y;
          assert i' != 0;
        }
      }
      IncreasingUnique(a[1..], b[1..]);
      assert a == [a[0]] + a[1..] && b == [b[0]] + b[1..];
    }
  }
}

=== FILE: ec_results.dfy ===
/** The per-step reduction of `ECResults`: for every step directory, the electron
    count, free energy and Fermi energy of the run, the vacuum potential read at the
    center of the vacuum plateau, and the average potential of the cell; steps that
    raise are skipped. Then the pointwise work function, charge difference and
    grand-potential vectors. File reading is left out: each step is described by what
    its files provide (planar-averaged profiles as sequences of reals). */
module EcResults {
  import opened Outcomes
  import RealSeq
  import Vacuum

  /** What `vaspout.h5` provides for one step. */
  datatype H5Data = H5Data(nelect: real, freeEnergy: real, fermiEnergy: real)

  /** One step directory as the reduction sees it: whether it exists, and for each of
      `vaspout.h5`, `CHGCAR` and `LOCPOT` either what it provides or `None` when the
      file is missing. The profiles are the planar averages along z; the length of the
      charge profile is the number of planes `nZ` of the charge-density grid. */
  datatype StepFiles = StepFiles(
    dirExists: bool,
    h5: Option<H5Data>,
    chargeProfile: Option<seq<real>>,
    potentialProfile: Option<seq<real>>)

  /** The exceptions that make a step be skipped. */
  datatype StepError =
    | MissingDirectory
    | MissingFile(name: string)
    | EmptyChargeProfile   // `numpy.argmin` of an empty array raises ValueError
    | CenterOutOfRange     // the vacuum center is past the end of the potential profile

  /** The five values extracted from one step. */
  datatype StepRow = StepRow(
    nelect: real, freeEnergy: real, fermiEnergy: real,
    vacuumPotential: real, averagePotential: real)

  /** The outcome of one step: its row, the exception it raised, or no outcome at all
      because the upward plateau walk never ends (flat charge profile). */
  datatype Extraction = Extracted(row: StepRow) | Raised(error: StepError) | Diverges

  /** Lines 151-155 with lines 47-107: the checks in the order the source makes them,
      the vacuum search on the charge profile and the two potentials. A successful step
      takes the three energies from `vaspout.h5`, the vacuum potential at the center of
      the vacuum plateau of the charge profile, and the average of the potential profile
      over the `nZ` planes of the charge grid. */
  function ExtractStep(f: StepFiles): (r: Extraction)
    ensures r.Extracted? ==>
              && f.dirExists && f.h5.Some? && f.chargeProfile.Some? && f.potentialProfile.Some?
              && var h5, chg, pot := f.h5.value, f.chargeProfile.value, f.potentialProfile.value;
                 && |chg| > 0
                 && r.row.nelect == h5.nelect
                 && r.row.freeEnergy == h5.freeEnergy
                 && r.row.fermiEnergy == h5.fermiEnergy
                 && r.row.averagePotential == RealSeq.Sum(pot) / (|chg| as real)
                 && Vacuum.Search(chg).Some?
                 && var c := Vacuum.Search(chg).value.center;
                    c < |pot| && r.row.vacuumPotential == pot[c]
  {
    if !f.dirExists then Raised(MissingDirectory)
    else if f.h5.None? then Raised(MissingFile("vaspout.h5"))
    else if f.chargeProfile.None? then Raised(MissingFile("CHGCAR"))
    else if |f.chargeProfile.value| == 0 then Raised(EmptyChargeProfile)
    else FromProfiles(f.h5.value, f.chargeProfile.value, f.potentialProfile)
  }

  /** The part of a step after the charge profile is known to be non-empty. */
  function FromProfiles(h5: H5Data, chg: seq<real>, pot: Option<seq<real>>): (r: Extraction)
    requires |chg| > 0
    ensures r.Extracted? ==>
              && pot.Some?
              && r.row.nelect == h5.nelect
              && r.row.freeEnergy == h5.freeEnergy
              && r.row.fermiEnergy == h5.fermiEnergy
              && r.row.averagePotential == RealSeq.Sum(pot.value) / (|chg| as real)
              && Vacuum.Search(chg).Some?
              && var c := Vacuum.Search(chg).value.center;
                 c < |pot.value| && r.row.vacuumPotential == pot.value[c]
  {
    match Vacuum.Search(chg)
    case None => Diverges
    case Some(p) =>
      if pot.None? then Raised(MissingFile("LOCPOT"))
      else
        match Vacuum.ReferencePotentials(pot.value, p.center, |chg|)
        case Err(_) => Raised(CenterOutOfRange)
        case Ok(refs) =>
          Extracted(StepRow(h5.nelect, h5.freeEnergy, h5.fermiEnergy, refs.0, refs.1))
  }

  /** After the charge profile: the step never finishes exactly when the profile is
      flat; otherwise a missing `LOCPOT` raises, and so does a vacuum center past the end
      of the potential profile. */
  lemma FromProfilesOutcomes(h5: H5Data, chg: seq<real>, pot: Option<seq<real>>)
    requires |chg| > 0
    ensures FromProfiles(h5, chg, pot).Diverges? <==> Vacuum.Flat(chg)
    ensures FromProfiles(h5, chg, pot) == Raised(MissingFile("LOCPOT")) <==>
              !Vacuum.Flat(chg) && pot.None?
    ensures FromProfiles(h5, chg, pot) == Raised(CenterOutOfRange) <==>
              !Vacuum.Flat(chg) && pot.Some? && Vacuum.Search(chg).value.center >= |pot.value|
  {
  }

  /** Which exception a failing step raises: the first missing item in the order
      directory, `vaspout.h5`, `CHGCAR`; then an empty charge profile; the step never
      finishes exactly when the charge profile is flat. */
  lemma ExtractStepErrors(f: StepFiles)
    ensures ExtractStep(f) == Raised(MissingDirectory) <==> !f.dirExists
    ensures ExtractStep(f) == Raised(MissingFile("vaspout.h5")) <==> f.dirExists && f.h5.None?
    ensures ExtractStep(f) == Raised(MissingFile("CHGCAR")) <==>
              f.dirExists && f.h5.Some? && f.chargeProfile.None?
    ensures ExtractStep(f) == Raised(EmptyChargeProfile) <==>
              f.dirExists && f.h5.Some? && f.chargeProfile.Some? && |f.chargeProfile.value| == 0
    ensures ExtractStep(f).Diverges? <==>
              f.dirExists && f.h5.Some? && f.chargeProfile.Some? && |f.chargeProfile.value| > 0
              && Vacuum.Flat(f.chargeProfile.value)
  {
  }

  /** The vacuum plateau is unique, so the row of a step does not depend on which
      plateau witnesses it. */
  lemma PlateauUnique(a: seq<real>, p: Vacuum.Plateau, q: Vacuum.Plateau)
    requires |a| > 0 && Vacuum.IsPlateauOf(a, p) && Vacuum.IsPlateauOf(a, q)
    ensures p == q
  {
    var m := Vacuum.ArgMin(a);
    var b := Vacuum.Mask(a, a[m]);
    assert Vacuum.IsPlateauIn(b, m, p) && Vacuum.IsPlateauIn(b, m, q);
    BoundsUnique(b, m, p, q);
    CenterUnique(Vacuum.TruncDiv(p.lo + p.hi, 2), |a|, p.center, q.center);
  }

  /** Both bounds of a plateau are determined by the mask. */
  lemma BoundsUnique(b: seq<bool>, m: nat, p: Vacuum.Plateau, q: Vacuum.Plateau)
    requires m < |b| && Vacuum.IsPlateauIn(b, m, p) && Vacuum.IsPlateauIn(b, m, q)
    ensures p.lo == q.lo && p.hi == q.hi
  {
    Vacuum.ScanUpFrom(b, m, m, p.hi);
    Vacuum.ScanUpFrom(b, m, m, q.hi);
    Vacuum.ScanDownFrom(b, m, m, p.lo);
    Vacuum.ScanDownFrom(b, m, m, q.lo);
  }

  /** At most one shift of `t` by a period lies in `[0, n)`. */
  lemma CenterUnique(t: int, n: nat, c: int, d: int)
    requires 0 <= c < n && 0 <= d < n
    requires c == t || c == t + n || c == t - n
    requires d == t || d == t + n || d == t - n
    ensures c == d
  {
  }

  /** The rows of the steps, in directory order, skipping the steps that raised
      (lines 147-164). `None` when a step never finishes, since the run then never
      reaches the end of the loop. */
  function Collect(outs: seq<Extraction>): (r: Option<seq<StepRow>>)
    ensures r.None? <==> exists i :: 0 <= i < |outs| && outs[i].Diverges?
    ensures r.Some? ==> |r.value| <= |outs|
  {
    if |outs| == 0 then Some([])
    else
      match outs[0]
      case Diverges => None
      case Raised(_) =>
        var rest := Collect(outs[1..]);
        assert forall i :: 1 <= i < |outs| ==> outs[i] == outs[1..][i - 1];
        rest
      case Extracted(row) =>
        var rest := Collect(outs[1..]);
        assert forall i :: 1 <= i < |outs| ==> outs[i] == outs[1..][i - 1];
        if rest.None? then None else Some([row] + rest.value)
  }

  /** A step that raises is skipped: it changes nothing in what the earlier steps gave. */
  lemma {:induction false} CollectSkipsRaised(outs: seq<Extraction>, e: StepError)
    ensures Collect(outs + [Raised(e)]) == Collect(outs)
  {
    if |outs| > 0 {
      assert (outs + [Raised(e)])[1..] == outs[1..] + [Raised(e)];
      CollectSkipsRaised(outs[1..], e);
    } else {
      assert [Raised(e)][1..] == [];
    }
  }

  /** A step that succeeds adds its row after the rows of the earlier steps. */
  lemma {:induction false} CollectAppendsRow(outs: seq<Extraction>, row: StepRow)
    ensures Collect(outs + [Extracted(row)]) ==
            (if Collect(outs).Some? then Some(Collect(outs).value + [row]) else None)
  {
    if |outs| > 0 {
      assert (outs + [Extracted(row)])[1..] == outs[1..] + [Extracted(row)];
      CollectAppendsRow(outs[1..], row);
      if outs[0].Extracted? && Collect(outs[1..]).Some? {
        assert [outs[0].row] + (Collect(outs[1..]).value + [row])
            == ([outs[0].row] + Collect(outs[1..]).value) + [row];
      }
    } else {
      assert [Extracted(row)][1..] == [];
      assert [row] + [] == [] + [row];
    }
  }

  /** The number of steps that succeeded. */
  function CountExtracted(outs: seq<Extraction>): (c: nat)
    ensures c <= |outs|
  {
    if |outs| == 0 then 0
    else (if outs[0].Extracted? then 1 else 0) + CountExtracted(outs[1..])
  }

  /** One row per successful step. */
  lemma {:induction false} CollectCount(outs: seq<Extraction>)
    requires Collect(outs).Some?
    ensures |Collect(outs).value| == CountExtracted(outs)
  {
    if |outs| > 0 {
      CollectCount(outs[1..]);
    }
  }

  /** The five arrays built at lines 168-172. */
  datatype Dataset = Dataset(
    nelects: seq<real>,
    freeEnergies: seq<real>,
    fermiEnergies: seq<real>,
    vacuumPotentials: seq<real>,
    averagePotentials: seq<real>)
  {
    /** The five arrays have one entry per kept step. */
    predicate WellFormed() {
      && |freeEnergies| == |nelects|
      && |fermiEnergies| == |nelects|
      && |vacuumPotentials| == |nelects|
      && |averagePotentials| == |nelects|
    }

    /** `len(results)`: the number of kept steps. */
    function Length(): nat {
      |nelects|
    }
  }

  /** The five columns of the kept rows. */
  function Columns(rows: seq<StepRow>): (ds: Dataset)
    ensures ds.WellFormed() && ds.Length() == |rows|
    ensures forall k :: 0 <= k < |rows| ==>
              && ds.nelects[k] == rows[k].nelect
              && ds.freeEnergies[k] == rows[k].freeEnergy
              && ds.fermiEnergies[k] == rows[k].fermiEnergy
              && ds.vacuumPotentials[k] == rows[k].vacuumPotential
              && ds.averagePotentials[k] == rows[k].averagePotential
  {
    Dataset(
      seq(|rows|, k requires 0 <= k < |rows| => rows[k].nelect),
      seq(|rows|, k requires 0 <= k < |rows| => rows[k].freeEnergy),
      seq(|rows|, k requires 0 <= k < |rows| => rows[k].fermiEnergy),
      seq(|rows|, k requires 0 <= k < |rows| => rows[k].vacuumPotential),
      seq(|rows|, k requires 0 <= k < |rows| => rows[k].averagePotential))
  }

  /** `_extract_data_from_directories` over the given step directories, in order:
      `None` when a step never finishes, otherwise the five arrays, of equal length and
      at most one entry per directory. */
  function Aggregate(steps: seq<StepFiles>): (r: Option<Dataset>)
    ensures r.None? <==> exists i :: 0 <= i < |steps| && ExtractStep(steps[i]).Diverges?
    ensures r.Some? ==> r.value.WellFormed() && r.value.Length() <= |steps|
  {
    var outs := seq(|steps|, i requires 0 <= i < |steps| => ExtractStep(steps[i]));
    assert forall i :: 0 <= i < |steps| ==> outs[i] == ExtractStep(steps[i]);
    match Collect(outs)
    case None => None
    case Some(rows) => Some(Columns(rows))
  }

  /** A missing step directory drops that step only. */
  lemma AggregateSkipsMissingDirectory(steps: seq<StepFiles>, f: StepFiles)
    requires !f.dirExists
    ensures Aggregate(steps + [f]) == Aggregate(steps)
  {
    var outs := seq(|steps|, i requires 0 <= i < |steps| => ExtractStep(steps[i]));
    var s2 := steps + [f];
    var outs2 := seq(|s2|, i requires 0 <= i < |s2| => ExtractStep(s2[i]));
    assert outs2 == outs + [Raised(MissingDirectory)];
    CollectSkipsRaised(outs, MissingDirectory);
  }

  // ---------------------------------------------------------------------------
  // Pointwise vectors of lines 178-180 and 204-206

  /** `vacuum_potentials - fermi_energies`. */
  function WorkFunction(ds: Dataset): (wf: seq<real>)
    requires ds.WellFormed()
    ensures |wf| == ds.Length()
    ensures forall i :: 0 <= i < |wf| ==> wf[i] + ds.fermiEnergies[i] == ds.vacuumPotentials[i]
  {
    seq(ds.Length(), i requires 0 <= i < ds.Length() => ds.vacuumPotentials[i] - ds.fermiEnergies[i])
  }

  /** `nelects - ne_zc`: the charge of each step relative to the reference count. */
  function DeltaNelect(ds: Dataset, neZc: real): (dn: seq<real>)
    requires ds.WellFormed()
    ensures |dn| == ds.Length()
    ensures forall i :: 0 <= i < |dn| ==> dn[i] + neZc == ds.nelects[i]
  {
    seq(ds.Length(), i requires 0 <= i < ds.Length() => ds.nelects[i] - neZc)
  }

  /** Line 180: the grand potential used by the active-fraction estimate,
      `F - dn * fermi`. */
  function FeeActiveFraction(ds: Dataset, neZc: real): (fee: seq<real>)
    requires ds.WellFormed()
    ensures |fee| == ds.Length()
  {
    var dn := DeltaNelect(ds, neZc);
    seq(ds.Length(), i requires 0 <= i < ds.Length() => ds.freeEnergies[i] - dn[i] * ds.fermiEnergies[i])
  }

  /** Line 206: the grand potential of the Poisson-Boltzmann runs, `F - dn * wf`. */
  function FeePbm(ds: Dataset, neZc: real): (fee: seq<real>)
    requires ds.WellFormed()
    ensures |fee| == ds.Length()
  {
    var dn := DeltaNelect(ds, neZc);
    var wf := WorkFunction(ds);
    seq(ds.Length(), i requires 0 <= i < ds.Length() => ds.freeEnergies[i] - dn[i] * wf[i])
  }

  /** Both grand potentials subtract the charge times an energy from the free energy:
      the Fermi energy for the first, the work function (vacuum potential minus Fermi
      energy) for the second. */
  lemma FeesFromRows(ds: Dataset, neZc: real, i: nat)
    requires ds.WellFormed() && i < ds.Length()
    ensures FeeActiveFraction(ds, neZc)[i] ==
            ds.freeEnergies[i] - (ds.nelects[i] - neZc) * ds.fermiEnergies[i]
    ensures FeePbm(ds, neZc)[i] ==
            ds.freeEnergies[i] - (ds.nelects[i] - neZc) * (ds.vacuumPotentials[i] - ds.fermiEnergies[i])
  {
  }

  /** At the reference electron count both grand potentials are the free energy. */
  lemma FeesAtNeutrality(ds: Dataset, neZc: real, i: nat)
    requires ds.WellFormed() && i < ds.Length() && ds.nelects[i] == neZc
    ensures FeeActiveFraction(ds, neZc)[i] == ds.freeEnergies[i]
    ensures FeePbm(ds, neZc)[i] == ds.freeEnergies[i]
  {
    var dn := DeltaNelect(ds, neZc);
    assert dn[i] == 0.0;
  }

  /** The two grand potentials differ by the charge times the difference between the
      work function and the Fermi energy. */
  lemma FeesDiffer(ds: Dataset, neZc: real, i: nat)
    requires ds.WellFormed() && i < ds.Length()
    ensures FeeActiveFraction(ds, neZc)[i] - FeePbm(ds, neZc)[i] ==
            DeltaNelect(ds, neZc)[i] * (WorkFunction(ds)[i] - ds.fermiEnergies[i])
  {
    var dn := DeltaNelect(ds, neZc)[i];
    var wf := WorkFunction(ds)[i];
    var fe := ds.fermiEnergies[i];
    assert dn * wf - dn * fe == dn * (wf - fe);
  }
}

=== FILE: integrate_xy_average.dfy ===
/** The `integrate_xy_average` script: the XY-averaged charge profile along z is
    divided by the number of grid points, split into regions wherever it crosses a
    threshold, and summed region by region. Reading the CHGCAR file and planar
    averaging are left out; the averaged profile is the input. */
module IntegrateXyAverage {
  import opened Outcomes
  import opened RealSeq

  /** Python raises `ZeroDivisionError` when the grid has no point along z. */
  datatype IntegrateError = ZeroDivision

  /** Every value divided by `d` (numpy's `a / d`). */
  function Divide(a: seq<real>, d: real): (r: seq<real>)
    requires d != 0.0
    ensures |r| == |a|
    ensures forall i :: 0 <= i < |a| ==> r[i] * d == a[i]
  {
    seq(|a|, i requires 0 <= i < |a| => a[i] / d)
  }

  lemma DivAdd(x: real, y: real, d: real)
    requires d != 0.0
    ensures (x + y) / d == x / d + y / d
  {
    assert (x / d + y / d) * d == x + y;
  }

  /** Dividing every value divides the total. */
  lemma {:induction false} SumDivide(a: seq<real>, d: real)
    requires d != 0.0
    ensures Sum(Divide(a, d)) == Sum(a) / d
  {
    if |a| > 0 {
      assert Divide(a, d)[1..] == Divide(a[1..], d);
      SumDivide(a[1..], d);
      DivAdd(a[0], Sum(a[1..]), d);
    }
  }

  // ---------------------------------------------------------------------------
  // Region boundaries

  /** The profile crosses `t` between `i - 1` and `i`: the two values lie strictly on
      opposite sides of it. Touching the threshold is not a crossing. */
  predicate Crossing(a: seq<real>, t: real, i: int)
    requires 1 <= i < |a|
  {
    (a[i - 1] < t < a[i]) || (a[i - 1] > t > a[i])
  }

  /** The crossings among `1 .. n - 1`, in increasing order (the loop over `i`). */
  function CrossingsBelow(a: seq<real>, t: real, n: nat): seq<nat>
    requires n <= |a|
  {
    if n <= 1 then []
    else CrossingsBelow(a, t, n - 1) + (if Crossing(a, t, n - 1) then [n - 1] else [])
  }

  /** `regions`: 0, then every crossing, then the length of the profile. Every
      interior boundary is an index where the profile crosses the threshold. */
  function Regions(a: seq<real>, t: real): (r: seq<nat>)
    ensures |r| >= 2 && r[0] == 0 && r[|r| - 1] == |a|
    ensures forall k :: 0 < k < |r| - 1 ==> 1 <= r[k] < |a| && Crossing(a, t, r[k])
  {
    CrossingsBelowSpec(a, t, |a|);
    var c := CrossingsBelow(a, t, |a|);
    assert forall k :: 0 < k < |c| + 1 ==> ([0] + c + [|a|])[k] == c[k - 1];
    [0] + c + [|a|]
  }

  predicate Increasing(s: seq<nat>) {
    forall i, j :: 0 <= i < j < |s| ==> s[i] < s[j]
  }

  /** The loop of `main` that builds `regions`, as written. */
  method FindRegions(a: seq<real>, t: real) returns (regions: seq<nat>)
    ensures regions == Regions(a, t)
  {
    regions := [0];
    var i := 1;
    while i < |a|
      invariant 1 <= i && (|a| > 0 ==> i <= |a|)
      invariant regions == [0] + CrossingsBelow(a, t, if i <= |a| then i else |a|)
    {
      if (a[i - 1] < t < a[i]) || (a[i - 1] > t > a[i]) {
        regions := regions + [i];
      }
      i := i + 1;
    }
    regions := regions + [|a|];
  }

  /** The crossings below `n`, exactly, in increasing order. */
  lemma {:induction false} CrossingsBelowSpec(a: seq<real>, t: real, n: nat)
    requires n <= |a|
    ensures Increasing(CrossingsBelow(a, t, n))
    ensures forall k :: 0 <= k < |CrossingsBelow(a, t, n)| ==>
              1 <= CrossingsBelow(a, t, n)[k] < n && Crossing(a, t, CrossingsBelow(a, t, n)[k])
    ensures forall i :: 1 <= i < n ==> (Crossing(a, t, i) <==> i in CrossingsBelow(a, t, n))
  {
    if n > 1 {
      CrossingsBelowSpec(a, t, n - 1);
    }
  }

  /** The boundaries start at 0 and end at N; an interior index is a boundary exactly
      when the profile crosses the threshold there; and they increase strictly, so
      the regions `[beg, end)` partition `[0, N)`. An empty profile gives `[0, 0]`. */
  lemma RegionsShape(a: seq<real>, t: real)
    ensures |Regions(a, t)| >= 2
    ensures Regions(a, t)[0] == 0 && Regions(a, t)[|Regions(a, t)| - 1] == |a|
    ensures forall i :: 1 <= i < |a| ==> (i in Regions(a, t) <==> Crossing(a, t, i))
    ensures |a| > 0 ==> Increasing(Regions(a, t))
    ensures |a| == 0 ==> Regions(a, t) == [0, 0]
    ensures forall k :: 0 <= k < |Regions(a, t)| ==> Regions(a, t)[k] <= |a|
  {
    RegionsIncrease(a, t);
    RegionsAreCrossings(a, t);
  }

  /** The boundaries of a non-empty profile increase strictly, and none is past N. */
  lemma RegionsIncrease(a: seq<real>, t: real)
    ensures |a| > 0 ==> Increasing(Regions(a, t))
    ensures |a| == 0 ==> Regions(a, t) == [0, 0]
    ensures forall k :: 0 <= k < |Regions(a, t)| ==> Regions(a, t)[k] <= |a|
  {
    var c := CrossingsBelow(a, t, |a|);
    CrossingsBelowSpec(a, t, |a|);
    var r := Regions(a, t);
    assert forall k :: 0 <= k < |c| ==> r[k + 1] == c[k];
    if |a| > 0 {
      forall i, j | 0 <= i < j < |r|
        ensures r[i] < r[j]
      {
        if j == |r| - 1 {
          assert r[j] == |a|;
          assert i == 0 || r[i] == c[i - 1];
        } else {
          assert r[j] == c[j - 1];
          assert i == 0 || r[i] == c[i - 1];
        }
      }
    }
  }

  /** An interior index is a boundary exactly when the profile crosses there. */
  lemma RegionsAreCrossings(a: seq<real>, t: real)
    ensures forall i :: 1 <= i < |a| ==> (i in Regions(a, t) <==> Crossing(a, t, i))
  {
    var c := CrossingsBelow(a, t, |a|);
    CrossingsBelowSpec(a, t, |a|);
    var r := Regions(a, t);
    assert forall k :: 0 <= k < |c| ==> r[k + 1] == c[k];
    forall i | 1 <= i < |a|
      ensures i in r <==> Crossing(a, t, i)
    {
      if i in r {
        var k :| 0 <= k < |r| && r[k] == i;
        assert 0 < k < |r| - 1;
        assert c[k - 1] == i;
      }
    }
  }

  /** The boundaries go from 0 to N without going back. */
  lemma RegionsPartition(a: seq<real>, t: real)
    ensures Partition(Regions(a, t), |a|)
  {
    RegionsIncrease(a, t);
  }

  /** The values in `s`. */
  function Elements(s: seq<nat>): set<nat> {
    set x | x in s
  }

  /** The elements of an increasing sequence are all distinct. */
  lemma {:induction false} IncreasingCardinality(s: seq<nat>)
    requires Increasing(s)
    ensures |Elements(s)| == |s|
  {
    if |s| > 0 {
      var rest := s[..|s| - 1];
      var last := s[|s| - 1];
      assert Increasing(rest);
      IncreasingCardinality(rest);
      var before := Elements(rest);
      assert forall k :: 0 <= k < |rest| ==> rest[k] < last;
      assert last !in before;
      assert Elements(s) == before + {last} by {
        assert s == rest + [last];
      }
      assert |before + {last}| == |before| + 1;
    } else {
      assert Elements(s) == {};
    }
  }

  /** The interior indices where the profile crosses the threshold. */
  function CrossingSet(a: seq<real>, t: real): set<nat> {
    set i: nat | 1 <= i < |a| && Crossing(a, t, i)
  }

  /** `Found {} regions`: one more than the number of crossings. */
  lemma RegionCount(a: seq<real>, t: real)
    ensures |Regions(a, t)| - 1 == |CrossingSet(a, t)| + 1
  {
    var c := CrossingsBelow(a, t, |a|);
    CrossingsBelowSpec(a, t, |a|);
    IncreasingCardinality(c);
    assert Elements(c) == CrossingSet(a, t);
  }

  // ---------------------------------------------------------------------------
  // Segment sums

  /** Boundaries that go from 0 to N without going back. */
  predicate Partition(r: seq<nat>, n: nat) {
    && |r| >= 1
    && (forall k :: 0 <= k < |r| ==> r[k] <= n)
    && (forall i, j :: 0 <= i <= j < |r| ==> r[i] <= r[j])
  }

  /** `xy_average[beg:end].sum()` for each region. */
  function Charges(a: seq<real>, r: seq<nat>): (c: seq<real>)
    requires Partition(r, |a|)
    ensures |c| == |r| - 1
    ensures forall k {:trigger c[k]} :: 0 <= k < |c| ==> c[k] == Sum(a[r[k]..r[k + 1]])
  {
    seq(|r| - 1, k requires 0 <= k < |r| - 1 => Sum(a[r[k]..r[k + 1]]))
  }

  /** The region sums add up to the sum between the first and last boundary. */
  lemma {:induction false} ChargesAddUp(a: seq<real>, r: seq<nat>)
    requires Partition(r, |a|)
    ensures Sum(Charges(a, r)) == Sum(a[r[0]..r[|r| - 1]])
  {
    if |r| > 1 {
      var init := r[..|r| - 1];
      var p, q := r[|r| - 2], r[|r| - 1];
      ChargesSnoc(a, r);
      ChargesAddUp(a, init);
      SumConcat(Charges(a, init), [Sum(a[p..q])]);
      SliceSum(a, r[0], p, q);
    }
  }

  /** Dropping the last boundary drops the last region. */
  lemma ChargesSnoc(a: seq<real>, r: seq<nat>)
    requires Partition(r, |a|) && |r| > 1
    ensures Partition(r[..|r| - 1], |a|)
    ensures Charges(a, r) == Charges(a, r[..|r| - 1]) + [Sum(a[r[|r| - 2]..r[|r| - 1]])]
  {
    var init := r[..|r| - 1];
    assert Partition(init, |a|);
    var c, ci := Charges(a, r), Charges(a, init);
    forall k | 0 <= k < |ci|
      ensures c[k] == ci[k]
    {
      assert init[k] == r[k] && init[k + 1] == r[k + 1];
    }
  }

  /** A sum over a slice splits at any point inside it. */
  lemma SliceSum(a: seq<real>, i: nat, j: nat, k: nat)
    requires i <= j <= k <= |a|
    ensures Sum(a[i..k]) == Sum(a[i..j]) + Sum(a[j..k])
  {
    assert a[i..k] == a[i..j] + a[j..k];
    SumConcat(a[i..j], a[j..k]);
  }

  // ---------------------------------------------------------------------------
  // The script

  /** One printed line: the region `[zBeg, zEnd)` and the charge in it. */
  datatype Region = Region(zBeg: real, zEnd: real, charge: real)

  datatype Report = Report(total: real, regions: seq<Region>)

  /** The z coordinate of grid index `index`: `index / nZ * z_max`. */
  function ZAt(index: nat, nZ: nat, zMax: real): real
    requires nZ > 0
  {
    (index as real) / (nZ as real) * zMax
  }

  /** `main` after reading the file: `raw` is the XY-averaged profile, `nZ` the grid
      size along z and `zMax` the third lattice vector's z component. */
  function Integrate(raw: seq<real>, nZ: nat, zMax: real, t: real): (r: Result<Report, IntegrateError>)
    ensures r.Err? <==> nZ == 0
  {
    if nZ == 0 then Err(ZeroDivision)
    else
      var a := Divide(raw, nZ as real);
      var b := Regions(a, t);
      RegionsPartition(a, t);
      var c := Charges(a, b);
      Ok(Report(Sum(a), seq(|c|, k requires 0 <= k < |c| =>
        Region(ZAt(b[k], nZ, zMax), ZAt(b[k + 1], nZ, zMax), c[k]))))
  }

  /** The printed regions tile `[0, N / nZ * z_max)` in order, without gap or
      overlap: each starts where the previous one ends. */
  lemma IntegrateTiles(raw: seq<real>, nZ: nat, zMax: real, t: real)
    requires nZ > 0
    ensures var rep := Integrate(raw, nZ, zMax, t).value;
            && |rep.regions| >= 1
            && rep.regions[0].zBeg == 0.0
            && rep.regions[|rep.regions| - 1].zEnd == ZAt(|raw|, nZ, zMax)
            && (forall k :: 0 < k < |rep.regions| ==> rep.regions[k].zBeg == rep.regions[k - 1].zEnd)
  {
    var a := Divide(raw, nZ as real);
    RegionsShape(a, t);
    assert ZAt(0, nZ, zMax) == 0.0;
  }

  /** Printed line `k` is the region between boundaries `k` and `k + 1` of the
      divided profile, as z coordinates, with the sum of the divided profile over it;
      there is one line per region, and the boundaries never go back. */
  lemma IntegrateRegion(raw: seq<real>, nZ: nat, zMax: real, t: real, k: nat)
    requires nZ > 0
    ensures var a := Divide(raw, nZ as real);
            var b := Regions(a, t);
            var rep := Integrate(raw, nZ, zMax, t).value;
            && Partition(b, |a|)
            && |rep.regions| == |b| - 1
            && (k < |rep.regions| ==>
                  rep.regions[k] == Region(ZAt(b[k], nZ, zMax), ZAt(b[k + 1], nZ, zMax), Sum(a[b[k]..b[k + 1]])))
  {
    var a := Divide(raw, nZ as real);
    var b := Regions(a, t);
    RegionsPartition(a, t);
    var c := Charges(a, b);
    var regions := seq(|c|, k requires 0 <= k < |c| => Region(ZAt(b[k], nZ, zMax), ZAt(b[k + 1], nZ, zMax), c[k]));
    assert Integrate(raw, nZ, zMax, t) == Ok(Report(Sum(a), regions));
    if k < |c| {
      assert regions[k] == Region(ZAt(b[k], nZ, zMax), ZAt(b[k + 1], nZ, zMax), c[k]);
    }
  }

  /** The printed total is the raw profile's sum over `nZ`, and the charges of the
      regions add up to it. */
  lemma IntegrateTotal(raw: seq<real>, nZ: nat, zMax: real, t: real)
    requires nZ > 0
    ensures var rep := Integrate(raw, nZ, zMax, t).value;
            && rep.total == Sum(raw) / (nZ as real)
            && Sum(seq(|rep.regions|, k requires 0 <= k < |rep.regions| => rep.regions[k].charge)) == rep.total
  {
    var a := Divide(raw, nZ as real);
    var b := Regions(a, t);
    RegionsShape(a, t);
    SumDivide(raw, nZ as real);
    ChargesAddUp(a, b);
    var rep := Integrate(raw, nZ, zMax, t).value;
    assert a[b[0]..b[|b| - 1]] == a;
    assert seq(|rep.regions|, k requires 0 <= k < |rep.regions| => rep.regions[k].charge) == Charges(a, b);
  }
}

=== FILE: make_directories.dfy ===
/** `create_input_directories` of the `make_directories` script: the checks it makes
    before touching anything (input files present, the INCAR asks VASP to write the
    charge density and the potentials), the `NELECT` warning, and what it does for each
    step of the sweep. The filesystem is described by the names it holds; creating,
    removing, linking and copying files are left out, and what the function would do
    is returned as a plan. */
module MakeDirectories {
  import opened Outcomes
  import opened Text
  import opened Checks
  import Schema
  import EcParameters

  /** `INPUT_NAME`. */
  const InputName: string := "ec_interface.yml"

  /** The files `assert_exists` is called on, in call order. */
  const RequiredFiles: seq<string> := [InputName, "INCAR", "POSCAR", "POTCAR", "KPOINTS"]

  /** The INCAR keywords that must be set to `.TRUE.`, in checking order. */
  const Keywords: seq<string> := ["LCHARG", "LVHAR", "LVTOT"]

  // ---------------------------------------------------------------------------
  // The regular expressions `KEY\s*=\s*TAIL`, searched anywhere in the text

  /** The first index at or after `i` that is not whitespace, or `|s|`. */
  function SkipSpaces(s: string, i: nat): (j: nat)
    requires i <= |s|
    ensures i <= j <= |s|
    ensures forall k :: i <= k < j ==> IsSpace(s[k])
    ensures j < |s| ==> !IsSpace(s[j])
    decreases |s| - i
  {
    if i == |s| || !IsSpace(s[i]) then i else SkipSpaces(s, i + 1)
  }

  predicate HasAt(s: string, i: nat, t: string) {
    i + |t| <= |s| && s[i..i + |t|] == t
  }

  /** `KEY\s*=\s*TAIL` matches at `i`, reading each `\s*` greedily. */
  predicate MatchesAt(s: string, i: nat, key: string, tail: string) {
    && HasAt(s, i, key)
    && var j := SkipSpaces(s, i + |key|);
       && j < |s| && s[j] == '='
       && HasAt(s, SkipSpaces(s, j + 1), tail)
  }

  /** `re.compile(KEY\s*=\s*TAIL).search(s)` finds a match. */
  predicate Found(s: string, key: string, tail: string) {
    exists i :: 0 <= i <= |s| && MatchesAt(s, i, key, tail)
  }

  predicate AllSpace(s: string) {
    forall k :: 0 <= k < |s| ==> IsSpace(s[k])
  }

  /** The regular expression's own reading: the key, any run of whitespace, `=`, any
      run of whitespace, then the tail. */
  predicate RegexAt(s: string, i: nat, key: string, tail: string) {
    exists j, k :: i + |key| <= j < k <= |s|
                   && HasAt(s, i, key) && AllSpace(s[i + |key|..j]) && s[j] == '='
                   && AllSpace(s[j + 1..k]) && HasAt(s, k, tail)
  }

  /** Reading the whitespace greedily finds a match exactly when the regular
      expression has one, for a tail that is empty or does not start with whitespace. */
  lemma GreedyIsRegex(s: string, i: nat, key: string, tail: string)
    requires |tail| > 0 ==> !IsSpace(tail[0])
    ensures MatchesAt(s, i, key, tail) <==> RegexAt(s, i, key, tail)
  {
    if MatchesAt(s, i, key, tail) {
      GreedyGivesRegex(s, i, key, tail);
    }
    if RegexAt(s, i, key, tail) {
      var j, k :| i + |key| <= j < k <= |s|
                  && HasAt(s, i, key) && AllSpace(s[i + |key|..j]) && s[j] == '='
                  && AllSpace(s[j + 1..k]) && HasAt(s, k, tail);
      RegexGivesGreedy(s, i, key, tail, j, k);
    }
  }

  lemma GreedyGivesRegex(s: string, i: nat, key: string, tail: string)
    requires MatchesAt(s, i, key, tail)
    ensures RegexAt(s, i, key, tail)
  {
    var j := SkipSpaces(s, i + |key|);
    var k := SkipSpaces(s, j + 1);
    assert AllSpace(s[i + |key|..j]) && AllSpace(s[j + 1..k]);
  }

  lemma RegexGivesGreedy(s: string, i: nat, key: string, tail: string, j: nat, k: nat)
    requires |tail| > 0 ==> !IsSpace(tail[0])
    requires i + |key| <= j < k <= |s|
    requires HasAt(s, i, key) && AllSpace(s[i + |key|..j]) && s[j] == '='
    requires AllSpace(s[j + 1..k]) && HasAt(s, k, tail)
    ensures MatchesAt(s, i, key, tail)
  {
    SkipTo(s, i + |key|, j);
    if |tail| > 0 {
      assert s[k] == tail[0] by {
        assert s[k..k + |tail|][0] == s[k];
      }
      SkipTo(s, j + 1, k);
    }
  }

  /** Skipping whitespace from `a` stops at the first non-whitespace `j`. */
  lemma {:induction false} SkipTo(s: string, a: nat, j: nat)
    requires a <= j < |s| && AllSpace(s[a..j]) && !IsSpace(s[j])
    ensures SkipSpaces(s, a) == j
    decreases j - a
  {
    if a < j {
      assert IsSpace(s[a..j][0]);
      assert s[a + 1..j] == s[a..j][1..];
      SkipTo(s, a + 1, j);
    }
  }

  /** The keyword check: `KEY\s*=\s*\.TRUE\.`. */
  predicate SetsTrue(incar: string, key: string) {
    Found(incar, key, ".TRUE.")
  }

  /** The warning check `NELECT\s*=\s*[0-9]*`: the digits may be none, so any
      `NELECT =` counts, whatever follows. */
  predicate AssignsNelect(incar: string) {
    Found(incar, "NELECT", "")
  }

  /** `NELECT\s*=\s*[0-9]*` finds a match exactly when `NELECT\s*=` does: a run of
      digits after the `=` changes nothing. */
  lemma NelectDigitsOptional(incar: string, i: nat, digits: string)
    requires forall k :: 0 <= k < |digits| ==> IsDigit(digits[k])
    ensures MatchesAt(incar, i, "NELECT", digits) ==> MatchesAt(incar, i, "NELECT", "")
  {
  }

  // ---------------------------------------------------------------------------
  // create_input_directories

  /** The input directory: the names it holds, the loaded `ec_interface.yml`, the INCAR
      text, and the step directories that already exist. */
  datatype Directory = Directory(files: set<string>, ecInput: Schema.Value, incar: string,
                                 subdirectories: set<string>)

  /** The exceptions that abort the function before any directory is made. */
  datatype MakeError =
    | FileNotFound(name: string)
    | InputError(error: EcParameters.EcInputError)
    | MissingKeyword(keyword: string)

  /** What is done for one step directory. */
  datatype Action =
    | Create(directory: string, incar: string)     // made, INCAR written, inputs linked or copied
    | Recreate(directory: string, incar: string)   // removed first because `force` is set
    | Skip(directory: string)                      // exists and `force` is not set

  /** What the function does when no check fails: whether it warns about `NELECT`,
      and the action of every step, in step order. */
  datatype Run = Run(warnNelect: bool, actions: seq<Action>)

  /** The INCAR written for a step of `n` electrons: the original text, then the
      `NELECT` line; `fmt3` is the `{:.3f}` formatter. It starts with the original
      text, assigns `NELECT` (so that the warning check would fire on it), and still
      sets every keyword the original sets. */
  function StepIncar(incar: string, n: real, fmt3: real -> string): (r: string)
    ensures |r| > |incar| && r[..|incar|] == incar
    ensures AssignsNelect(r)
    ensures forall k :: 0 <= k < |Keywords| && SetsTrue(incar, Keywords[k]) ==> SetsTrue(r, Keywords[k])
  {
    var tail := "\n! EC calculation\nNELECT = " + fmt3(n);
    NelectLineAssigns(incar, fmt3(n));
    forall k | 0 <= k < |Keywords| && SetsTrue(incar, Keywords[k]) ensures SetsTrue(incar + tail, Keywords[k]) {
      FoundExtends(incar, tail, Keywords[k], ".TRUE.");
    }
    assert incar + "\n! EC calculation\nNELECT = " + fmt3(n) == incar + tail;
    incar + "\n! EC calculation\nNELECT = " + fmt3(n)
  }

  /** The appended line `NELECT = ...` matches `NELECT\s*=`. */
  lemma NelectLineAssigns(incar: string, value: string)
    ensures AssignsNelect(incar + "\n! EC calculation\nNELECT = " + value)
  {
    var head := "\n! EC calculation\n";
    var s := incar + "\n! EC calculation\nNELECT = " + value;
    assert s == (incar + head) + ("NELECT" + " = " + value);
    var i := |incar + head|;
    assert s[i..i + 6] == "NELECT";
    assert s[i + 6] == ' ' && s[i + 7] == '=';
    assert s[i + 6..i + 7] == " ";
    SkipTo(s, i + 6, i + 7);
    assert MatchesAt(s, i, "NELECT", "");
  }

  /** Whitespace skipping that stops inside `s` stops at the same place in `s + t`. */
  lemma SkipExtends(s: string, t: string, a: nat)
    requires a <= |s| && SkipSpaces(s, a) < |s|
    ensures SkipSpaces(s + t, a) == SkipSpaces(s, a)
  {
    var j := SkipSpaces(s, a);
    assert (s + t)[a..j] == s[a..j];
    assert (s + t)[j] == s[j];
    SkipTo(s + t, a, j);
  }

  /** Text appended after a match of `KEY\s*=\s*TAIL`, for a tail that starts with a
      non-whitespace character, leaves the match in place. */
  lemma FoundExtends(s: string, t: string, key: string, tail: string)
    requires |tail| > 0 && !IsSpace(tail[0]) && Found(s, key, tail)
    ensures Found(s + t, key, tail)
  {
    var i :| 0 <= i <= |s| && MatchesAt(s, i, key, tail);
    MatchExtends(s, t, i, key, tail);
  }

  lemma MatchExtends(s: string, t: string, i: nat, key: string, tail: string)
    requires |tail| > 0 && MatchesAt(s, i, key, tail)
    ensures MatchesAt(s + t, i, key, tail)
  {
    var u := s + t;
    var j := SkipSpaces(s, i + |key|);
    var k := SkipSpaces(s, j + 1);
    assert HasAt(u, i, key) by { HasAtExtends(s, t, i, key); }
    assert k < |s| by { assert HasAt(s, k, tail); }
    assert SkipSpaces(u, i + |key|) == j && u[j] == '=' && SkipSpaces(u, j + 1) == k by {
      SkipsExtend(s, t, i + |key|, j, k);
    }
    assert HasAt(u, k, tail) by { HasAtExtends(s, t, k, tail); }
    MatchesAtIntro(u, i, key, tail, j, k);
  }

  lemma MatchesAtIntro(u: string, i: nat, key: string, tail: string, j: nat, k: nat)
    requires HasAt(u, i, key) && SkipSpaces(u, i + |key|) == j && j < |u| && u[j] == '='
    requires SkipSpaces(u, j + 1) == k && HasAt(u, k, tail)
    ensures MatchesAt(u, i, key, tail)
  {
  }

  /** Both whitespace runs of a match are read the same with text appended. */
  lemma SkipsExtend(s: string, t: string, a: nat, j: nat, k: nat)
    requires a <= |s| && j == SkipSpaces(s, a) && j < |s| && k == SkipSpaces(s, j + 1) && k < |s|
    ensures SkipSpaces(s + t, a) == j && (s + t)[j] == s[j] && SkipSpaces(s + t, j + 1) == k
  {
    SkipExtends(s, t, a);
    SkipExtends(s, t, j + 1);
  }

  lemma HasAtExtends(s: string, t: string, i: nat, x: string)
    requires HasAt(s, i, x)
    ensures HasAt(s + t, i, x)
  {
    assert (s + t)[i..i + |x|] == s[i..i + |x|];
  }

  /** The action for the step of `n` electrons, whose directory is `dir`, when the
      directories in `existing` are present (`subdirectory.exists()`); `incar` is the
      original INCAR text. */
  function StepAction(existing: set<string>, incar: string, force: bool, dir: string, n: real,
                      fmt3: real -> string): (a: Action)
    ensures a.directory == dir
    ensures a.Skip? <==> dir in existing && !force
    ensures a.Recreate? <==> dir in existing && force
    ensures !a.Skip? ==> a.incar == StepIncar(incar, n, fmt3)
  {
    if dir in existing then
      if force then Recreate(dir, StepIncar(incar, n, fmt3)) else Skip(dir)
    else Create(dir, StepIncar(incar, n, fmt3))
  }

  /** The checks made before any directory is touched: the input files exist, the
      input is valid, the INCAR sets the three keywords. */
  function Preflight(d: Directory): (r: Result<EcParameters.Parameters, MakeError>)
    ensures r.Ok? <==> (forall f :: f in RequiredFiles ==> f in d.files)
                       && EcParameters.FromYaml(d.ecInput).Ok?
                       && (forall k :: k in Keywords ==> SetsTrue(d.incar, k))
    ensures r.Ok? ==> r.value == EcParameters.FromYaml(d.ecInput).value
    ensures r.Err? && r.error.FileNotFound? ==>
              exists i :: 0 <= i < |RequiredFiles| && r.error.name == RequiredFiles[i] && r.error.name !in d.files
                          && forall j :: 0 <= j < i ==> RequiredFiles[j] in d.files
    ensures r.Err? && r.error.InputError? ==>
              (forall f :: f in RequiredFiles ==> f in d.files) && EcParameters.FromYaml(d.ecInput).Err?
    ensures r.Err? && r.error.MissingKeyword? ==>
              && (forall f :: f in RequiredFiles ==> f in d.files) && EcParameters.FromYaml(d.ecInput).Ok?
              && exists i :: 0 <= i < |Keywords| && r.error.keyword == Keywords[i] && !SetsTrue(d.incar, Keywords[i])
                             && forall j :: 0 <= j < i ==> SetsTrue(d.incar, Keywords[j])
  {
    match FirstFailing(RequiredFiles, (f: string) => f in d.files)
    case Some(i) => Err(FileNotFound(RequiredFiles[i]))
    case None =>
      match EcParameters.FromYaml(d.ecInput)
      case Err(e) => Err(InputError(e))
      case Ok(p) =>
        match FirstFailing(Keywords, (k: string) => SetsTrue(d.incar, k))
        case Some(i) => Err(MissingKeyword(Keywords[i]))
        case None => Ok(p)
  }

  /** The error reported is the first check that fails, in the order files, input,
      keywords. */
  lemma FirstErrorReported(d: Directory)
    ensures Preflight(d).Err? && Preflight(d).error.FileNotFound? <==> exists f :: f in RequiredFiles && f !in d.files
    ensures Preflight(d).Err? && Preflight(d).error.InputError? <==>
              (forall f :: f in RequiredFiles ==> f in d.files) && EcParameters.FromYaml(d.ecInput).Err?
  {
    if exists f :: f in RequiredFiles && f !in d.files {
      var fi := FirstFailing(RequiredFiles, (f: string) => f in d.files);
      assert fi.Some?;
    }
  }

  /** The step loop, started when the directories in `existing` are present. Every
      step leaves its own directory present: a skipped one already was, and a created
      or recreated one is made by `mkdir()`. */
  function ActionsFrom(existing: set<string>, incar: string, force: bool, steps: seq<real>,
                       name: real -> string, fmt3: real -> string): (r: seq<Action>)
    ensures |r| == |steps|
    decreases |steps|
  {
    if |steps| == 0 then []
    else
      var dir := name(steps[0]);
      [StepAction(existing, incar, force, dir, steps[0], fmt3)]
      + ActionsFrom(existing + {dir}, incar, force, steps[1..], name, fmt3)
  }

  /** When the loop reaches step `i`, its directory exists: it was among `existing`
      before the loop, or an earlier step has the same directory. */
  predicate PresentAt(existing: set<string>, steps: seq<real>, name: real -> string, i: nat)
    requires i < |steps|
  {
    name(steps[i]) in existing || exists j :: 0 <= j < i && name(steps[j]) == name(steps[i])
  }

  /** The action of one step, decided against what is present when the loop reaches it. */
  predicate ActsAt(existing: set<string>, incar: string, force: bool, steps: seq<real>,
                   name: real -> string, fmt3: real -> string, a: Action, i: nat)
    requires i < |steps|
  {
    && a.directory == name(steps[i])
    && (a.Skip? <==> !force && PresentAt(existing, steps, name, i))
    && (a.Recreate? <==> force && PresentAt(existing, steps, name, i))
    && (!a.Skip? ==> a.incar == StepIncar(incar, steps[i], fmt3))
  }

  /** Dropping the first step moves its directory into the present set. */
  lemma PresentAtTail(existing: set<string>, steps: seq<real>, name: real -> string, i: nat)
    requires 0 < i < |steps|
    ensures PresentAt(existing + {name(steps[0])}, steps[1..], name, i - 1) <==> PresentAt(existing, steps, name, i)
  {
    var tail := steps[1..];
    assert tail[i - 1] == steps[i];
    if exists j :: 0 <= j < i - 1 && name(tail[j]) == name(tail[i - 1]) {
      var j :| 0 <= j < i - 1 && name(tail[j]) == name(tail[i - 1]);
      assert tail[j] == steps[j + 1];
    }
    if exists j :: 1 <= j < i && name(steps[j]) == name(steps[i]) {
      var j :| 1 <= j < i && name(steps[j]) == name(steps[i]);
      assert steps[j] == tail[j - 1];
    }
  }

  /** Step `i` of the loop acts on what is present when the loop reaches it. */
  lemma {:induction false} ActionsFromAt(existing: set<string>, incar: string, force: bool, steps: seq<real>,
                                         name: real -> string, fmt3: real -> string, i: nat)
    requires i < |steps|
    ensures ActsAt(existing, incar, force, steps, name, fmt3, ActionsFrom(existing, incar, force, steps, name, fmt3)[i], i)
    decreases |steps|
  {
    var dir := name(steps[0]);
    var r := ActionsFrom(existing, incar, force, steps, name, fmt3);
    var rest := ActionsFrom(existing + {dir}, incar, force, steps[1..], name, fmt3);
    assert r == [StepAction(existing, incar, force, dir, steps[0], fmt3)] + rest;
    if i == 0 {
      assert PresentAt(existing, steps, name, 0) <==> dir in existing;
    } else {
      ActionsFromAt(existing + {dir}, incar, force, steps[1..], name, fmt3, i - 1);
      assert r[i] == rest[i - 1];
      ActsAtTail(existing, incar, force, steps, name, fmt3, r[i], i);
    }
  }

  /** What step `i - 1` of the loop after the first step does is what step `i` of the
      whole loop does. */
  lemma ActsAtTail(existing: set<string>, incar: string, force: bool, steps: seq<real>,
                   name: real -> string, fmt3: real -> string, a: Action, i: nat)
    requires 0 < i < |steps|
    requires ActsAt(existing + {name(steps[0])}, incar, force, steps[1..], name, fmt3, a, i - 1)
    ensures ActsAt(existing, incar, force, steps, name, fmt3, a, i)
  {
    PresentAtTail(existing, steps, name, i);
    assert steps[1..][i - 1] == steps[i];
  }

  lemma ActionsFromEach(existing: set<string>, incar: string, force: bool, steps: seq<real>,
                        name: real -> string, fmt3: real -> string)
    ensures var r := ActionsFrom(existing, incar, force, steps, name, fmt3);
            && (forall i :: 0 <= i < |steps| ==> r[i].directory == name(steps[i]))
            && (forall i :: 0 <= i < |steps| ==> (r[i].Skip? <==> !force && PresentAt(existing, steps, name, i)))
            && (forall i :: 0 <= i < |steps| ==> (r[i].Recreate? <==> force && PresentAt(existing, steps, name, i)))
            && (forall i :: 0 <= i < |steps| ==> !r[i].Skip? ==> r[i].incar == StepIncar(incar, steps[i], fmt3))
  {
    var r := ActionsFrom(existing, incar, force, steps, name, fmt3);
    forall i | 0 <= i < |steps|
      ensures ActsAt(existing, incar, force, steps, name, fmt3, r[i], i)
    {
      ActionsFromAt(existing, incar, force, steps, name, fmt3, i);
    }
  }

  /** The actions for the steps `steps`, in order. `subdirectory.exists()` sees the
      directories present before the call and those earlier steps made: step `i` is
      skipped (without `force`) or recreated (with it) iff its directory was present
      before the call or an earlier step has the same directory. */
  function Actions(d: Directory, force: bool, steps: seq<real>, name: real -> string, fmt3: real -> string)
    : (r: seq<Action>)
    ensures |r| == |steps|
    ensures forall i :: 0 <= i < |steps| ==> r[i].directory == name(steps[i])
    ensures forall i :: 0 <= i < |steps| ==>
              (r[i].Skip? <==> !force && PresentAt(d.subdirectories, steps, name, i))
    ensures forall i :: 0 <= i < |steps| ==>
              (r[i].Recreate? <==> force && PresentAt(d.subdirectories, steps, name, i))
    ensures forall i :: 0 <= i < |steps| ==> !r[i].Skip? ==> r[i].incar == StepIncar(d.incar, steps[i], fmt3)
  {
    ActionsFromEach(d.subdirectories, d.incar, force, steps, name, fmt3);
    ActionsFrom(d.subdirectories, d.incar, force, steps, name, fmt3)
  }

  /** `create_input_directories(directory, force=force)`. The step directories are
      named by `name` (the `directories()` of the parameters, one per step). */
  function CreateInputDirectories(d: Directory, force: bool, name: real -> string, fmt3: real -> string)
    : (r: Result<Run, MakeError>)
    ensures r.Err? <==> Preflight(d).Err?
    ensures r.Err? ==> r.error == Preflight(d).error
    ensures r.Ok? ==> (r.value.warnNelect <==> AssignsNelect(d.incar))
    ensures r.Ok? ==>
              var steps := EcParameters.Steps(Preflight(d).value);
              && steps.Some?
              && r.value.actions == Actions(d, force, steps.value, name, fmt3)
  {
    var p :- Preflight(d);
    EcParameters.ValidatedStepCount(p);
    Ok(Run(AssignsNelect(d.incar), Actions(d, force, EcParameters.Steps(p).value, name, fmt3)))
  }

  /** The INCAR of a step is the original text followed by its own `NELECT` line. */
  lemma StepIncarKeepsOriginal(incar: string, n: real, fmt3: real -> string)
    ensures StepIncar(incar, n, fmt3)[..|incar|] == incar
    ensures StepIncar(incar, n, fmt3)[|incar|..] == "\n! EC calculation\nNELECT = " + fmt3(n)
  {
    assert StepIncar(incar, n, fmt3) == incar + ("\n! EC calculation\nNELECT = " + fmt3(n));
  }

  /** With `force` no step is skipped; without it, a step is skipped iff its directory
      was present before the call or an earlier step has the same directory. A step whose
      directory is new and not shared with an earlier step is created. */
  lemma ForceDecidesSkips(d: Directory, force: bool, steps: seq<real>, name: real -> string,
                          fmt3: real -> string, i: nat)
    requires i < |steps|
    ensures var a := Actions(d, force, steps, name, fmt3)[i];
            && (force ==> !a.Skip?)
            && (a.Skip? <==> !force && (name(steps[i]) in d.subdirectories
                                        || exists j :: 0 <= j < i && name(steps[j]) == name(steps[i])))
            && (a.Create? <==> name(steps[i]) !in d.subdirectories
                               && forall j :: 0 <= j < i ==> name(steps[j]) != name(steps[i]))
  {
  }

  /** Two steps sharing a directory: the later one never creates it. Without `force`
      it is skipped, with `force` it is removed and made again. */
  lemma SharedDirectory(d: Directory, force: bool, steps: seq<real>, name: real -> string,
                        fmt3: real -> string, j: nat, i: nat)
    requires j < i < |steps| && name(steps[j]) == name(steps[i])
    ensures var a := Actions(d, force, steps, name, fmt3)[i];
            if force then a.Recreate? else a.Skip?
  {
    assert PresentAt(d.subdirectories, steps, name, i);
  }

  /** Three steps whose `{:.3f}` names coincide, in a fresh directory: the first is
      created, the later ones are skipped. */
  lemma SharedDirectoryExample(d: Directory, fmt3: real -> string)
    requires d.subdirectories == {}
    ensures var r := Actions(d, false, [20.9999, 21.0, 21.0001], _ => "EC_21.000", fmt3);
            r[0].Create? && r[1] == Skip("EC_21.000") && r[2] == Skip("EC_21.000")
  {
    var steps := [20.9999, 21.0, 21.0001];
    assert !PresentAt(d.subdirectories, steps, _ => "EC_21.000", 0);
    assert steps[0] == 20.9999;
    assert PresentAt(d.subdirectories, steps, _ => "EC_21.000", 1);
    assert PresentAt(d.subdirectories, steps, _ => "EC_21.000", 2);
  }
}

=== FILE: molecular_geometry.dfy ===
/** `MolecularGeometry`: symbols and cartesian positions without periodicity, read from
    and written to the XYZ format, and turned into a `vasp_geometry.Geometry` by
    optionally sorting the atoms by symbol and shifting them. Numbers are written with
    a formatter and read with a parser, as for POSCAR files. */
module MolecularGeometry {
  import opened Outcomes
  import opened Text
  import opened PairSort
  import VaspGeometry

  type Vec3 = VaspGeometry.Vec3

  datatype Molecule = Molecule(symbols: seq<string>, positions: seq<Vec3>)

  /** The constructor's assertion: one row of three coordinates per symbol. */
  predicate Valid(m: Molecule) {
    |m.positions| == |m.symbols|
  }

  /** What `from_xyz` raises: `ValueError` from `int` or `float`, `IndexError` on a
      blank atom line, `AssertionError` from the constructor. */
  datatype XyzError = InvalidValue | MissingSymbol | ShapeMismatch

  /** `numpy.array(rows).shape` for a list of rows of floats: `(0,)` for no rows,
      `(n, k)` when every row has `k` numbers, `(n,)` otherwise. */
  function ArrayShape(rows: seq<seq<real>>): seq<nat> {
    if |rows| == 0 then [0]
    else if forall i :: 0 <= i < |rows| ==> |rows[i]| == |rows[0]| then [|rows|, |rows[0]|]
    else [|rows|]
  }

  /** `cls(symbols, numpy.array(rows))`: the array must have shape
      `(len(symbols), 3)`, which an empty list of rows never has. */
  function FromRows(symbols: seq<string>, rows: seq<seq<real>>): (r: Result<Molecule, XyzError>)
    ensures r.Ok? <==> |symbols| > 0 && |rows| == |symbols| && forall i :: 0 <= i < |rows| ==> |rows[i]| == 3
    ensures r.Ok? ==> Valid(r.value) && r.value.symbols == symbols
                      && forall i :: 0 <= i < |rows| ==>
                           r.value.positions[i] == VaspGeometry.Vec3(rows[i][0], rows[i][1], rows[i][2])
    ensures r.Err? ==> r.error == ShapeMismatch
  {
    if ArrayShape(rows) != [|symbols|, 3] then Err(ShapeMismatch)
    else
      assert forall i :: 0 <= i < |rows| ==> |rows[i]| == 3;
      Ok(Molecule(symbols, seq(|rows|, i requires 0 <= i < |rows| => VaspGeometry.Vec3(rows[i][0], rows[i][1], rows[i][2]))))
  }

  // ---------------------------------------------------------------------------
  // from_xyz (lines 21-37)

  /** One atom line: `data[0]` is the symbol, the remaining items are floats. */
  function AtomRow(line: string, parse: string -> Option<real>): (r: Result<(string, seq<real>), XyzError>)
    ensures r.Ok? <==> |Split(line)| > 0 && VaspGeometry.ParseReals(Split(line)[1..], parse).Some?
    ensures |Split(line)| == 0 ==> r == Err(MissingSymbol)
    ensures r.Ok? ==> r.value.0 == Split(line)[0]
                      && Some(r.value.1) == VaspGeometry.ParseReals(Split(line)[1..], parse)
  {
    var data := Split(line);
    if |data| == 0 then Err(MissingSymbol)
    else
      match VaspGeometry.ParseReals(data[1..], parse)
      case None => Err(InvalidValue)
      case Some(xs) => Ok((data[0], xs))
  }

  function AtomReader(parse: string -> Option<real>): string -> Result<(string, seq<real>), XyzError> {
    line => AtomRow(line, parse)
  }

  /** `count` atom lines from line `start` on, in order; the first bad one raises. */
  function ReadAtoms(lines: seq<string>, start: nat, count: nat,
                     row: string -> Result<(string, seq<real>), XyzError>): (r: Result<(seq<string>, seq<seq<real>>), XyzError>)
    ensures r.Ok? ==> |r.value.0| == count && |r.value.1| == count
    decreases count
  {
    if count == 0 then Ok(([], []))
    else
      var first :- row(VaspGeometry.Line(lines, start));
      var rest :- ReadAtoms(lines, start + 1, count - 1, row);
      Ok(([first.0] + rest.0, [first.1] + rest.1))
  }

  /** `from_xyz`: the count `n` (`int` strips the line), a comment line that is
      skipped, then `n` atom lines; no atom line is read when `n <= 0`. */
  function FromXyz(lines: seq<string>, parse: string -> Option<real>): (r: Result<Molecule, XyzError>)
    ensures ParseInt(Strip(VaspGeometry.Line(lines, 0))).None? ==> r == Err(InvalidValue)
    ensures r.Ok? ==> Valid(r.value) && |r.value.symbols| > 0
                      && ParseInt(Strip(VaspGeometry.Line(lines, 0))) == Some(|r.value.symbols|)
    ensures (match ParseInt(Strip(VaspGeometry.Line(lines, 0))) case Some(n) => n <= 0 case None => false)
              ==> r == Err(ShapeMismatch)
  {
    var n :- (match ParseInt(Strip(VaspGeometry.Line(lines, 0)))
              case None => Err(InvalidValue)
              case Some(n) => Ok(n));
    var atoms :- ReadAtoms(lines, 2, if n > 0 then n else 0, AtomReader(parse));
    FromRows(atoms.0, atoms.1)
  }

  /** A successful read took atom `i` from line `2 + i`. */
  lemma {:induction false} ReadAtomsRows(lines: seq<string>, start: nat, count: nat,
                                         row: string -> Result<(string, seq<real>), XyzError>)
    requires ReadAtoms(lines, start, count, row).Ok?
    ensures var v := ReadAtoms(lines, start, count, row).value;
            forall i :: 0 <= i < count ==> row(VaspGeometry.Line(lines, start + i)) == Ok((v.0[i], v.1[i]))
    decreases count
  {
    if count > 0 {
      ReadAtomsRows(lines, start + 1, count - 1, row);
      var v := ReadAtoms(lines, start, count, row).value;
      var w := ReadAtoms(lines, start + 1, count - 1, row).value;
      assert forall i :: 1 <= i < count ==> v.0[i] == w.0[i - 1] && v.1[i] == w.1[i - 1];
    }
  }

  /** Line `start + j` reads, through `row`, as symbol `syms[j]` with coordinates
      `rows[j]`, for every `j`. */
  ghost predicate AtomsReadAs(lines: seq<string>, start: nat, syms: seq<string>, rows: seq<seq<real>>,
                              row: string -> Result<(string, seq<real>), XyzError>)
  {
    |syms| == |rows|
    && forall j :: 0 <= j < |syms| ==> row(VaspGeometry.Line(lines, start + j)) == Ok((syms[j], rows[j]))
  }

  /** Lines whose atom lines each read as the given symbol and row are read as
      those symbols and rows. */
  lemma {:induction false} AtomsFromLines(lines: seq<string>, start: nat, syms: seq<string>, rows: seq<seq<real>>,
                                          row: string -> Result<(string, seq<real>), XyzError>, k: nat)
    requires AtomsReadAs(lines, start, syms, rows, row) && k <= |syms|
    ensures ReadAtoms(lines, start + k, |syms| - k, row) == Ok((syms[k..], rows[k..]))
    decreases |syms| - k
  {
    assert |rows| == |syms|;
    if k < |syms| {
      AtomsFromLines(lines, start, syms, rows, row, k + 1);
      var rest := ReadAtoms(lines, start + (k + 1), |syms| - (k + 1), row);
      assert rest == Ok((syms[k + 1..], rows[k + 1..]));
      assert row(VaspGeometry.Line(lines, start + k)) == Ok((syms[k], rows[k]));
      assert ReadAtoms(lines, start + k, |syms| - k, row)
             == Ok(([syms[k]] + rest.value.0, [rows[k]] + rest.value.1));
      assert syms[k..] == [syms[k]] + syms[k + 1..];
      assert rows[k..] == [rows[k]] + rows[k + 1..];
    } else {
      assert syms[k..] == [] && rows[k..] == [];
    }
  }

  // ---------------------------------------------------------------------------
  // as_xyz (lines 39-46)

  /** `'{:2}'.format(s)`: left-aligned, padded with spaces to width 2. */
  function Pad2(s: string): (r: string)
    ensures |r| == if |s| < 2 then 2 else |s|
    ensures r[..|s|] == s && forall i :: |s| <= i < |r| ==> r[i] == ' '
  {
    if |s| < 2 then s + seq(2 - |s|, _ => ' ') else s
  }

  /** One atom line: the padded symbol, then the three coordinates. `fmt` stands for
      `'{: .7f}'`, which writes a space in place of the sign of a non-negative
      number. */
  function AtomLine(symbol: string, p: Vec3, fmt: real -> string): string {
    Pad2(symbol) + " " + JoinSpace(VaspGeometry.Fmt3(p, fmt))
  }

  /** The lines of `as_xyz(title)`: the count, the title, one line per atom. */
  function XyzLines(m: Molecule, title: string, fmt: real -> string): (r: seq<string>)
    requires Valid(m)
    ensures |r| == |m.symbols| + 2
    ensures r[0] == IntToString(|m.symbols|) && r[1] == title
    ensures forall i :: 0 <= i < |m.symbols| ==> r[2 + i] == AtomLine(m.symbols[i], m.positions[i], fmt)
  {
    [IntToString(|m.symbols|), title]
      + seq(|m.symbols|, i requires 0 <= i < |m.symbols| => AtomLine(m.symbols[i], m.positions[i], fmt))
  }

  /** `as_xyz(title)`: the lines joined by newlines, without a final newline. The
      text opens with the atom count on a line of its own, then the title. */
  function AsXyz(m: Molecule, title: string, fmt: real -> string): (r: string)
    requires Valid(m)
    ensures var head := IntToString(|m.symbols|) + "\n" + title;
            |r| >= |head| && r[..|head|] == head
    ensures |m.symbols| == 0 <==> r == IntToString(0) + "\n" + title
  {
    var ls := XyzLines(m, title, fmt);
    var rest := JoinOn(ls[1..], '\n');
    assert ls[1..][0] == title;
    assert rest == title || rest == title + "\n" + JoinOn(ls[2..], '\n') by {
      if |ls| > 2 { assert ls[1..][1..] == ls[2..]; }
    }
    JoinOn(ls, '\n')
  }

  /** What the XYZ round trip needs: no newline inside the title, a symbol or a
      written number, and symbols that are single items. */
  ghost predicate XyzWritable(m: Molecule, title: string, fmt: real -> string, parse: string -> Option<real>) {
    && Valid(m)
    && VaspGeometry.CodecOk(fmt, parse)
    && '\n' !in title
    && (forall i :: 0 <= i < |m.symbols| ==> IsToken(m.symbols[i]))
  }

  /** Splitting the text of `as_xyz` on newlines gives back its lines. */
  lemma AsXyzLines(m: Molecule, title: string, fmt: real -> string)
    requires Valid(m) && '\n' !in title
    requires forall i :: 0 <= i < |m.symbols| ==> IsToken(m.symbols[i])
    requires forall x :: '\n' !in fmt(x)
    ensures SplitOn(AsXyz(m, title, fmt), '\n') == XyzLines(m, title, fmt)
  {
    var ls := XyzLines(m, title, fmt);
    IntToStringRoundTrip(|m.symbols|);
    assert IsSpace('\n');
    forall k | 0 <= k < |ls|
      ensures '\n' !in ls[k]
    {
      if k >= 2 {
        AtomLineNoNewline(m.symbols[k - 2], m.positions[k - 2], fmt);
      }
    }
    SplitOnJoinOn(ls, '\n');
  }

  lemma AtomLineNoNewline(symbol: string, p: Vec3, fmt: real -> string)
    requires IsToken(symbol) && forall x :: '\n' !in fmt(x)
    ensures '\n' !in AtomLine(symbol, p, fmt)
  {
    assert IsSpace('\n');
    assert '\n' !in fmt(p.x) && '\n' !in fmt(p.y) && '\n' !in fmt(p.z);
    JoinSpaceNoNewline(VaspGeometry.Fmt3(p, fmt));
  }

  /** An atom line reads back as its symbol and the numbers the parser gives for
      the written coordinates. */
  lemma AtomLineParses(symbol: string, p: Vec3, fmt: real -> string, parse: string -> Option<real>)
    requires VaspGeometry.CodecOk(fmt, parse) && IsToken(symbol)
    ensures var q := VaspGeometry.RereadVec(fmt, parse, p);
            AtomRow(AtomLine(symbol, p, fmt), parse) == Ok((symbol, [q.x, q.y, q.z]))
  {
    var t := Split(JoinSpace(VaspGeometry.Fmt3(p, fmt)));
    var q := VaspGeometry.RereadVec(fmt, parse, p);
    AtomLineSplit(symbol, p, fmt);
    assert ([symbol] + t)[1..] == t;
    assert VaspGeometry.ParseReals(t, parse) == Some([q.x, q.y, q.z]) by {
      VaspGeometry.CoordinatesSplit(p, fmt, parse, []);
      assert VaspGeometry.Fmt3(p, fmt) + [] == VaspGeometry.Fmt3(p, fmt);
      assert SplitAll([]) == [];
      assert |t| == 3;
      VaspGeometry.ThreeReals(t, parse, q.x, q.y, q.z);
    }
  }

  /** An atom line splits into the symbol, then the tokens of the coordinates. */
  lemma AtomLineSplit(symbol: string, p: Vec3, fmt: real -> string)
    requires IsToken(symbol)
    ensures Split(AtomLine(symbol, p, fmt)) == [symbol] + Split(JoinSpace(VaspGeometry.Fmt3(p, fmt)))
  {
    var coords := JoinSpace(VaspGeometry.Fmt3(p, fmt));
    SplitAroundSpace(Pad2(symbol), coords);
    SplitOfToken(symbol);
    if |symbol| < 2 {
      assert Pad2(symbol) == symbol + " " + "";
      SplitAroundSpace(symbol, "");
    }
  }

  /** Reading what `as_xyz` wrote gives back the symbols and, up to the formatter,
      the positions. The molecule must have an atom: an empty one is written as a
      count of 0, which `from_xyz` cannot read back. */
  lemma XyzRoundTrip(m: Molecule, title: string, fmt: real -> string, parse: string -> Option<real>)
    requires XyzWritable(m, title, fmt, parse) && |m.symbols| > 0
    ensures FromXyz(SplitOn(AsXyz(m, title, fmt), '\n'), parse)
            == Ok(Molecule(m.symbols, VaspGeometry.RereadAll(fmt, parse, m.positions)))
  {
    AsXyzLines(m, title, fmt);
    var lines := XyzLines(m, title, fmt);
    var n := |m.symbols|;
    var qs := VaspGeometry.RereadAll(fmt, parse, m.positions);
    CountLineReads(n);
    assert VaspGeometry.Line(lines, 0) == IntToString(n);
    AtomLinesRead(lines, m, fmt, parse);
    FromXyzParts(lines, parse, n, m.symbols, Rows(qs));
    FromRowsOfRows(m.symbols, qs);
  }

  /** The count line `str(n)` reads back as `n`. */
  lemma CountLineReads(n: int)
    ensures ParseInt(Strip(IntToString(n))) == Some(n)
  {
    IntToStringRoundTrip(n);
    StripIdentity(IntToString(n));
  }

  /** `from_xyz` on lines whose count reads as `n > 0` and whose `n` atom lines read
      as `syms` and `rows` builds the molecule from those. */
  lemma FromXyzParts(lines: seq<string>, parse: string -> Option<real>, n: int,
                     syms: seq<string>, rows: seq<seq<real>>)
    requires ParseInt(Strip(VaspGeometry.Line(lines, 0))) == Some(n) && n > 0
    requires ReadAtoms(lines, 2, n, AtomReader(parse)) == Ok((syms, rows))
    ensures FromXyz(lines, parse) == FromRows(syms, rows)
  {
  }

  /** Rows of three numbers, one per symbol, give back the positions they were
      taken from. */
  lemma FromRowsOfRows(syms: seq<string>, qs: seq<Vec3>)
    requires |syms| == |qs| > 0
    ensures FromRows(syms, Rows(qs)) == Ok(Molecule(syms, qs))
  {
    var r := FromRows(syms, Rows(qs));
    assert r.value.positions == qs;
  }

  /** The numbers of each position, as the rows `from_xyz` collects. */
  function Rows(ps: seq<Vec3>): (rows: seq<seq<real>>)
    ensures |rows| == |ps|
    ensures forall i :: 0 <= i < |ps| ==> rows[i] == [ps[i].x, ps[i].y, ps[i].z]
  {
    seq(|ps|, i requires 0 <= i < |ps| => [ps[i].x, ps[i].y, ps[i].z])
  }

  /** Lines holding the atom lines of `m` from the third on read as its symbols and
      the re-read positions. */
  lemma AtomLinesRead(lines: seq<string>, m: Molecule, fmt: real -> string, parse: string -> Option<real>)
    requires Valid(m) && VaspGeometry.CodecOk(fmt, parse)
    requires forall i :: 0 <= i < |m.symbols| ==> IsToken(m.symbols[i])
    requires |lines| == |m.symbols| + 2
    requires forall i :: 0 <= i < |m.symbols| ==> lines[2 + i] == AtomLine(m.symbols[i], m.positions[i], fmt)
    ensures ReadAtoms(lines, 2, |m.symbols|, AtomReader(parse))
            == Ok((m.symbols, Rows(VaspGeometry.RereadAll(fmt, parse, m.positions))))
  {
    var rows := Rows(VaspGeometry.RereadAll(fmt, parse, m.positions));
    AtomLinesEachRead(lines, m, fmt, parse);
    AtomsFromLines(lines, 2, m.symbols, rows, AtomReader(parse), 0);
    assert m.symbols[0..] == m.symbols && rows[0..] == rows;
  }

  lemma AtomLinesEachRead(lines: seq<string>, m: Molecule, fmt: real -> string, parse: string -> Option<real>)
    requires Valid(m) && VaspGeometry.CodecOk(fmt, parse)
    requires forall i :: 0 <= i < |m.symbols| ==> IsToken(m.symbols[i])
    requires |lines| == |m.symbols| + 2
    requires forall i :: 0 <= i < |m.symbols| ==> lines[2 + i] == AtomLine(m.symbols[i], m.positions[i], fmt)
    ensures AtomsReadAs(lines, 2, m.symbols, Rows(VaspGeometry.RereadAll(fmt, parse, m.positions)), AtomReader(parse))
  {
    forall j | 0 <= j < |m.symbols|
      ensures AtomReader(parse)(VaspGeometry.Line(lines, 2 + j))
              == Ok((m.symbols[j], Rows(VaspGeometry.RereadAll(fmt, parse, m.positions))[j]))
    {
      AtomLineRead(lines, m, fmt, parse, j);
    }
  }

  /** Atom line `j` reads as symbol `j` and the re-read position `j`. */
  lemma AtomLineRead(lines: seq<string>, m: Molecule, fmt: real -> string, parse: string -> Option<real>, j: nat)
    requires Valid(m) && VaspGeometry.CodecOk(fmt, parse) && j < |m.symbols|
    requires IsToken(m.symbols[j])
    requires |lines| == |m.symbols| + 2
    requires lines[2 + j] == AtomLine(m.symbols[j], m.positions[j], fmt)
    ensures AtomReader(parse)(VaspGeometry.Line(lines, 2 + j))
            == Ok((m.symbols[j], Rows(VaspGeometry.RereadAll(fmt, parse, m.positions))[j]))
  {
    AtomLineParses(m.symbols[j], m.positions[j], fmt, parse);
    var q := VaspGeometry.RereadVec(fmt, parse, m.positions[j]);
    assert VaspGeometry.Line(lines, 2 + j) == AtomLine(m.symbols[j], m.positions[j], fmt);
    assert Rows(VaspGeometry.RereadAll(fmt, parse, m.positions))[j] == [q.x, q.y, q.z];
  }

  /** An empty molecule is written as `0` and a title, and reading that raises. */
  lemma EmptyNotReadable(title: string, fmt: real -> string, parse: string -> Option<real>)
    requires '\n' !in title
    ensures FromXyz(SplitOn(AsXyz(Molecule([], []), title, fmt), '\n'), parse) == Err(ShapeMismatch)
  {
    var ls := XyzLines(Molecule([], []), title, fmt);
    assert ls == ["0", title];
    assert '\n' !in "0";
    SplitOnJoinOn(ls, '\n');
    StripIdentity("0");
    assert ParseInt("0") == Some(0);
  }

  // ---------------------------------------------------------------------------
  // to_vasp (lines 48-80)

  /** `zip(symbols, range(len(self)))`. */
  function Zip(symbols: seq<string>): (z: seq<Pair>)
    ensures |z| == |symbols|
    ensures forall i :: 0 <= i < |symbols| ==> z[i] == (symbols[i], i as nat)
  {
    seq(|symbols|, i requires 0 <= i < |symbols| => (symbols[i], i as nat))
  }

  /** `sorted(zip(symbols, range(len(self))))`. */
  function SortedPairs(symbols: seq<string>): (s: seq<Pair>)
    ensures |s| == |symbols|
    ensures forall i :: 0 <= i < |s| ==> s[i].1 < |symbols| && s[i].0 == symbols[s[i].1]
  {
    var s := Sort(Zip(symbols));
    forall i | 0 <= i < |s|
      ensures s[i].1 < |symbols| && s[i].0 == symbols[s[i].1]
    {
      assert s[i] in multiset(Zip(symbols));
    }
    s
  }

  /** The symbols and positions `to_vasp` works on: the atoms' own order, or with
      `sort` the order of the sorted pairs, each position taken from the index its
      symbol came with. */
  function Reorder(m: Molecule, sort: bool): (r: Molecule)
    requires Valid(m)
    ensures Valid(r) && |r.symbols| == |m.symbols|
    ensures !sort ==> r == m
  {
    if !sort then m
    else
      var s := SortedPairs(m.symbols);
      Molecule(seq(|s|, i requires 0 <= i < |s| => s[i].0),
               seq(|s|, i requires 0 <= i < |s| => m.positions[s[i].1]))
  }

  /** The index, before sorting, of the atom at each place after sorting. */
  function Origin(m: Molecule, sort: bool): (o: seq<nat>)
    requires Valid(m)
    ensures |o| == |m.symbols|
  {
    if sort then
      var s := SortedPairs(m.symbols);
      seq(|s|, i requires 0 <= i < |s| => s[i].1)
    else seq(|m.symbols|, i requires 0 <= i < |m.symbols| => i as nat)
  }

  /** Each atom keeps its own position: place `i` holds the symbol and the position of
      atom `Origin[i]`. */
  lemma PositionsFollowSymbols(m: Molecule, sort: bool)
    requires Valid(m)
    ensures var r, o := Reorder(m, sort), Origin(m, sort);
            forall i :: 0 <= i < |o| ==>
              o[i] < |m.symbols| && r.symbols[i] == m.symbols[o[i]] && r.positions[i] == m.positions[o[i]]
  {
  }

  /** Sorting is a permutation of the atoms: `Origin` visits every index exactly
      once. */
  lemma OriginIsPermutation(m: Molecule, sort: bool)
    requires Valid(m)
    ensures var o := Origin(m, sort);
            && (forall i :: 0 <= i < |o| ==> o[i] < |o|)
            && (forall i, j :: 0 <= i < j < |o| ==> o[i] != o[j])
  {
    if sort {
      var s := SortedPairs(m.symbols);
      var o := Origin(m, sort);
      forall i, j | 0 <= i < j < |o|
        ensures o[i] != o[j]
      {
        ZipMultiplicity(m.symbols, |m.symbols|, s[i]);
        assert Zip(m.symbols)[..|m.symbols|] == Zip(m.symbols);
        CountedOnce(s, i, j);
      }
    }
  }

  /** A value counted once occurs at one place only. */
  lemma CountedOnce(s: seq<Pair>, i: nat, j: nat)
    requires i < j < |s| && multiset(s)[s[i]] <= 1
    ensures s[i] != s[j]
  {
    assert s == s[..j] + s[j..];
    assert s[i] in s[..j];
    assert multiset(s)[s[i]] == multiset(s[..j])[s[i]] + multiset(s[j..])[s[i]];
    assert s[j..][0] == s[j];
  }

  /** Each pair occurs at most once in the zipped symbols. */
  lemma {:induction false} ZipMultiplicity(symbols: seq<string>, k: nat, p: Pair)
    requires k <= |symbols|
    ensures multiset(Zip(symbols)[..k])[p] == if p.1 < k && p.0 == symbols[p.1] then 1 else 0
  {
    if k > 0 {
      ZipMultiplicity(symbols, k - 1, p);
      assert Zip(symbols)[..k] == Zip(symbols)[..k - 1] + [(symbols[k - 1], (k - 1) as nat)];
    }
  }

  /** With `sort`, the symbols come out in Python's string order, and atoms with the
      same symbol keep their original relative order. */
  lemma SortedBySymbol(m: Molecule)
    requires Valid(m)
    ensures var r, o := Reorder(m, true), Origin(m, true);
            forall i, j :: 0 <= i < j < |o| ==>
              !StrLess(r.symbols[j], r.symbols[i])
              && (r.symbols[i] == r.symbols[j] ==> o[i] < o[j])
  {
    var s := SortedPairs(m.symbols);
    SortSorted(Zip(m.symbols));
    OriginIsPermutation(m, true);
    var r, o := Reorder(m, true), Origin(m, true);
    forall i, j | 0 <= i < j < |o|
      ensures !StrLess(r.symbols[j], r.symbols[i]) && (r.symbols[i] == r.symbols[j] ==> o[i] < o[j])
    {
      assert PairLeq(s[i], s[j]);
      if StrLess(r.symbols[j], r.symbols[i]) {
        if StrLess(s[i].0, s[j].0) {
          StrLessTransitive(s[i].0, s[j].0, s[i].0);
        }
        StrLessIrreflexive(s[i].0);
      }
    }
  }

  /** The sorted pairs are THE sorted arrangement of the zipped pairs. */
  lemma SortedPairsCharacterised(symbols: seq<string>, s: seq<Pair>)
    ensures (Sorted(s) && multiset(s) == multiset(Zip(symbols))) <==> s == SortedPairs(symbols)
  {
    SortCharacterised(Zip(symbols), s);
  }

  function Add(p: Vec3, d: Vec3): Vec3 {
    VaspGeometry.Vec3(p.x + d.x, p.y + d.y, p.z + d.z)
  }

  /** `to_vasp`: sort if asked, count the ions with `count_ions` (a parameter here),
      shift every position if asked, and build a cartesian geometry without
      selective dynamics. The molecule itself is a value and is left as it was. */
  function ToVasp(m: Molecule, lattice: VaspGeometry.Mat3, title: string, sort: bool, shift: Option<Vec3>,
                  countIons: seq<string> -> (seq<string>, seq<int>)): (g: VaspGeometry.Geometry)
    requires Valid(m)
    ensures g.title == title && g.lattice == lattice
    ensures !g.isDirect && g.selective.None?
    ensures (g.ionTypes, g.ionNumbers) == countIons(Reorder(m, sort).symbols)
    ensures |g.positions| == |m.symbols|
    ensures forall i :: 0 <= i < |g.positions| ==>
              g.positions[i] == Add(Reorder(m, sort).positions[i], shift.GetOr(VaspGeometry.Vec3(0.0, 0.0, 0.0)))
  {
    var r := Reorder(m, sort);
    var counted := countIons(r.symbols);
    var ps := if shift.Some? then seq(|r.positions|, i requires 0 <= i < |r.positions| => Add(r.positions[i], shift.value))
              else r.positions;
    VaspGeometry.Geometry(title, lattice, counted.0, counted.1, ps, false, None)
  }
}

=== FILE: outcomes.dfy ===
/** Success/failure values standing in for the exceptions the Python code raises. */
module Outcomes {

  datatype Option<+T> = None | Some(value: T) {
    function GetOr(default: T): T {
      match this
      case Some(v) => v
      case None => default
    }

    predicate IsFailure() {
      None?
    }

    function PropagateFailure<U>(): Option<U>
      requires None?
    {
      None
    }

    function Extract(): T
      requires Some?
    {
      value
    }
  }

  /** A computation that either yields a value or raises the error `error`. */
  datatype Result<+T, +E> = Ok(value: T) | Err(error: E) {
    predicate IsFailure() {
      Err?
    }

    function PropagateFailure<U>(): Result<U, E>
      requires Err?
    {
      Err(error)
    }

    function Extract(): T
      requires Ok?
    {
      value
    }
  }

  /** A check that either passes or raises the error `error`. */
  datatype Check<+E> = Pass | Fail(error: E)
}

=== FILE: pair_sort.dfy ===
/** `sorted(zip(symbols, range(n)))`: Python's ordering of strings (code point by code
    point, a proper prefix first) and of `(str, int)` tuples (first component, then
    second), and a sort that returns the same pairs in that order. */
module PairSort {

  /** Python's `a < b` on strings. */
  predicate StrLess(a: string, b: string)
    decreases |a|
  {
    if |a| == 0 then |b| > 0
    else |b| > 0 && (a[0] < b[0] || (a[0] == b[0] && StrLess(a[1..], b[1..])))
  }

  lemma {:induction false} StrLessIrreflexive(a: string)
    ensures !StrLess(a, a)
    decreases |a|
  {
    if |a| > 0 {
      StrLessIrreflexive(a[1..]);
    }
  }

  lemma {:induction false} StrLessTransitive(a: string, b: string, c: string)
    requires StrLess(a, b) && StrLess(b, c)
    ensures StrLess(a, c)
    decreases |a|
  {
    if |a| > 0 && a[0] == b[0] && b[0] == c[0] {
      StrLessTransitive(a[1..], b[1..], c[1..]);
    }
  }

  /** Two different strings are ordered one way or the other. */
  lemma {:induction false} StrLessTotal(a: string, b: string)
    requires a != b
    ensures StrLess(a, b) || StrLess(b, a)
    decreases |a|
  {
    if |a| > 0 && |b| > 0 && a[0] == b[0] {
      assert a == [a[0]] + a[1..] && b == [b[0]] + b[1..];
      StrLessTotal(a[1..], b[1..]);
    }
  }

  /** A symbol with the index it had before sorting. */
  type Pair = (string, nat)

  /** Python's `<` on `(symbol, index)` tuples. */
  predicate PairLess(p: Pair, q: Pair) {
    StrLess(p.0, q.0) || (p.0 == q.0 && p.1 < q.1)
  }

  predicate PairLeq(p: Pair, q: Pair) {
    PairLess(p, q) || p == q
  }

  lemma PairLessTransitive(p: Pair, q: Pair, r: Pair)
    requires PairLess(p, q) && PairLess(q, r)
    ensures PairLess(p, r)
  {
    if StrLess(p.0, q.0) && StrLess(q.0, r.0) {
      StrLessTransitive(p.0, q.0, r.0);
    }
  }

  lemma PairLessTotal(p: Pair, q: Pair)
    ensures PairLess(p, q) || p == q || PairLess(q, p)
  {
    if p.0 != q.0 {
      StrLessTotal(p.0, q.0);
    }
  }

  lemma PairLessIrreflexive(p: Pair)
    ensures !PairLess(p, p)
  {
    StrLessIrreflexive(p.0);
  }

  predicate Sorted(s: seq<Pair>) {
    forall i, j :: 0 <= i < j < |s| ==> PairLeq(s[i], s[j])
  }

  /** `x` put before the first element of `s` it does not come after. */
  function Insert(x: Pair, s: seq<Pair>): (r: seq<Pair>)
    ensures |r| == |s| + 1
    ensures multiset(r) == multiset(s) + multiset{x}
  {
    if |s| == 0 then [x]
    else if PairLess(s[0], x) then
      assert s == [s[0]] + s[1..];
      [s[0]] + Insert(x, s[1..])
    else [x] + s
  }

  /** `sorted(pairs)`, as an insertion sort. */
  function Sort(s: seq<Pair>): (r: seq<Pair>)
    ensures |r| == |s|
    ensures multiset(r) == multiset(s)
  {
    if |s| == 0 then []
    else
      assert s == [s[0]] + s[1..];
      Insert(s[0], Sort(s[1..]))
  }

  lemma {:induction false} InsertSorted(x: Pair, s: seq<Pair>)
    requires Sorted(s)
    ensures Sorted(Insert(x, s))
    decreases |s|
  {
    if |s| > 0 {
      var r := Insert(x, s);
      if PairLess(s[0], x) {
        var rest := Insert(x, s[1..]);
        InsertSorted(x, s[1..]);
        forall j | 0 <= j < |rest|
          ensures PairLeq(s[0], rest[j])
        {
          assert rest[j] in multiset(rest);
          if rest[j] != x {
            assert rest[j] in multiset(s[1..]);
            var k :| 0 <= k < |s[1..]| && s[1..][k] == rest[j];
            assert s[k + 1] == rest[j];
          }
        }
        assert forall j :: 1 <= j < |r| ==> r[j] == rest[j - 1];
      } else {
        PairLessTotal(s[0], x);
        forall j | 0 <= j < |s|
          ensures PairLeq(x, s[j])
        {
          if j > 0 && x != s[0] && s[0] != s[j] {
            PairLessTransitive(x, s[0], s[j]);
          }
        }
      }
    }
  }

  lemma {:induction false} SortSorted(s: seq<Pair>)
    ensures Sorted(Sort(s))
    decreases |s|
  {
    if |s| > 0 {
      SortSorted(s[1..]);
      InsertSorted(s[0], Sort(s[1..]));
    }
  }

  /** The first element of a sorted sequence comes before every element. */
  lemma FirstIsLeast(s: seq<Pair>, y: Pair)
    requires Sorted(s) && |s| > 0 && y in multiset(s)
    ensures PairLeq(s[0], y)
  {
    var k :| 0 <= k < |s| && s[k] == y;
    assert k == 0 || PairLeq(s[0], s[k]);
  }

  /** There is only one sorted arrangement of given pairs: `Sort` returns THE sorted
      permutation of its input. */
  lemma {:induction false} SortedUnique(a: seq<Pair>, b: seq<Pair>)
    requires Sorted(a) && Sorted(b) && multiset(a) == multiset(b)
    ensures a == b
    decreases |a|
  {
    assert |a| == |multiset(a)| == |b|;
    if |a| > 0 {
      SameHead(a, b);
      SameTail(a, b);
      SortedUnique(a[1..], b[1..]);
    }
  }

  /** Two sorted arrangements of the same pairs start with the same pair. */
  lemma SameHead(a: seq<Pair>, b: seq<Pair>)
    requires Sorted(a) && Sorted(b) && multiset(a) == multiset(b) && |a| > 0 && |b| > 0
    ensures a[0] == b[0]
  {
    assert a[0] in multiset(a) && b[0] in multiset(b);
    FirstIsLeast(a, b[0]);
    FirstIsLeast(b, a[0]);
    if a[0] != b[0] {
      PairLessTransitive(a[0], b[0], a[0]);
      PairLessIrreflexive(a[0]);
    }
  }

  /** Removing the same first pair leaves the same pairs. */
  lemma SameTail(a: seq<Pair>, b: seq<Pair>)
    requires multiset(a) == multiset(b) && |a| > 0 && |b| > 0 && a[0] == b[0]
    ensures multiset(a[1..]) == multiset(b[1..])
  {
    assert a == [a[0]] + a[1..] && b == [b[0]] + b[1..];
    assert multiset(a[1..]) == multiset(a) - multiset{a[0]};
    assert multiset(b[1..]) == multiset(b) - multiset{b[0]};
  }

  /** `Sort` gives the one sorted permutation of its input. */
  lemma SortCharacterised(s: seq<Pair>, r: seq<Pair>)
    ensures (Sorted(r) && multiset(r) == multiset(s)) <==> r == Sort(s)
  {
    SortSorted(s);
    if Sorted(r) && multiset(r) == multiset(s) {
      SortedUnique(r, Sort(s));
    }
  }
}

=== FILE: real_seq.dfy ===
/** Sums, minima and maxima of sequences of reals (numpy's `sum`, `min`, `max`
    on one-dimensional arrays, with exact arithmetic). */
module RealSeq {

  function Sum(a: seq<real>): real
  {
    if |a| == 0 then 0.0 else a[0] + Sum(a[1..])
  }

  lemma {:induction false} SumConcat(a: seq<real>, b: seq<real>)
    ensures Sum(a + b) == Sum(a) + Sum(b)
  {
    if |a| == 0 {
      assert a + b == b;
    } else {
      assert (a + b)[1..] == a[1..] + b;
      SumConcat(a[1..], b);
    }
  }

  /** The sum of `a[..j]` extends by one element at a time. */
  lemma SumPrefixStep(a: seq<real>, j: nat)
    requires j < |a|
    ensures Sum(a[..j + 1]) == Sum(a[..j]) + a[j]
  {
    assert a[..j + 1] == a[..j] + [a[j]];
    SumConcat(a[..j], [a[j]]);
  }

  /** The least element. */
  function Min(a: seq<real>): real
    requires |a| > 0
  {
    if |a| == 1 then a[0]
    else
      var rest := Min(a[1..]);
      if a[0] <= rest then a[0] else rest
  }

  /** The greatest element. */
  function Max(a: seq<real>): real
    requires |a| > 0
  {
    if |a| == 1 then a[0]
    else
      var rest := Max(a[1..]);
      if a[0] >= rest then a[0] else rest
  }

  /** `Min` is an element, and no element is smaller. */
  lemma {:induction false} MinIsLeast(a: seq<real>)
    requires |a| > 0
    ensures exists i :: 0 <= i < |a| && a[i] == Min(a)
    ensures forall i :: 0 <= i < |a| ==> Min(a) <= a[i]
  {
    if |a| > 1 {
      MinIsLeast(a[1..]);
      var j :| 0 <= j < |a[1..]| && a[1..][j] == Min(a[1..]);
      assert a[j + 1] == a[1..][j];
      if a[0] <= Min(a[1..]) {
        assert a[0] == Min(a);
      } else {
        assert a[j + 1] == Min(a);
      }
      forall i | 1 <= i < |a| ensures Min(a) <= a[i] {
        assert a[i] == a[1..][i - 1];
      }
    } else {
      assert a[0] == Min(a);
    }
  }

  /** `Max` is an element, and no element is greater. */
  lemma {:induction false} MaxIsGreatest(a: seq<real>)
    requires |a| > 0
    ensures exists i :: 0 <= i < |a| && a[i] == Max(a)
    ensures forall i :: 0 <= i < |a| ==> a[i] <= Max(a)
  {
    if |a| > 1 {
      MaxIsGreatest(a[1..]);
      var j :| 0 <= j < |a[1..]| && a[1..][j] == Max(a[1..]);
      assert a[j + 1] == a[1..][j];
      if a[0] >= Max(a[1..]) {
        assert a[0] == Max(a);
      } else {
        assert a[j + 1] == Max(a);
      }
      forall i | 1 <= i < |a| ensures a[i] <= Max(a) {
        assert a[i] == a[1..][i - 1];
      }
    } else {
      assert a[0] == Max(a);
    }
  }

  /** Every element moved by `c` (numpy's `a += c`). */
  function Shift(a: seq<real>, c: real): (r: seq<real>)
  {
    seq(|a|, i requires 0 <= i < |a| => a[i] + c)
  }

  lemma {:induction false} SumShift(a: seq<real>, c: real)
    ensures Sum(Shift(a, c)) == Sum(a) + (|a| as real) * c
  {
    if |a| > 0 {
      assert Shift(a, c)[1..] == Shift(a[1..], c);
      SumShift(a[1..], c);
    }
  }

  lemma {:induction false} MinShift(a: seq<real>, c: real)
    requires |a| > 0
    ensures Min(Shift(a, c)) == Min(a) + c
  {
    if |a| > 1 {
      assert Shift(a, c)[1..] == Shift(a[1..], c);
      MinShift(a[1..], c);
    }
  }

  lemma {:induction false} MaxShift(a: seq<real>, c: real)
    requires |a| > 0
    ensures Max(Shift(a, c)) == Max(a) + c
  {
    if |a| > 1 {
      assert Shift(a, c)[1..] == Shift(a[1..], c);
      MaxShift(a[1..], c);
    }
  }
}

=== FILE: schema.dfy ===
/** The loaded YAML document and the part of the `schema` library the input files
    use: a dictionary schema whose keys are plain strings, each required or
    `Optional`, each value checked by `float`, `And(float, n >= 0)`,
    `And(float, n > 0)` or `str`. Loading the text is left out: a document is what
    `yaml.load` returns. */
module Schema {

  /** A value `yaml.load` can return. `Float` is a Python `float`; an integer such as
      `2` loads as `Int` and is not a float. `Other` stands for every other kind of
      value (booleans, `None`, lists, ...). */
  datatype Value =
    | Float(x: real)
    | Int(i: int)
    | Str(s: string)
    | Mapping(entries: map<string, Value>)
    | Other

  /** The value checks the input schemas use. */
  datatype Check = NonNegativeFloat | PositiveFloat | AnyString

  /** One key of a dictionary schema: its name, whether it may be missing
      (`Optional(key)`), and the check of its value. */
  datatype Entry = Entry(key: string, optional: bool, check: Check)

  predicate Satisfies(v: Value, c: Check) {
    match c
    case NonNegativeFloat => v.Float? && v.x >= 0.0
    case PositiveFloat => v.Float? && v.x > 0.0
    case AnyString => v.Str?
  }

  /** The schema has an entry for `key`. */
  predicate Declares(schema: seq<Entry>, key: string) {
    exists i :: 0 <= i < |schema| && schema[i].key == key
  }

  /** Every entry, from the first on, is present unless optional, and passes its check
      when present. */
  predicate EntriesHold(schema: seq<Entry>, m: map<string, Value>)
    decreases |schema|
  {
    if |schema| == 0 then true
    else
      var e := schema[0];
      && (e.key in m || e.optional)
      && (e.key in m ==> Satisfies(m[e.key], e.check))
      && EntriesHold(schema[1..], m)
  }

  /** `Schema(dict).validate(doc)` does not raise: the document is a mapping, it has no
      key the schema does not declare, and every entry holds. */
  predicate Validates(schema: seq<Entry>, doc: Value) {
    && doc.Mapping?
    && (forall k :: k in doc.entries ==> Declares(schema, k))
    && EntriesHold(schema, doc.entries)
  }

  /** `EntriesHold`, one entry at a time. */
  lemma {:induction false} EntriesHoldAt(schema: seq<Entry>, m: map<string, Value>)
    ensures EntriesHold(schema, m) <==>
              forall i :: 0 <= i < |schema| ==>
                (schema[i].key in m || schema[i].optional)
                && (schema[i].key in m ==> Satisfies(m[schema[i].key], schema[i].check))
    decreases |schema|
  {
    if |schema| > 0 {
      EntriesHoldAt(schema[1..], m);
      assert forall i :: 1 <= i < |schema| ==> schema[i] == schema[1..][i - 1];
    }
  }
}

=== FILE: text.dfy ===
/** The few pieces of Python string handling the modelled code relies on:
    `str.split()` (on runs of whitespace), `str.strip()`, `str.split(sep)`,
    `' '.join(...)`, `sep.join(...)`, and `str(int)` / `int(str)` on decimal text.
    Whitespace is what Python's `str.isspace()` accepts, the set `split()`, `strip()`
    and the regular expression `\s` use. */
module Text {
  import opened Outcomes

  /** Tab to carriage return, the separators 0x1C-0x1F, space, next line, no-break
      space, and the Unicode space and line/paragraph separators. */
  predicate IsSpace(c: char) {
    var n := c as int;
    || 0x09 <= n <= 0x0D
    || 0x1C <= n <= 0x20
    || n == 0x85 || n == 0xA0 || n == 0x1680
    || 0x2000 <= n <= 0x200A
    || n == 0x2028 || n == 0x2029 || n == 0x202F || n == 0x205F || n == 0x3000
  }

  /** A non-empty run of non-whitespace characters: one item of `str.split()`. */
  predicate IsToken(s: string) {
    |s| > 0 && forall i :: 0 <= i < |s| ==> !IsSpace(s[i])
  }

  /** End of the token that starts at `i`: the first whitespace at or after `i`, or `|s|`. */
  function TokenEnd(s: string, i: nat): (k: nat)
    requires i <= |s|
    ensures i <= k <= |s|
    ensures forall j :: i <= j < k ==> !IsSpace(s[j])
    ensures k < |s| ==> IsSpace(s[k])
    decreases |s| - i
  {
    if i == |s| || IsSpace(s[i]) then i else TokenEnd(s, i + 1)
  }

  /** Python's `s.split()`: the maximal runs of non-whitespace, in order. */
  function Split(s: string): (r: seq<string>)
    ensures forall k :: 0 <= k < |r| ==> IsToken(r[k])
    decreases |s|
  {
    if |s| == 0 then []
    else if IsSpace(s[0]) then Split(s[1..])
    else
      var k := TokenEnd(s, 0);
      [s[..k]] + Split(s[k..])
  }

  /** Python's `' '.join(parts)`. */
  function JoinSpace(parts: seq<string>): string
  {
    if |parts| == 0 then ""
    else if |parts| == 1 then parts[0]
    else parts[0] + " " + JoinSpace(parts[1..])
  }

  /** Joining with spaces adds no newline. */
  lemma {:induction false} JoinSpaceNoNewline(parts: seq<string>)
    requires forall k :: 0 <= k < |parts| ==> '\n' !in parts[k]
    ensures '\n' !in JoinSpace(parts)
  {
    if |parts| > 1 {
      JoinSpaceNoNewline(parts[1..]);
    }
  }

  /** The items `split()` finds in each part, concatenated. */
  function SplitAll(parts: seq<string>): seq<string>
  {
    if |parts| == 0 then [] else Split(parts[0]) + SplitAll(parts[1..])
  }

  lemma {:induction false} TokenEndBeforeSpace(a: string, b: string, i: nat)
    requires i <= |a|
    ensures TokenEnd(a + " " + b, i) == TokenEnd(a, i)
    decreases |a| - i
  {
    var s := a + " " + b;
    if i == |a| {
      assert s[i] == ' ';
    } else {
      assert s[i] == a[i];
      if !IsSpace(a[i]) {
        TokenEndBeforeSpace(a, b, i + 1);
      }
    }
  }

  /** A single space separates the items of its two sides. */
  lemma {:induction false} SplitAroundSpace(a: string, b: string)
    ensures Split(a + " " + b) == Split(a) + Split(b)
    decreases |a|
  {
    var s := a + " " + b;
    if |a| == 0 {
      assert s == [' '] + b;
      assert s[1..] == b;
    } else if IsSpace(a[0]) {
      assert s[0] == a[0];
      assert s[1..] == a[1..] + " " + b;
      SplitAroundSpace(a[1..], b);
    } else {
      assert s[0] == a[0];
      TokenEndBeforeSpace(a, b, 0);
      var k := TokenEnd(a, 0);
      assert k >= 1;
      assert s[..k] == a[..k];
      assert s[k..] == a[k..] + " " + b;
      SplitAroundSpace(a[k..], b);
    }
  }

  lemma {:induction false} SplitOfToken(t: string)
    requires IsToken(t)
    ensures Split(t) == [t]
  {
    TokenEndOfToken(t, 0);
    assert t[..|t|] == t;
    assert t[|t|..] == [];
  }

  lemma {:induction false} TokenEndOfToken(t: string, i: nat)
    requires IsToken(t) && i <= |t|
    ensures TokenEnd(t, i) == |t|
    decreases |t| - i
  {
    if i < |t| {
      TokenEndOfToken(t, i + 1);
    }
  }

  lemma {:induction false} SplitJoinSpace(parts: seq<string>)
    ensures Split(JoinSpace(parts)) == SplitAll(parts)
  {
    if |parts| == 0 {
    } else if |parts| == 1 {
      assert SplitAll(parts[1..]) == [];
    } else {
      SplitAroundSpace(parts[0], JoinSpace(parts[1..]));
      SplitJoinSpace(parts[1..]);
    }
  }

  /** `' '.join` then `split()` gives the tokens back. */
  lemma {:induction false} SplitJoinTokens(parts: seq<string>)
    requires forall k :: 0 <= k < |parts| ==> IsToken(parts[k])
    ensures Split(JoinSpace(parts)) == parts
  {
    SplitJoinSpace(parts);
    SplitAllTokens(parts);
  }

  lemma {:induction false} SplitAllTokens(parts: seq<string>)
    requires forall k :: 0 <= k < |parts| ==> IsToken(parts[k])
    ensures SplitAll(parts) == parts
  {
    if |parts| > 0 {
      SplitOfToken(parts[0]);
      SplitAllTokens(parts[1..]);
    }
  }

  // ---------------------------------------------------------------------------
  // strip()

  function LStrip(s: string): (r: string)
    ensures |r| <= |s| && r == s[|s| - |r|..]
    ensures forall i :: 0 <= i < |s| - |r| ==> IsSpace(s[i])
    ensures |r| > 0 ==> !IsSpace(r[0])
  {
    if |s| > 0 && IsSpace(s[0]) then LStrip(s[1..]) else s
  }

  function RStrip(s: string): (r: string)
    ensures |r| <= |s| && r == s[..|r|]
    ensures forall i :: |r| <= i < |s| ==> IsSpace(s[i])
    ensures |r| > 0 ==> !IsSpace(r[|r| - 1])
  {
    if |s| > 0 && IsSpace(s[|s| - 1]) then RStrip(s[..|s| - 1]) else s
  }

  /** Python's `s.strip()`: `s` without its leading and trailing whitespace. */
  function Strip(s: string): (r: string)
    ensures exists i, j :: 0 <= i <= j <= |s| && r == s[i..j]
                           && (forall k :: 0 <= k < i ==> IsSpace(s[k]))
                           && (forall k :: j <= k < |s| ==> IsSpace(s[k]))
    ensures |r| > 0 ==> !IsSpace(r[0]) && !IsSpace(r[|r| - 1])
  {
    var l := LStrip(s);
    var r := RStrip(l);
    StripWitness(s, l, r);
    r
  }

  lemma StripWitness(s: string, l: string, r: string)
    requires |l| <= |s| && l == s[|s| - |l|..]
    requires forall k :: 0 <= k < |s| - |l| ==> IsSpace(s[k])
    requires |l| > 0 ==> !IsSpace(l[0])
    requires |r| <= |l| && r == l[..|r|]
    requires forall k :: |r| <= k < |l| ==> IsSpace(l[k])
    requires |r| > 0 ==> !IsSpace(r[|r| - 1])
    ensures exists i, j :: 0 <= i <= j <= |s| && r == s[i..j]
                           && (forall k :: 0 <= k < i ==> IsSpace(s[k]))
                           && (forall k :: j <= k < |s| ==> IsSpace(s[k]))
    ensures |r| > 0 ==> !IsSpace(r[0]) && !IsSpace(r[|r| - 1])
  {
    var i := |s| - |l|;
    var j := i + |r|;
    assert s[i..j] == l[..|r|];
    forall k | j <= k < |s| ensures IsSpace(s[k]) {
      assert s[k] == l[k - i];
    }
    if |r| > 0 {
      assert r[0] == l[0];
    }
  }

  /** A string that neither starts nor ends with whitespace is its own strip. */
  lemma StripIdentity(s: string)
    requires |s| > 0 ==> !IsSpace(s[0]) && !IsSpace(s[|s| - 1])
    ensures Strip(s) == s
  {
  }

  // ---------------------------------------------------------------------------
  // split(sep) and sep.join

  /** Python's `sep.join(parts)` for a one-character separator. */
  function JoinOn(parts: seq<string>, sep: char): string
    requires |parts| >= 1
  {
    if |parts| == 1 then parts[0] else parts[0] + [sep] + JoinOn(parts[1..], sep)
  }

  /** Python's `s.split(sep)`: the pieces between separators, empty pieces kept. */
  function SplitOn(s: string, sep: char): (r: seq<string>)
    ensures |r| >= 1
    ensures forall k :: 0 <= k < |r| ==> sep !in r[k]
    ensures JoinOn(r, sep) == s
    decreases |s|
  {
    if |s| == 0 then [""]
    else
      var rest := SplitOn(s[1..], sep);
      if s[0] == sep then
        assert JoinOn([""] + rest, sep) == [sep] + JoinOn(rest, sep) by {
          assert ([""] + rest)[1..] == rest;
        }
        assert s == [sep] + s[1..];
        [""] + rest
      else
        var r := [[s[0]] + rest[0]] + rest[1..];
        assert JoinOn(r, sep) == [s[0]] + JoinOn(rest, sep) by {
          assert r[1..] == rest[1..];
          if |rest| > 1 {
            assert JoinOn(rest, sep) == rest[0] + [sep] + JoinOn(rest[1..], sep);
          }
        }
        assert s == [s[0]] + s[1..];
        r
  }

  lemma {:induction false} SplitOnNoSep(a: string, sep: char)
    requires sep !in a
    ensures SplitOn(a, sep) == [a]
    decreases |a|
  {
    if |a| > 0 {
      assert a[0] in a;
      assert forall c :: c in a[1..] ==> c in a;
      SplitOnNoSep(a[1..], sep);
      assert [a[0]] + a[1..] == a;
    }
  }

  lemma {:induction false} SplitOnFirstSep(a: string, b: string, sep: char)
    requires sep !in a
    ensures SplitOn(a + [sep] + b, sep) == [a] + SplitOn(b, sep)
    decreases |a|
  {
    var s := a + [sep] + b;
    if |a| == 0 {
      assert s[0] == sep;
      assert s[1..] == b;
    } else {
      assert s[0] == a[0];
      assert a[0] in a;
      assert forall c :: c in a[1..] ==> c in a;
      assert s[1..] == a[1..] + [sep] + b;
      SplitOnFirstSep(a[1..], b, sep);
      assert [a[0]] + a[1..] == a;
    }
  }

  /** `sep.join` then `split(sep)` gives the parts back when no part holds `sep`. */
  lemma {:induction false} SplitOnJoinOn(parts: seq<string>, sep: char)
    requires |parts| >= 1
    requires forall k :: 0 <= k < |parts| ==> sep !in parts[k]
    ensures SplitOn(JoinOn(parts, sep), sep) == parts
  {
    if |parts| == 1 {
      SplitOnNoSep(parts[0], sep);
    } else {
      SplitOnJoinOn(parts[1..], sep);
      SplitOnFirstSep(parts[0], JoinOn(parts[1..], sep), sep);
    }
  }

  /** Joining two non-empty lists puts one separator between their joins. */
  lemma {:induction false} JoinOnAppend(a: seq<string>, b: seq<string>, sep: char)
    requires |a| >= 1 && |b| >= 1
    ensures JoinOn(a + b, sep) == JoinOn(a, sep) + [sep] + JoinOn(b, sep)
  {
    if |a| > 1 {
      JoinOnAppend(a[1..], b, sep);
      assert (a + b)[1..] == a[1..] + b;
    } else {
      assert (a + b)[1..] == b;
    }
  }

  // ---------------------------------------------------------------------------
  // str(int) and int(str)

  predicate IsDigit(c: char) {
    '0' <= c <= '9'
  }

  predicate AllDigits(s: string) {
    |s| > 0 && forall i :: 0 <= i < |s| ==> IsDigit(s[i])
  }

  function DigitChar(d: nat): (c: char)
    requires d < 10
    ensures IsDigit(c)
  {
    ('0' as int + d) as char
  }

  /** The decimal digits of `n`, most significant first, without leading zeros. */
  function NatToString(n: nat): (s: string)
    ensures AllDigits(s)
  {
    if n < 10 then [DigitChar(n)] else NatToString(n / 10) + [DigitChar(n % 10)]
  }

  /** Python's `str(i)` for an int. */
  function IntToString(i: int): string
  {
    if i < 0 then "-" + NatToString(-i) else NatToString(i)
  }

  /** The value of a string of decimal digits. */
  function DigitsValue(s: string): nat
    requires forall i :: 0 <= i < |s| ==> IsDigit(s[i])
  {
    if |s| == 0 then 0
    else
      assert IsDigit(s[|s| - 1]);
      DigitsValue(s[..|s| - 1]) * 10 + (s[|s| - 1] as int - '0' as int)
  }

  /** Python's `int(token)` on a whitespace-free token: an optional sign then decimal
      digits; anything else raises `ValueError` (here `None`). */
  function ParseInt(s: string): Option<int>
  {
    if |s| > 0 && (s[0] == '-' || s[0] == '+') then
      if AllDigits(s[1..]) then
        var v: int := DigitsValue(s[1..]);
        Some(if s[0] == '-' then -v else v)
      else None
    else if AllDigits(s) then Some(DigitsValue(s))
    else None
  }

  lemma {:induction false} DigitsOfNat(n: nat)
    ensures DigitsValue(NatToString(n)) == n
  {
    var s := NatToString(n);
    if n >= 10 {
      DigitsOfNat(n / 10);
      assert s[..|s| - 1] == NatToString(n / 10);
    }
  }

  /** `str(i)` is a single token that `int()` reads back as `i`. */
  lemma IntToStringRoundTrip(i: int)
    ensures IsToken(IntToString(i))
    ensures ParseInt(IntToString(i)) == Some(i)
  {
    if i < 0 {
      NegativeRoundTrip(i);
    } else {
      DigitsOfNat(i);
    }
  }

  lemma NegativeRoundTrip(i: int)
    requires i < 0
    ensures IsToken(IntToString(i))
    ensures ParseInt(IntToString(i)) == Some(i)
  {
    var d := NatToString(-i);
    var s := IntToString(i);
    assert s == "-" + d;
    assert s[1..] == d;
    forall k | 0 <= k < |s| ensures !IsSpace(s[k]) {
      if k > 0 {
        assert s[k] == d[k - 1];
      }
    }
    DigitsOfNat(-i);
    assert ParseInt(s) == Some(-(DigitsValue(d) as int));
  }
}

=== FILE: vacuum.dfy ===
/** The vacuum-plateau search of `ECResults._extract_data`: on the periodic planar
    average of the charge density, start at the (first) minimum, walk up and down
    while the profile stays within 1e-3 of that minimum, and take the truncated
    midpoint of the two walks, folded back into the cell, as the vacuum center.
    The reference potential is then read at that center. */
module Vacuum {
  import opened Outcomes
  import RealSeq

  /** The plateau tolerance, `1e-3` (taken as the exact decimal). */
  const Threshold: real := 0.001

  function Abs(x: real): real {
    if x < 0.0 then -x else x
  }

  /** Python's `int(x / n)` for integers: division truncated toward zero. */
  function TruncDiv(x: int, n: int): int
    requires n > 0
  {
    if x >= 0 then x / n else -((-x) / n)
  }

  /** The element `a[k]` denotes under Python's negative indexing, for `-n <= k < n`. */
  function PyIndex(k: int, n: int): (i: int)
    requires -n <= k < n
    ensures 0 <= i < n
  {
    if k < 0 then k + n else k
  }

  /** An index at most one period away from the cell, brought back into `[0, n)`. */
  function Wrap(k: int, n: int): (i: int)
    requires -n <= k < 2 * n
    ensures 0 <= i < n
  {
    if k < 0 then k + n else if k >= n then k - n else k
  }

  /** Within one period above the cell, the index expression of line 79 wraps `k`. */
  lemma TruncDivWrap(k: int, n: int)
    requires 0 <= k < 2 * n
    ensures k - TruncDiv(k, n) * n == Wrap(k, n)
  {
    if k < n {
      assert k / n == 0;
    } else {
      assert (k - n) / n == 0;
      assert k / n == 1;
    }
  }

  /** For any non-negative `k`, the index expression of line 79 is the remainder. */
  lemma TruncDivRemainder(k: int, n: int)
    requires n > 0 && k >= 0
    ensures k - TruncDiv(k, n) * n == k % n
  {
    assert TruncDiv(k, n) == k / n;
    assert (k / n) * n + k % n == k;
  }

  /** `numpy.argmin`: the first index holding the least value. */
  function ArgMin(a: seq<real>): (m: nat)
    requires |a| > 0
    ensures m < |a|
    ensures forall j :: 0 <= j < |a| ==> a[m] <= a[j]
    ensures forall j :: 0 <= j < m ==> a[m] < a[j]
  {
    if |a| == 1 then 0
    else
      var k := ArgMin(a[..|a| - 1]);
      if a[|a| - 1] < a[k] then |a| - 1 else k
  }

  /** Which planes of `a` lie within the tolerance of the value `v`. */
  function Mask(a: seq<real>, v: real): (b: seq<bool>)
    ensures |b| == |a|
    ensures forall j :: 0 <= j < |a| ==> (b[j] <==> Abs(a[j] - v) < Threshold)
  {
    seq(|a|, j requires 0 <= j < |a| => Abs(a[j] - v) < Threshold)
  }

  /** The mask at an unwrapped index `k` within one period of the cell. */
  predicate Inside(b: seq<bool>, k: int)
    requires -|b| <= k < 2 * |b|
  {
    b[Wrap(k, |b|)]
  }

  /** Every plane of the profile is within the tolerance of its minimum. */
  predicate Flat(a: seq<real>)
    requires |a| > 0
  {
    forall j :: 0 <= j < |a| ==> Abs(a[j] - a[ArgMin(a)]) < Threshold
  }

  /** The first `k' >= k` (below `m + |b|`) whose wrapped index is outside the mask,
      or `m + |b|` when there is none. */
  function ScanUp(b: seq<bool>, m: nat, k: int): (r: int)
    requires m < |b| && m <= k <= m + |b|
    ensures k <= r <= m + |b|
    ensures forall j :: k <= j < r ==> Inside(b, j)
    ensures r < m + |b| ==> !Inside(b, r)
    decreases m + |b| - k
  {
    if k == m + |b| then k
    else if !Inside(b, k) then k
    else ScanUp(b, m, k + 1)
  }

  /** The first `k' <= k` (above `m - |b|`) whose wrapped index is outside the mask,
      or `m - |b|` when there is none. */
  function ScanDown(b: seq<bool>, m: nat, k: int): (r: int)
    requires m < |b| && m - |b| <= k <= m
    ensures m - |b| <= r <= k
    ensures forall j :: r < j <= k ==> Inside(b, j)
    ensures r > m - |b| ==> !Inside(b, r)
    decreases k - (m - |b|)
  {
    if k == m - |b| then k
    else if !Inside(b, k) then k
    else ScanDown(b, m, k - 1)
  }

  /** The bounds of the plateau (first indices that leave it, unwrapped) and its center. */
  datatype Plateau = Plateau(lo: int, center: int, hi: int)

  /** `p` is the plateau of the mask `b` around plane `m`: both bounds are the first
      indices (going up and going down from `m`, with wraparound) outside the mask,
      every index strictly between them is inside, and the center is the midpoint
      truncated toward zero, shifted by at most one period into `[0, |b|)`. */
  predicate IsPlateauIn(b: seq<bool>, m: nat, p: Plateau)
    requires m < |b|
  {
    var n := |b|;
    && m + 1 <= p.hi <= m + n - 1
    && m - n + 1 <= p.lo <= m - 1
    && (forall k :: p.lo < k < p.hi ==> Inside(b, k))
    && !Inside(b, p.hi)
    && !Inside(b, p.lo)
    && 0 <= p.center < n
    && var t := TruncDiv(p.lo + p.hi, 2);
       (p.center == t || p.center == t + n || p.center == t - n)
  }

  /** `p` is the vacuum plateau of the profile `a`: the plateau, around the first
      minimum, of the planes within the tolerance of that minimum. */
  predicate IsPlateauOf(a: seq<real>, p: Plateau)
    requires |a| > 0
  {
    IsPlateauIn(Mask(a, a[ArgMin(a)]), ArgMin(a), p)
  }

  /** Folds the truncated midpoint into the cell by one period, as lines 86-90 do. */
  function Fold(c: int, n: int): int
  {
    if c < 0 then c + n else if c >= n then c - n else c
  }

  lemma {:induction false} CenterInCell(n: nat, m: nat, lo: int, hi: int)
    requires m < n
    requires m + 1 <= hi <= m + n - 1
    requires m - n + 1 <= lo <= m - 1
    ensures 0 <= Fold(TruncDiv(lo + hi, 2), n) < n
  {
    var s := lo + hi;
    assert s + n >= 2 && s + 2 <= 3 * n;
    if s >= 0 {
      var q := s / 2;
      assert q + q <= s;
    } else {
      var q := (-s) / 2;
      assert q + q <= -s;
    }
  }

  /** The plateau search on a mask, from a plane `m` inside it: `None` exactly when
      every plane is inside. */
  function SearchIn(b: seq<bool>, m: nat): (r: Option<Plateau>)
    requires m < |b| && b[m]
    ensures r.None? <==> forall j :: 0 <= j < |b| ==> b[j]
    ensures r.Some? ==> IsPlateauIn(b, m, r.value)
  {
    var hi := ScanUp(b, m, m);
    if hi == m + |b| then
      NoExitMeansFull(b, m);
      None
    else
      var lo := ScanDown(b, m, m);
      ExitGivesPlateau(b, m);
      Some(Plateau(lo, Fold(TruncDiv(lo + hi, 2), |b|), hi))
  }

  /** The functional reference for the search of lines 63-90: `None` exactly when the
      profile is flat (the source then never leaves its first loop). */
  function Search(a: seq<real>): (r: Option<Plateau>)
    requires |a| > 0
    ensures r.None? <==> Flat(a)
    ensures r.Some? ==> IsPlateauOf(a, r.value)
  {
    var m := ArgMin(a);
    var b := Mask(a, a[m]);
    assert b[m];
    SearchIn(b, m)
  }

  lemma NoExitMeansFull(b: seq<bool>, m: nat)
    requires m < |b| && ScanUp(b, m, m) == m + |b|
    ensures forall j :: 0 <= j < |b| ==> b[j]
  {
    forall j | 0 <= j < |b| ensures b[j] {
      var r := if j >= m then j else j + |b|;
      assert Inside(b, r);
    }
  }

  lemma ExitGivesPlateau(b: seq<bool>, m: nat)
    requires m < |b| && b[m]
    requires ScanUp(b, m, m) < m + |b|
    ensures !b[Wrap(ScanUp(b, m, m), |b|)]
    ensures var hi := ScanUp(b, m, m);
            var lo := ScanDown(b, m, m);
            IsPlateauIn(b, m, Plateau(lo, Fold(TruncDiv(lo + hi, 2), |b|), hi))
  {
    var hi := ScanUp(b, m, m);
    var lo := ScanDown(b, m, m);
    ScanBounds(b, m);
    assert !Inside(b, hi) && !Inside(b, lo);
    assert forall k :: lo < k < hi ==> Inside(b, k);
    PlateauFromBounds(b, m, lo, hi);
  }

  /** The bounds and the interior determine a plateau, whatever produced them. */
  lemma PlateauFromBounds(b: seq<bool>, m: nat, lo: int, hi: int)
    requires m < |b|
    requires m + 1 <= hi <= m + |b| - 1 && m - |b| + 1 <= lo <= m - 1
    requires forall k :: lo < k < hi ==> Inside(b, k)
    requires !Inside(b, hi) && !Inside(b, lo)
    ensures IsPlateauIn(b, m, Plateau(lo, Fold(TruncDiv(lo + hi, 2), |b|), hi))
  {
    CenterInCell(|b|, m, lo, hi);
  }

  /** Once some plane is outside the mask, both scans stop strictly within one period
      of `m`. */
  lemma ScanBounds(b: seq<bool>, m: nat)
    requires m < |b| && b[m]
    requires ScanUp(b, m, m) < m + |b|
    ensures m + 1 <= ScanUp(b, m, m) && m - |b| < ScanDown(b, m, m) <= m - 1
  {
    var n := |b|;
    assert Inside(b, m);
    var w := Wrap(ScanUp(b, m, m), n);
    var r := if w <= m then w else w - n;
    assert !Inside(b, r);
  }

  /** Lines 63-90 as written: two while loops and the folded midpoint. The loops end
      because some plane leaves the plateau; the downward loop never indexes below
      `-|a|`, so no `IndexError` is raised. */
  method FindVacuum(a: seq<real>) returns (lo: int, center: int, hi: int)
    requires |a| > 0
    requires !Flat(a)
    ensures Search(a) == Some(Plateau(lo, center, hi))
    ensures IsPlateauOf(a, Plateau(lo, center, hi))
  {
    var n := |a|;
    var m := ArgMin(a);
    ghost var b := Mask(a, a[m]);
    ghost var w :| 0 <= w < n && !b[w];
    ghost var up := if w >= m then w else w + n;
    ghost var down := if w <= m then w else w - n;
    assert !Inside(b, up) && !Inside(b, down);
    hi := WalkUp(a, m, up);
    lo := WalkDown(a, m, down);
    center := TruncDiv(lo + hi, 2);
    if center < 0 {
      center := center + n;
    } else if center >= n {
      center := center - n;
    }
    assert center == Fold(TruncDiv(lo + hi, 2), n);
    SearchFromBounds(b, m, lo, hi);
    assert Search(a) == SearchIn(b, m);
  }

  /** The loop of lines 77-81: step up from `m` while the plane at
      `hi - int(hi / n) * n` is within the tolerance of `a[m]`. */
  method WalkUp(a: seq<real>, m: nat, ghost up: int) returns (hi: int)
    requires m < |a| && m <= up < m + |a| && !Inside(Mask(a, a[m]), up)
    ensures m <= hi <= up
    ensures forall k :: m <= k < hi ==> Inside(Mask(a, a[m]), k)
    ensures !Inside(Mask(a, a[m]), hi)
  {
    var n := |a|;
    var v := a[m];
    ghost var b := Mask(a, v);
    hi := m;
    TruncDivWrap(hi, n);
    while Abs(a[hi - TruncDiv(hi, n) * n] - v) < Threshold
      invariant m <= hi <= up
      invariant hi - TruncDiv(hi, n) * n == Wrap(hi, n)
      invariant forall k :: m <= k < hi ==> Inside(b, k)
      decreases up - hi
    {
      hi := hi + 1;
      TruncDivWrap(hi, n);
    }
  }

  /** The loop of lines 83-84: step down from `m` while the plane at `lo` (a negative
      `lo` counting from the end) is within the tolerance of `a[m]`. */
  method WalkDown(a: seq<real>, m: nat, ghost down: int) returns (lo: int)
    requires m < |a| && m - |a| < down <= m && !Inside(Mask(a, a[m]), down)
    ensures down <= lo <= m
    ensures forall k :: lo < k <= m ==> Inside(Mask(a, a[m]), k)
    ensures !Inside(Mask(a, a[m]), lo)
  {
    var n := |a|;
    var v := a[m];
    ghost var b := Mask(a, v);
    lo := m;
    while Abs(a[PyIndex(lo, n)] - v) < Threshold
      invariant down <= lo <= m
      invariant forall k :: lo < k <= m ==> Inside(b, k)
      decreases lo - down
    {
      lo := lo - 1;
    }
  }

  /** Bounds found by the two loops are the ones the functional search finds. */
  lemma SearchFromBounds(b: seq<bool>, m: nat, lo: int, hi: int)
    requires m < |b| && b[m]
    requires m < hi < m + |b|
    requires forall k :: m <= k < hi ==> Inside(b, k)
    requires !Inside(b, hi)
    requires m - |b| < lo < m
    requires forall k :: lo < k <= m ==> Inside(b, k)
    requires !Inside(b, lo)
    ensures SearchIn(b, m) == Some(Plateau(lo, Fold(TruncDiv(lo + hi, 2), |b|), hi))
  {
    ScanUpFrom(b, m, m, hi);
    ScanDownFrom(b, m, m, lo);
  }

  /** `ScanUp` returns the first index at or after `k` outside the mask. */
  lemma {:induction false} ScanUpFrom(b: seq<bool>, m: nat, k: int, h: int)
    requires m < |b| && m <= k <= h < m + |b|
    requires forall j :: k <= j < h ==> Inside(b, j)
    requires !Inside(b, h)
    ensures ScanUp(b, m, k) == h
    decreases h - k
  {
    if k < h {
      ScanUpFrom(b, m, k + 1, h);
    }
  }

  /** `ScanDown` returns the first index at or before `k` outside the mask. */
  lemma {:induction false} ScanDownFrom(b: seq<bool>, m: nat, k: int, l: int)
    requires m < |b| && m - |b| < l <= k <= m
    requires forall j :: l < j <= k ==> Inside(b, j)
    requires !Inside(b, l)
    ensures ScanDown(b, m, k) == l
    decreases k - l
  {
    if l < k {
      ScanDownFrom(b, m, k - 1, l);
    }
  }

  /** On a flat profile the upward loop's condition holds at every index it can
      reach, so the source loops forever there. */
  lemma FlatNeverLeaves(a: seq<real>, k: int)
    requires |a| > 0 && Flat(a)
    requires k >= ArgMin(a)
    ensures var i := k - TruncDiv(k, |a|) * |a|;
            0 <= i < |a| && Abs(a[i] - a[ArgMin(a)]) < Threshold
  {
    var n := |a|;
    FoldInCell(k, n);
    var i := k - TruncDiv(k, n) * n;
    assert Abs(a[i] - a[ArgMin(a)]) < Threshold;
  }

  /** The index expression of line 79 stays in the cell for any `k >= 0`. */
  lemma FoldInCell(k: int, n: int)
    requires n > 0 && k >= 0
    ensures 0 <= k - TruncDiv(k, n) * n < n
  {
    TruncDivRemainder(k, n);
  }

  datatype PotentialError = CenterOutOfRange

  /** Lines 102-107: the vacuum potential is the potential profile at the center, and
      the average potential is its sum divided by the number of planes `nZ` of the
      charge-density grid; a center past the end of the potential profile raises
      `IndexError`. */
  function ReferencePotentials(pot: seq<real>, center: nat, nZ: nat): (r: Result<(real, real), PotentialError>)
    requires nZ > 0
    ensures r.Ok? <==> center < |pot|
    ensures r.Ok? ==> r.value.0 == pot[center] && r.value.1 == RealSeq.Sum(pot) / (nZ as real)
  {
    if center < |pot| then Ok((pot[center], RealSeq.Sum(pot) / nZ as real))
    else Err(CenterOutOfRange)
  }

  /** Both references move with a constant offset of the potential (when the potential
      grid has the `nZ` planes of the charge grid), so their difference does not
      depend on the potential's zero. */
  lemma ReferencesShift(pot: seq<real>, center: nat, c: real)
    requires center < |pot|
    ensures var r := ReferencePotentials(pot, center, |pot|);
            var s := ReferencePotentials(RealSeq.Shift(pot, c), center, |pot|);
            s.Ok? && s.value.0 == r.value.0 + c && s.value.1 == r.value.1 + c
  {
    var n := |pot| as real;
    RealSeq.SumShift(pot, c);
    assert (RealSeq.Sum(pot) + n * c) / n == RealSeq.Sum(pot) / n + c;
  }
}

=== FILE: vasp_geometry.dfy ===
/** The slab geometry of `vasp_geometry.Geometry`: the POSCAR header and position
    lines, the ion labels, the direct-to-cartesian map as the source writes it, and the
    slab measurements and the change of the interslab gap.

    A POSCAR file is modelled as its sequence of lines (reading past the end gives the
    empty line, as `readline` does). Real numbers are written with a formatter `fmt` and
    read with a parser `parse`, both parameters; the round trip is stated up to what
    `parse` gives back for what `fmt` wrote. */
module VaspGeometry {
  import opened Outcomes
  import opened Text
  import RealSeq

  datatype Vec3 = Vec3(x: real, y: real, z: real)

  /** The three selective-dynamics flags of one ion. */
  datatype Flags3 = Flags3(x: bool, y: bool, z: bool)

  /** The lattice vectors `a`, `b`, `c`, stored as rows (`lattice_vectors[0..2]`). */
  datatype Mat3 = Mat3(a: Vec3, b: Vec3, c: Vec3)

  datatype Geometry = Geometry(
    title: string,
    lattice: Mat3,
    ionTypes: seq<string>,
    ionNumbers: seq<int>,
    positions: seq<Vec3>,
    isDirect: bool,
    selective: Option<seq<Flags3>>)

  // ---------------------------------------------------------------------------
  // Ion labels and the number of ions (lines 25-32)

  /** `[t] * k`: `k` copies of `t`, none when `k` is not positive. */
  function Repeat(t: string, k: int): (r: seq<string>)
    ensures |r| == if k > 0 then k else 0
    ensures forall i :: 0 <= i < |r| ==> r[i] == t
    decreases if k > 0 then k else 0
  {
    if k <= 0 then [] else [t] + Repeat(t, k - 1)
  }

  /** `self.ions`: each type label repeated by its count, in order; `zip` stops at the
      shorter of the two lists. */
  function Ions(types: seq<string>, numbers: seq<int>): seq<string>
  {
    if |types| == 0 || |numbers| == 0 then []
    else Repeat(types[0], numbers[0]) + Ions(types[1..], numbers[1..])
  }

  function SumInts(s: seq<int>): int
  {
    if |s| == 0 then 0 else s[0] + SumInts(s[1..])
  }

  lemma {:induction false} SumIntsAppend(s: seq<int>, k: int)
    ensures SumInts(s + [k]) == SumInts(s) + k
  {
    if |s| == 0 {
      assert [k][1..] == [];
    } else {
      assert (s + [k])[1..] == s[1..] + [k];
      SumIntsAppend(s[1..], k);
    }
  }

  /** `len(g)`: the sum of the ion counts. */
  function Len(g: Geometry): int
  {
    SumInts(g.ionNumbers)
  }

  /** One more type adds its block of labels after the others. */
  lemma {:induction false} IonsAppend(types: seq<string>, numbers: seq<int>, t: string, k: int)
    requires |types| == |numbers|
    ensures Ions(types + [t], numbers + [k]) == Ions(types, numbers) + Repeat(t, k)
  {
    if |types| == 0 {
      assert Ions([t], [k]) == Repeat(t, k) + Ions([], []);
    } else {
      assert (types + [t])[1..] == types[1..] + [t];
      assert (numbers + [k])[1..] == numbers[1..] + [k];
      IonsAppend(types[1..], numbers[1..], t, k);
    }
  }

  /** With one non-negative count per type there is one label per ion: `len(g)`
      labels. */
  lemma {:induction false} IonsLength(types: seq<string>, numbers: seq<int>)
    requires |types| == |numbers|
    requires forall i :: 0 <= i < |numbers| ==> numbers[i] >= 0
    ensures |Ions(types, numbers)| == SumInts(numbers)
  {
    if |types| > 0 {
      IonsLength(types[1..], numbers[1..]);
    }
  }

  /** Every ion label is one of the types. */
  lemma {:induction false} IonsAreTypes(types: seq<string>, numbers: seq<int>)
    ensures forall k :: 0 <= k < |Ions(types, numbers)| ==> Ions(types, numbers)[k] in types
  {
    if |types| > 0 && |numbers| > 0 {
      IonsAreTypes(types[1..], numbers[1..]);
      var head := Repeat(types[0], numbers[0]);
      var ions := Ions(types, numbers);
      forall k | 0 <= k < |ions| ensures ions[k] in types {
        if k < |head| {
          assert ions[k] == types[0];
        } else {
          assert ions[k] == Ions(types[1..], numbers[1..])[k - |head|];
          assert forall t :: t in types[1..] ==> t in types;
        }
      }
    }
  }

  // ---------------------------------------------------------------------------
  // Writing (lines 34-54)

  function Fmt3(v: Vec3, fmt: real -> string): seq<string>
  {
    [fmt(v.x), fmt(v.y), fmt(v.z)]
  }

  function FlagToken(b: bool): string
  {
    if b then "T" else "F"
  }

  function FlagTokens(f: Flags3): seq<string>
  {
    [FlagToken(f.x), FlagToken(f.y), FlagToken(f.z)]
  }

  function ModeLine(isDirect: bool): string
  {
    if isDirect then "Direct" else "Carthesian"
  }

  /** One position line: the three coordinates, the flags when there are any, then
      the ion label, separated by single spaces. */
  function PositionLine(p: Vec3, flags: Option<Flags3>, name: string, fmt: real -> string): string
  {
    JoinSpace(Fmt3(p, fmt) + (if flags.Some? then FlagTokens(flags.value) else []) + [name])
  }

  function IntStrings(s: seq<int>): (r: seq<string>)
    ensures |r| == |s|
    ensures forall i :: 0 <= i < |s| ==> r[i] == IntToString(s[i])
  {
    seq(|s|, i requires 0 <= i < |s| => IntToString(s[i]))
  }

  /** The geometries `str(g)` writes without raising: a non-negative `len(g)`, and a
      position, a label and (with selective dynamics) flags for each of the first
      `len(g)` ions. */
  predicate Printable(g: Geometry)
  {
    && Len(g) >= 0
    && |g.positions| >= Len(g)
    && |Ions(g.ionTypes, g.ionNumbers)| >= Len(g)
    && (g.selective.Some? ==> |g.selective.value| >= Len(g))
  }

  function HeaderLines(g: Geometry, fmt: real -> string): seq<string>
  {
    [g.title, "1.0",
     JoinSpace(Fmt3(g.lattice.a, fmt)),
     JoinSpace(Fmt3(g.lattice.b, fmt)),
     JoinSpace(Fmt3(g.lattice.c, fmt)),
     JoinSpace(g.ionTypes),
     JoinSpace(IntStrings(g.ionNumbers))]
    + (if g.selective.Some? then ["Selective dynamics"] else [])
    + [ModeLine(g.isDirect)]
  }

  /** `str(g)`, as its lines: title, scale `1.0`, the three lattice vectors, the types,
      the counts, `Selective dynamics` when there are flags, the mode, then one line
      per ion. */
  function ToLines(g: Geometry, fmt: real -> string): (r: seq<string>)
    requires Printable(g)
    ensures |r| == |HeaderLines(g, fmt)| + Len(g)
  {
    var ions := Ions(g.ionTypes, g.ionNumbers);
    HeaderLines(g, fmt)
    + seq(Len(g), i requires 0 <= i < Len(g) =>
            PositionLine(g.positions[i],
                         if g.selective.Some? then Some(g.selective.value[i]) else None,
                         ions[i], fmt))
  }

  /** `str(g)` as text: every line followed by a newline. */
  function ToText(g: Geometry, fmt: real -> string): string
    requires Printable(g)
  {
    JoinOn(ToLines(g, fmt) + [""], '\n')
  }

  // ---------------------------------------------------------------------------
  // Reading (lines 56-100)

  /** Every parse failure of `from_poscar` that raises `ValueError` (a token that is not
      a number, rows of unequal length) is `InvalidValue`; an empty mode line raises
      `IndexError`. */
  datatype PoscarError = InvalidValue | EmptyModeLine

  /** The index of the first position line: after the seven header lines, the
      `Selective dynamics` line when there is one, and the mode line. */
  function FirstPosition(sel: bool): nat
  {
    if sel then 9 else 8
  }

  /** `readline()` at line `i`: the empty string past the end. */
  function Line(lines: seq<string>, i: nat): string
  {
    if i < |lines| then lines[i] else ""
  }

  /** `[float(x) for x in tokens]`. */
  function ParseReals(tokens: seq<string>, parse: string -> Option<real>): (r: Option<seq<real>>)
    ensures r.Some? <==> forall i :: 0 <= i < |tokens| ==> parse(tokens[i]).Some?
    ensures r.Some? ==> |r.value| == |tokens|
                        && forall i :: 0 <= i < |tokens| ==> parse(tokens[i]) == Some(r.value[i])
  {
    if |tokens| == 0 then Some([])
    else
      match parse(tokens[0])
      case None => None
      case Some(x) =>
        var rest := ParseReals(tokens[1..], parse);
        assert forall i :: 1 <= i < |tokens| ==> tokens[i] == tokens[1..][i - 1];
        if rest.None? then None else Some([x] + rest.value)
  }

  /** Three tokens the parser reads as `x`, `y` and `z` read as `[x, y, z]`. */
  lemma ThreeReals(tokens: seq<string>, parse: string -> Option<real>, x: real, y: real, z: real)
    requires |tokens| == 3
    requires parse(tokens[0]) == Some(x) && parse(tokens[1]) == Some(y) && parse(tokens[2]) == Some(z)
    ensures ParseReals(tokens, parse) == Some([x, y, z])
  {
    var r := ParseReals(tokens, parse);
    assert r.Some?;
    assert r.value == [x, y, z];
  }

  /** `[int(x) for x in tokens]`. */
  function ParseInts(tokens: seq<string>): (r: Option<seq<int>>)
    ensures r.Some? <==> forall i :: 0 <= i < |tokens| ==> ParseInt(tokens[i]).Some?
    ensures r.Some? ==> |r.value| == |tokens|
                        && forall i :: 0 <= i < |tokens| ==> ParseInt(tokens[i]) == Some(r.value[i])
  {
    if |tokens| == 0 then Some([])
    else
      match ParseInt(tokens[0])
      case None => None
      case Some(x) =>
        var rest := ParseInts(tokens[1..]);
        assert forall i :: 1 <= i < |tokens| ==> tokens[i] == tokens[1..][i - 1];
        if rest.None? then None else Some([x] + rest.value)
  }

  /** A lattice line: exactly three numbers. */
  function ParseLatticeRow(line: string, parse: string -> Option<real>): (r: Result<Vec3, PoscarError>)
    ensures r.Ok? <==> |Split(line)| == 3 && ParseReals(Split(line), parse).Some?
    ensures r.Ok? ==> ParseReals(Split(line), parse) == Some([r.value.x, r.value.y, r.value.z])
  {
    var tokens := Split(line);
    match ParseReals(tokens, parse)
    case None => Err(InvalidValue)
    case Some(xs) =>
      if |xs| == 3 then assert xs == [xs[0], xs[1], xs[2]]; Ok(Vec3(xs[0], xs[1], xs[2]))
      else Err(InvalidValue)
  }

  function Scale(s: real, v: Vec3): Vec3
  {
    Vec3(s * v.x, s * v.y, s * v.z)
  }

  /** The first character of `s` lower-cased is `c` (`c` a lower-case ASCII letter). */
  predicate StartsWithLetter(s: string, c: char)
    requires 'a' <= c <= 'z'
  {
    |s| > 0 && (s[0] == c || s[0] as int == c as int - 32)
  }

  /** One position line: coordinates from its first three tokens, and with selective
      dynamics three flags from the next three, each true iff the token is `T`. */
  function ParsePositionRow(line: string, sel: bool, parse: string -> Option<real>)
    : (r: Result<(Vec3, Flags3), PoscarError>)
    ensures r.Ok? ==> |Split(line)| >= (if sel then 6 else 3)
    ensures r.Ok? ==> parse(Split(line)[0]) == Some(r.value.0.x)
    ensures r.Ok? && !sel ==> r.value.1 == Flags3(false, false, false)
  {
    var t := Split(line);
    if |t| < 3 then Err(InvalidValue)
    else
      match ParseReals(t[..3], parse)
      case None => Err(InvalidValue)
      case Some(xs) =>
        assert t[..3][0] == t[0] && t[..3][1] == t[1] && t[..3][2] == t[2];
        var p := Vec3(xs[0], xs[1], xs[2]);
        if !sel then Ok((p, Flags3(false, false, false)))
        else if |t| < 6 then Err(InvalidValue)
        else Ok((p, Flags3(t[3] == "T", t[4] == "T", t[5] == "T")))
  }

  /** A position line is read iff it has three leading numbers (and three more tokens
      with selective dynamics); the coordinates are those numbers, the flags say which
      of the next three tokens are `T`, and without selective dynamics all flags are
      clear. */
  lemma PositionRowMeaning(line: string, sel: bool, parse: string -> Option<real>)
    ensures var r := ParsePositionRow(line, sel, parse);
            var t := Split(line);
            && (r.Ok? <==> |t| >= (if sel then 6 else 3)
                           && parse(t[0]).Some? && parse(t[1]).Some? && parse(t[2]).Some?)
            && (r.Ok? ==> && parse(t[0]) == Some(r.value.0.x)
                          && parse(t[1]) == Some(r.value.0.y)
                          && parse(t[2]) == Some(r.value.0.z)
                          && r.value.1 == (if sel then Flags3(t[3] == "T", t[4] == "T", t[5] == "T")
                                           else Flags3(false, false, false)))
  {
    var t := Split(line);
    if |t| >= 3 {
      assert t[..3] == [t[0], t[1], t[2]];
    }
  }

  /** The reader of one position line that `from_poscar` applies. */
  function RowReader(sel: bool, parse: string -> Option<real>): string -> Result<(Vec3, Flags3), PoscarError>
  {
    line => ParsePositionRow(line, sel, parse)
  }

  /** `count` consecutive lines from `start`, each read by `row`; the first line that
      does not read is the error. */
  function ParseRows(lines: seq<string>, start: nat, count: nat, row: string -> Result<(Vec3, Flags3), PoscarError>)
    : (r: Result<(seq<Vec3>, seq<Flags3>), PoscarError>)
    ensures r.Ok? ==> |r.value.0| == count && |r.value.1| == count
    decreases count
  {
    if count == 0 then Ok(([], []))
    else
      var first :- row(Line(lines, start));
      var rest :- ParseRows(lines, start + 1, count - 1, row);
      Ok(([first.0] + rest.0, [first.1] + rest.1))
  }

  /** Row `j` of what `ParseRows` returns is what `row` reads from line `start + j`. */
  lemma {:induction false} ParseRowsAt(lines: seq<string>, start: nat, count: nat,
                                       row: string -> Result<(Vec3, Flags3), PoscarError>, j: nat)
    requires ParseRows(lines, start, count, row).Ok? && j < count
    ensures var r := ParseRows(lines, start, count, row).value;
            row(Line(lines, start + j)) == Ok((r.0[j], r.1[j]))
    decreases count
  {
    var r := ParseRows(lines, start, count, row).value;
    var rest := ParseRows(lines, start + 1, count - 1, row);
    assert rest.Ok? && r.0 == [row(Line(lines, start)).value.0] + rest.value.0
                    && r.1 == [row(Line(lines, start)).value.1] + rest.value.1;
    if j > 0 {
      ParseRowsAt(lines, start + 1, count - 1, row, j - 1);
      assert start + 1 + (j - 1) == start + j;
    }
  }

  /** The rows read iff every one of the `count` lines from `start` reads. */
  lemma {:induction false} ParseRowsReads(lines: seq<string>, start: nat, count: nat,
                                          row: string -> Result<(Vec3, Flags3), PoscarError>)
    ensures ParseRows(lines, start, count, row).Ok?
            <==> forall i :: start <= i < start + count ==> row(Line(lines, i)).Ok?
    decreases count
  {
    if count > 0 {
      ParseRowsReads(lines, start + 1, count - 1, row);
    }
  }

  /** The scale line and the three lattice lines: the lattice vectors times the scale. */
  function ParseCell(lines: seq<string>, parse: string -> Option<real>): (r: Result<Mat3, PoscarError>)
    ensures r.Ok? <==> parse(Strip(Line(lines, 1))).Some?
                       && ParseLatticeRow(Line(lines, 2), parse).Ok?
                       && ParseLatticeRow(Line(lines, 3), parse).Ok?
                       && ParseLatticeRow(Line(lines, 4), parse).Ok?
    ensures r.Ok? ==> var s := parse(Strip(Line(lines, 1))).value;
                      r.value == Mat3(Scale(s, ParseLatticeRow(Line(lines, 2), parse).value),
                                      Scale(s, ParseLatticeRow(Line(lines, 3), parse).value),
                                      Scale(s, ParseLatticeRow(Line(lines, 4), parse).value))
  {
    var scale :- (match parse(Strip(Line(lines, 1)))
                  case None => Err(InvalidValue)
                  case Some(s) => Ok(s));
    var a :- ParseLatticeRow(Line(lines, 2), parse);
    var b :- ParseLatticeRow(Line(lines, 3), parse);
    var c :- ParseLatticeRow(Line(lines, 4), parse);
    Ok(Mat3(Scale(scale, a), Scale(scale, b), Scale(scale, c)))
  }

  /** `line` holds exactly three numbers and `v` is them times `s`. */
  predicate ScaledRow(line: string, parse: string -> Option<real>, s: real, v: Vec3)
  {
    var t := Split(line);
    && |t| == 3
    && parse(t[0]).Some? && parse(t[1]).Some? && parse(t[2]).Some?
    && v == Vec3(s * parse(t[0]).value, s * parse(t[1]).value, s * parse(t[2]).value)
  }

  /** A lattice line that reads, times `s`, is a scaled row of that line. */
  lemma LatticeRowScaled(line: string, parse: string -> Option<real>, s: real)
    requires ParseLatticeRow(line, parse).Ok?
    ensures ScaledRow(line, parse, s, Scale(s, ParseLatticeRow(line, parse).value))
  {
    var v := ParseLatticeRow(line, parse).value;
    var xs := ParseReals(Split(line), parse).value;
    assert xs == [v.x, v.y, v.z];
    assert xs[0] == v.x && xs[1] == v.y && xs[2] == v.z;
  }

  /** `lattice_vectors = scaling * numpy.array(rows)`: each lattice vector is the
      scale read from line 1 times the three numbers of its own line, rows in file
      order. */
  lemma CellIsScaled(lines: seq<string>, parse: string -> Option<real>)
    requires ParseCell(lines, parse).Ok?
    ensures var m := ParseCell(lines, parse).value;
            var s := parse(Strip(Line(lines, 1))).value;
            && ScaledRow(Line(lines, 2), parse, s, m.a)
            && ScaledRow(Line(lines, 3), parse, s, m.b)
            && ScaledRow(Line(lines, 4), parse, s, m.c)
  {
    var s := parse(Strip(Line(lines, 1))).value;
    LatticeRowScaled(Line(lines, 2), parse, s);
    LatticeRowScaled(Line(lines, 3), parse, s);
    LatticeRowScaled(Line(lines, 4), parse, s);
  }

  /** The line after the counts and, with selective dynamics, the one after it:
      `(selective, direct)`. Only the first character of each stripped line counts. */
  function ParseMode(lines: seq<string>): (r: Result<(bool, bool), PoscarError>)
    ensures r.Ok? ==> (r.value.0 <==> StartsWithLetter(Strip(Line(lines, 7)), 's'))
    ensures r.Ok? && r.value.0 ==> (r.value.1 <==> StartsWithLetter(Strip(Line(lines, 8)), 'd'))
    ensures r.Ok? && !r.value.0 ==> (r.value.1 <==> StartsWithLetter(Strip(Line(lines, 7)), 'd'))
    ensures r.Err? <==> |Strip(Line(lines, 7))| == 0
                        || (StartsWithLetter(Strip(Line(lines, 7)), 's') && |Strip(Line(lines, 8))| == 0)
  {
    var first := Strip(Line(lines, 7));
    if |first| == 0 then Err(EmptyModeLine)
    else
      var sel := StartsWithLetter(first, 's');
      var second := Strip(Line(lines, 8));
      if sel && |second| == 0 then Err(EmptyModeLine)
      else Ok((sel, if sel then StartsWithLetter(second, 'd') else StartsWithLetter(first, 'd')))
  }

  /** Everything `from_poscar` reads before the position lines. */
  datatype Header = Header(title: string, lattice: Mat3, ionTypes: seq<string>, ionNumbers: seq<int>,
                           sel: bool, isDirect: bool)

  function ParseHeader(lines: seq<string>, parse: string -> Option<real>): (r: Result<Header, PoscarError>)
    ensures r.Ok? ==> r.value.title == Strip(Line(lines, 0))
    ensures r.Ok? ==> ParseCell(lines, parse) == Ok(r.value.lattice)
    ensures r.Ok? ==> r.value.ionTypes == Split(Line(lines, 5))
    ensures r.Ok? ==> ParseInts(Split(Line(lines, 6))) == Some(r.value.ionNumbers)
    ensures r.Ok? ==> ParseMode(lines) == Ok((r.value.sel, r.value.isDirect))
    ensures r == Err(EmptyModeLine) ==> ParseInts(Split(Line(lines, 6))).Some?
  {
    var lattice :- ParseCell(lines, parse);
    var counts :- (match ParseInts(Split(Line(lines, 6)))
                   case None => Err(InvalidValue)
                   case Some(ns) => Ok(ns));
    var mode :- ParseMode(lines);
    Ok(Header(Strip(Line(lines, 0)), lattice, Split(Line(lines, 5)), counts, mode.0, mode.1))
  }

  /** `Geometry.from_poscar`: title stripped, the scale applied to the three lattice
      lines, the types and counts, selective dynamics iff the line after the counts
      starts with `s`/`S`, direct mode iff the mode line starts with `d`/`D`, then
      `sum(ion_numbers)` position lines (none when the sum is not positive). */
  function Parse(lines: seq<string>, parse: string -> Option<real>): (r: Result<Geometry, PoscarError>)
    ensures r.Ok? ==> r.value.title == Strip(Line(lines, 0))
    ensures r.Ok? ==> ParseCell(lines, parse) == Ok(r.value.lattice)
    ensures r.Ok? ==> r.value.ionTypes == Split(Line(lines, 5))
    ensures r.Ok? ==> ParseInts(Split(Line(lines, 6))) == Some(r.value.ionNumbers)
    ensures r.Ok? ==> var n := SumInts(r.value.ionNumbers);
                      |r.value.positions| == (if n > 0 then n else 0)
    ensures r.Ok? ==> (r.value.selective.Some? <==> StartsWithLetter(Strip(Line(lines, 7)), 's'))
    ensures r.Ok? && r.value.selective.Some? ==>
              |r.value.selective.value| == |r.value.positions|
              && (r.value.isDirect <==> StartsWithLetter(Strip(Line(lines, 8)), 'd'))
    ensures r.Ok? && r.value.selective.None? ==>
              (r.value.isDirect <==> StartsWithLetter(Strip(Line(lines, 7)), 'd'))
    ensures r.Ok? ==> var sel := r.value.selective.Some?;
                      var rows := ParseRows(lines, FirstPosition(sel), |r.value.positions|, RowReader(sel, parse));
                      && rows.Ok? && rows.value.0 == r.value.positions
                      && (sel ==> rows.value.1 == r.value.selective.value)
    ensures r == Err(EmptyModeLine) ==> ParseInts(Split(Line(lines, 6))).Some?
  {
    var hd :- ParseHeader(lines, parse);
    var n := SumInts(hd.ionNumbers);
    var rows :- ParseRows(lines, FirstPosition(hd.sel), if n > 0 then n else 0, RowReader(hd.sel, parse));
    Ok(Geometry(hd.title, hd.lattice, hd.ionTypes, hd.ionNumbers, rows.0, hd.isDirect,
                if hd.sel then Some(rows.1) else None))
  }

  /** Row `j` of rows read by `RowReader`: the meaning of its line's tokens. */
  lemma RowFromLine(lines: seq<string>, start: nat, count: nat, sel: bool, parse: string -> Option<real>,
                    j: nat, ps: seq<Vec3>, fs: seq<Flags3>)
    requires ParseRows(lines, start, count, RowReader(sel, parse)) == Ok((ps, fs)) && j < count
    ensures var t := Split(Line(lines, start + j));
            && |t| >= (if sel then 6 else 3)
            && parse(t[0]) == Some(ps[j].x) && parse(t[1]) == Some(ps[j].y) && parse(t[2]) == Some(ps[j].z)
            && fs[j] == (if sel then Flags3(t[3] == "T", t[4] == "T", t[5] == "T") else Flags3(false, false, false))
  {
    ParseRowsAt(lines, start, count, RowReader(sel, parse), j);
    assert ParsePositionRow(Line(lines, start + j), sel, parse) == Ok((ps[j], fs[j]));
    PositionRowMeaning(Line(lines, start + j), sel, parse);
  }

  /** Position `j` of a geometry `from_poscar` returns comes from position line `j`:
      its coordinates are the first three numbers there and, with selective dynamics,
      its flags say which of the next three tokens are `T`. */
  lemma PositionsFromLines(lines: seq<string>, parse: string -> Option<real>, j: nat)
    requires Parse(lines, parse).Ok?
    requires j < |Parse(lines, parse).value.positions|
    ensures var g := Parse(lines, parse).value;
            var sel := g.selective.Some?;
            var t := Split(Line(lines, FirstPosition(sel) + j));
            && |t| >= (if sel then 6 else 3)
            && parse(t[0]) == Some(g.positions[j].x)
            && parse(t[1]) == Some(g.positions[j].y)
            && parse(t[2]) == Some(g.positions[j].z)
            && (sel ==> g.selective.value[j] == Flags3(t[3] == "T", t[4] == "T", t[5] == "T"))
  {
    var g := Parse(lines, parse).value;
    var sel := g.selective.Some?;
    var rows := ParseRows(lines, FirstPosition(sel), |g.positions|, RowReader(sel, parse));
    RowFromLine(lines, FirstPosition(sel), |g.positions|, sel, parse, j, rows.value.0, rows.value.1);
  }

  // ---------------------------------------------------------------------------
  // Writing then reading

  /** What the writer and the reader of reals must provide: every written number is a
      single token the reader accepts and holds no newline, and the reader reads the
      scale `1.0` exactly. */
  ghost predicate CodecOk(fmt: real -> string, parse: string -> Option<real>)
  {
    && (forall x :: |Split(fmt(x))| == 1 && parse(Split(fmt(x))[0]).Some?)
    && (forall x :: '\n' !in fmt(x))
    && parse("1.0") == Some(1.0)
  }

  /** The number read back from what `fmt` wrote for `x`. */
  function Reread(fmt: real -> string, parse: string -> Option<real>, x: real): real
    requires CodecOk(fmt, parse)
  {
    parse(Split(fmt(x))[0]).value
  }

  function RereadVec(fmt: real -> string, parse: string -> Option<real>, v: Vec3): Vec3
    requires CodecOk(fmt, parse)
  {
    Vec3(Reread(fmt, parse, v.x), Reread(fmt, parse, v.y), Reread(fmt, parse, v.z))
  }

  function RereadAll(fmt: real -> string, parse: string -> Option<real>, ps: seq<Vec3>): (r: seq<Vec3>)
    requires CodecOk(fmt, parse)
    ensures |r| == |ps|
  {
    seq(|ps|, i requires 0 <= i < |ps| => RereadVec(fmt, parse, ps[i]))
  }

  /** A geometry whose written form reads back as itself, up to the reals. */
  predicate Writable(g: Geometry)
  {
    && Printable(g)
    && |g.positions| == Len(g)
    && (g.selective.Some? ==> |g.selective.value| == Len(g))
    && Strip(g.title) == g.title
    && '\n' !in g.title
    && (forall i :: 0 <= i < |g.ionTypes| ==> IsToken(g.ionTypes[i]))
  }

  /** The flags `from_poscar` returns for the ions of `g`: its own with selective
      dynamics, otherwise all clear. */
  function FlagsOf(g: Geometry): (r: seq<Flags3>)
    requires Writable(g)
    ensures |r| == Len(g)
  {
    if g.selective.Some? then g.selective.value else seq(Len(g), i => Flags3(false, false, false))
  }

  /** The lattice with every number replaced by what reading its written form gives. */
  function RereadCell(fmt: real -> string, parse: string -> Option<real>, m: Mat3): Mat3
    requires CodecOk(fmt, parse)
  {
    Mat3(RereadVec(fmt, parse, m.a), RereadVec(fmt, parse, m.b), RereadVec(fmt, parse, m.c))
  }

  /** `g` with every real replaced by what reading its written form gives. */
  function ReadBack(g: Geometry, fmt: real -> string, parse: string -> Option<real>): Geometry
    requires CodecOk(fmt, parse)
  {
    g.(lattice := RereadCell(fmt, parse, g.lattice), positions := RereadAll(fmt, parse, g.positions))
  }

  /** Serialise then parse gives back the title, types, counts, mode, flags and
      positions, the reals up to the formatter. */
  lemma ParsePrinted(g: Geometry, fmt: real -> string, parse: string -> Option<real>)
    requires CodecOk(fmt, parse) && Writable(g)
    ensures Parse(ToLines(g, fmt), parse) == Ok(ReadBack(g, fmt, parse))
  {
    HeaderParses(g, fmt, parse);
    PositionsParse(g, fmt, parse);
    ParseFromParts(ToLines(g, fmt), g, fmt, parse);
  }

  /** `from_poscar` on the text of `str(g)`: reading it line by line gives back `g`,
      the reals up to the formatter. */
  lemma ParsePrintedText(g: Geometry, fmt: real -> string, parse: string -> Option<real>)
    requires CodecOk(fmt, parse) && Writable(g)
    ensures SplitOn(ToText(g, fmt), '\n') == ToLines(g, fmt) + [""]
    ensures Parse(SplitOn(ToText(g, fmt), '\n'), parse) == Ok(ReadBack(g, fmt, parse))
  {
    TextLines(g, fmt, parse);
    TrailingEmptyLine(ToLines(g, fmt), parse);
    ParsePrinted(g, fmt, parse);
  }

  /** Splitting `str(g)` on newlines gives its lines and the empty rest after the
      last newline. */
  lemma TextLines(g: Geometry, fmt: real -> string, parse: string -> Option<real>)
    requires CodecOk(fmt, parse) && Writable(g)
    ensures SplitOn(ToText(g, fmt), '\n') == ToLines(g, fmt) + [""]
  {
    PrintedLinesNoNewline(g, fmt);
    AppendEmptyNoNewline(ToLines(g, fmt));
    SplitOnJoinOn(ToLines(g, fmt) + [""], '\n');
  }

  /** An empty line after the end reads like the end of the file. */
  lemma TrailingEmptyLine(lines: seq<string>, parse: string -> Option<real>)
    ensures Parse(lines + [""], parse) == Parse(lines, parse)
  {
    forall i: nat ensures Line(lines + [""], i) == Line(lines, i) {
    }
    ParseSameLines(lines + [""], lines, parse);
  }

  /** No line of `str(g)` holds a newline. */
  lemma PrintedLinesNoNewline(g: Geometry, fmt: real -> string)
    requires (forall x :: '\n' !in fmt(x)) && Writable(g)
    ensures forall k :: 0 <= k < |ToLines(g, fmt)| ==> '\n' !in ToLines(g, fmt)[k]
  {
    forall k | 0 <= k < |ToLines(g, fmt)| ensures '\n' !in ToLines(g, fmt)[k] {
      PrintedLineNoNewline(g, fmt, k);
    }
  }

  /** An empty last line adds no newline. */
  lemma AppendEmptyNoNewline(lines: seq<string>)
    requires forall k :: 0 <= k < |lines| ==> '\n' !in lines[k]
    ensures forall k :: 0 <= k < |lines + [""]| ==> '\n' !in (lines + [""])[k]
  {
    forall k | 0 <= k < |lines + [""]| ensures '\n' !in (lines + [""])[k] {
      if k < |lines| {
        assert (lines + [""])[k] == lines[k];
      }
    }
  }

  lemma PrintedLineNoNewline(g: Geometry, fmt: real -> string, k: nat)
    requires (forall x :: '\n' !in fmt(x)) && Writable(g) && k < |ToLines(g, fmt)|
    ensures '\n' !in ToLines(g, fmt)[k]
  {
    var hd := HeaderLines(g, fmt);
    if k < |hd| {
      HeaderLineNoNewline(g, fmt, k);
    } else {
      var j := k - |hd|;
      var f := if g.selective.Some? then Some(g.selective.value[j]) else None;
      var name := Ions(g.ionTypes, g.ionNumbers)[j];
      ToLinesAt(g, fmt, j);
      assert |hd| == FirstPosition(g.selective.Some?);
      IonsAreTypes(g.ionTypes, g.ionNumbers);
      assert name in g.ionTypes;
      PositionLineNoNewline(g.positions[j], f, name, fmt);
    }
  }

  lemma HeaderLineNoNewline(g: Geometry, fmt: real -> string, k: nat)
    requires forall x :: '\n' !in fmt(x)
    requires '\n' !in g.title && forall i :: 0 <= i < |g.ionTypes| ==> IsToken(g.ionTypes[i])
    requires k < |HeaderLines(g, fmt)|
    ensures '\n' !in HeaderLines(g, fmt)[k]
  {
    LatticeLineNoNewline(g.lattice.a, fmt);
    LatticeLineNoNewline(g.lattice.b, fmt);
    LatticeLineNoNewline(g.lattice.c, fmt);
    TypesLineNoNewline(g.ionTypes);
    CountsLineNoNewline(g.ionNumbers);
  }

  lemma LatticeLineNoNewline(v: Vec3, fmt: real -> string)
    requires forall x :: '\n' !in fmt(x)
    ensures '\n' !in JoinSpace(Fmt3(v, fmt))
  {
    var parts := Fmt3(v, fmt);
    assert '\n' !in parts[0] && '\n' !in parts[1] && '\n' !in parts[2];
    JoinSpaceNoNewline(parts);
  }

  lemma TypesLineNoNewline(types: seq<string>)
    requires forall i :: 0 <= i < |types| ==> IsToken(types[i])
    ensures '\n' !in JoinSpace(types)
  {
    assert IsSpace('\n');
    JoinSpaceNoNewline(types);
  }

  lemma CountsLineNoNewline(ns: seq<int>)
    ensures '\n' !in JoinSpace(IntStrings(ns))
  {
    var ss := IntStrings(ns);
    assert IsSpace('\n');
    forall i | 0 <= i < |ss| ensures '\n' !in ss[i] {
      IntToStringRoundTrip(ns[i]);
    }
    JoinSpaceNoNewline(ss);
  }

  lemma PositionLineNoNewline(p: Vec3, flags: Option<Flags3>, name: string, fmt: real -> string)
    requires (forall x :: '\n' !in fmt(x)) && IsToken(name)
    ensures '\n' !in PositionLine(p, flags, name, fmt)
  {
    assert IsSpace('\n');
    var parts := Fmt3(p, fmt) + (if flags.Some? then FlagTokens(flags.value) else []) + [name];
    forall i | 0 <= i < |parts| ensures '\n' !in parts[i] {
    }
    JoinSpaceNoNewline(parts);
  }

  /** `from_poscar` sees a file only through `readline()`: two files whose lines agree
      read the same. */
  lemma ParseSameLines(a: seq<string>, b: seq<string>, parse: string -> Option<real>)
    requires forall i: nat :: Line(a, i) == Line(b, i)
    ensures Parse(a, parse) == Parse(b, parse)
  {
    HeaderSameLines(a, b, parse);
    var hd := ParseHeader(a, parse);
    if hd.Ok? {
      var n := SumInts(hd.value.ionNumbers);
      RowsSameLines(a, b, FirstPosition(hd.value.sel), if n > 0 then n else 0, RowReader(hd.value.sel, parse));
    }
    ParseSameParts(a, b, parse);
  }

  /** Files with the same header and the same position rows read the same. */
  lemma ParseSameParts(a: seq<string>, b: seq<string>, parse: string -> Option<real>)
    requires ParseHeader(a, parse) == ParseHeader(b, parse)
    requires var hd := ParseHeader(a, parse);
             hd.Ok? ==> var n := SumInts(hd.value.ionNumbers);
                        var count := if n > 0 then n else 0;
                        var row := RowReader(hd.value.sel, parse);
                        ParseRows(a, FirstPosition(hd.value.sel), count, row)
                        == ParseRows(b, FirstPosition(hd.value.sel), count, row)
    ensures Parse(a, parse) == Parse(b, parse)
  {
  }

  lemma HeaderSameLines(a: seq<string>, b: seq<string>, parse: string -> Option<real>)
    requires forall i: nat :: Line(a, i) == Line(b, i)
    ensures ParseHeader(a, parse) == ParseHeader(b, parse)
  {
    assert Line(a, 0) == Line(b, 0) && Line(a, 5) == Line(b, 5) && Line(a, 6) == Line(b, 6);
    CellSameLines(a, b, parse);
    ModeSameLines(a, b);
    HeaderSameParts(a, b, parse);
  }

  /** Files with the same title, cell, types, counts and mode lines have the same
      header. */
  lemma HeaderSameParts(a: seq<string>, b: seq<string>, parse: string -> Option<real>)
    requires Line(a, 0) == Line(b, 0) && Line(a, 5) == Line(b, 5) && Line(a, 6) == Line(b, 6)
    requires ParseCell(a, parse) == ParseCell(b, parse) && ParseMode(a) == ParseMode(b)
    ensures ParseHeader(a, parse) == ParseHeader(b, parse)
  {
  }

  lemma CellSameLines(a: seq<string>, b: seq<string>, parse: string -> Option<real>)
    requires forall i: nat :: Line(a, i) == Line(b, i)
    ensures ParseCell(a, parse) == ParseCell(b, parse)
  {
    assert Line(a, 1) == Line(b, 1) && Line(a, 2) == Line(b, 2);
    assert Line(a, 3) == Line(b, 3) && Line(a, 4) == Line(b, 4);
  }

  lemma ModeSameLines(a: seq<string>, b: seq<string>)
    requires forall i: nat :: Line(a, i) == Line(b, i)
    ensures ParseMode(a) == ParseMode(b)
  {
    assert Line(a, 7) == Line(b, 7) && Line(a, 8) == Line(b, 8);
  }

  lemma {:induction false} RowsSameLines(a: seq<string>, b: seq<string>, start: nat, count: nat,
                                         row: string -> Result<(Vec3, Flags3), PoscarError>)
    requires forall i: nat :: Line(a, i) == Line(b, i)
    ensures ParseRows(a, start, count, row) == ParseRows(b, start, count, row)
    decreases count
  {
    if count > 0 {
      RowsSameLines(a, b, start + 1, count - 1, row);
      assert Line(a, start) == Line(b, start);
    }
  }

  /** Lines whose header and position lines read back as those of `g` read back as
      `g`. */
  lemma ParseFromParts(lines: seq<string>, g: Geometry, fmt: real -> string, parse: string -> Option<real>)
    requires CodecOk(fmt, parse) && Writable(g)
    requires ParseHeader(lines, parse) == Ok(Header(
               g.title, RereadCell(fmt, parse, g.lattice), g.ionTypes, g.ionNumbers, g.selective.Some?, g.isDirect))
    requires ParseRows(lines, FirstPosition(g.selective.Some?), Len(g), RowReader(g.selective.Some?, parse))
             == Ok((RereadAll(fmt, parse, g.positions), FlagsOf(g)))
    ensures Parse(lines, parse) == Ok(ReadBack(g, fmt, parse))
  {
    assert g.selective.Some? ==> Some(FlagsOf(g)) == g.selective;
  }

  /** The header lines of `str(g)` read back as the header of `g`. */
  lemma HeaderParses(g: Geometry, fmt: real -> string, parse: string -> Option<real>)
    requires CodecOk(fmt, parse) && Writable(g)
    ensures ParseHeader(ToLines(g, fmt), parse) == Ok(Header(
              g.title, RereadCell(fmt, parse, g.lattice), g.ionTypes, g.ionNumbers, g.selective.Some?, g.isDirect))
  {
    var lines := ToLines(g, fmt);
    HeaderPrefix(g, fmt);
    CellParses(g, fmt, parse, lines);
    SplitJoinTokens(g.ionTypes);
    CountsParse(g.ionNumbers);
    ModeParses(g.selective.Some?, g.isDirect, lines);
    HeaderFromParts(lines, parse, RereadCell(fmt, parse, g.lattice), g.ionNumbers, g.selective.Some?, g.isDirect);
  }

  lemma HeaderFromParts(lines: seq<string>, parse: string -> Option<real>, m: Mat3, ns: seq<int>,
                        sel: bool, isDirect: bool)
    requires ParseCell(lines, parse) == Ok(m)
    requires ParseInts(Split(Line(lines, 6))) == Some(ns)
    requires ParseMode(lines) == Ok((sel, isDirect))
    ensures ParseHeader(lines, parse) == Ok(Header(Strip(Line(lines, 0)), m, Split(Line(lines, 5)), ns, sel, isDirect))
  {
  }

  /** The first lines of `str(g)`, one by one. */
  lemma HeaderPrefix(g: Geometry, fmt: real -> string)
    requires Printable(g)
    ensures var lines := ToLines(g, fmt);
            && Line(lines, 0) == g.title
            && Line(lines, 1) == "1.0"
            && Line(lines, 2) == JoinSpace(Fmt3(g.lattice.a, fmt))
            && Line(lines, 3) == JoinSpace(Fmt3(g.lattice.b, fmt))
            && Line(lines, 4) == JoinSpace(Fmt3(g.lattice.c, fmt))
            && Line(lines, 5) == JoinSpace(g.ionTypes)
            && Line(lines, 6) == JoinSpace(IntStrings(g.ionNumbers))
            && (g.selective.Some? ==> Line(lines, 7) == "Selective dynamics" && Line(lines, 8) == ModeLine(g.isDirect))
            && (g.selective.None? ==> Line(lines, 7) == ModeLine(g.isDirect))
  {
  }

  /** Scale `1.0` and three written lattice lines read back as the lattice, up to the
      reals. */
  lemma CellParses(g: Geometry, fmt: real -> string, parse: string -> Option<real>, lines: seq<string>)
    requires CodecOk(fmt, parse)
    requires Line(lines, 1) == "1.0"
    requires Line(lines, 2) == JoinSpace(Fmt3(g.lattice.a, fmt))
    requires Line(lines, 3) == JoinSpace(Fmt3(g.lattice.b, fmt))
    requires Line(lines, 4) == JoinSpace(Fmt3(g.lattice.c, fmt))
    ensures ParseCell(lines, parse) == Ok(RereadCell(fmt, parse, g.lattice))
  {
    StripIdentity("1.0");
    LatticeRowParses(g.lattice.a, fmt, parse);
    LatticeRowParses(g.lattice.b, fmt, parse);
    LatticeRowParses(g.lattice.c, fmt, parse);
    ScaleOne(RereadVec(fmt, parse, g.lattice.a));
    ScaleOne(RereadVec(fmt, parse, g.lattice.b));
    ScaleOne(RereadVec(fmt, parse, g.lattice.c));
  }

  lemma ScaleOne(v: Vec3)
    ensures Scale(1.0, v) == v
  {
  }

  /** The written mode lines read back as the mode. */
  lemma ModeParses(sel: bool, isDirect: bool, lines: seq<string>)
    requires sel ==> Line(lines, 7) == "Selective dynamics" && Line(lines, 8) == ModeLine(isDirect)
    requires !sel ==> Line(lines, 7) == ModeLine(isDirect)
    ensures ParseMode(lines) == Ok((sel, isDirect))
  {
    ModeLineLetters(isDirect);
    StripIdentity("Selective dynamics");
    assert StartsWithLetter("Selective dynamics", 's');
    if sel {
      assert Strip(Line(lines, 7)) == "Selective dynamics";
      assert Strip(Line(lines, 8)) == ModeLine(isDirect);
    } else {
      assert Strip(Line(lines, 7)) == ModeLine(isDirect);
    }
  }

  /** A written mode line is its own stripped form, does not start with `s`, and
      starts with `d` exactly in direct mode. */
  lemma ModeLineLetters(isDirect: bool)
    ensures Strip(ModeLine(isDirect)) == ModeLine(isDirect)
    ensures |ModeLine(isDirect)| > 0 && !StartsWithLetter(ModeLine(isDirect), 's')
    ensures StartsWithLetter(ModeLine(isDirect), 'd') <==> isDirect
  {
    StripIdentity(ModeLine(isDirect));
  }

  /** The position lines of `str(g)` read back as its positions and flags. */
  lemma PositionsParse(g: Geometry, fmt: real -> string, parse: string -> Option<real>)
    requires CodecOk(fmt, parse) && Writable(g)
    ensures ParseRows(ToLines(g, fmt), FirstPosition(g.selective.Some?), Len(g), RowReader(g.selective.Some?, parse))
            == Ok((RereadAll(fmt, parse, g.positions), FlagsOf(g)))
  {
    var lines, start, row := ToLines(g, fmt), FirstPosition(g.selective.Some?), RowReader(g.selective.Some?, parse);
    var ps, fs := RereadAll(fmt, parse, g.positions), FlagsOf(g);
    PrintedRowsEachParse(g, fmt, parse);
    RowsFromLines(lines, start, ps, fs, row);
  }

  /** Every position line of `str(g)` reads back as its position and flags. */
  lemma PrintedRowsEachParse(g: Geometry, fmt: real -> string, parse: string -> Option<real>)
    requires CodecOk(fmt, parse) && Writable(g)
    ensures RowsReadAs(ToLines(g, fmt), FirstPosition(g.selective.Some?), RereadAll(fmt, parse, g.positions),
                       FlagsOf(g), RowReader(g.selective.Some?, parse))
  {
    forall j | 0 <= j < Len(g)
      ensures RowReader(g.selective.Some?, parse)(Line(ToLines(g, fmt), FirstPosition(g.selective.Some?) + j))
              == Ok((RereadAll(fmt, parse, g.positions)[j], FlagsOf(g)[j]))
    {
      PrintedRowParses(g, fmt, parse, j);
    }
  }

  /** Line `start + j` reads, through `row`, as position `ps[j]` with flags `fs[j]`,
      for every `j`. */
  ghost predicate RowsReadAs(lines: seq<string>, start: nat, ps: seq<Vec3>, fs: seq<Flags3>,
                             row: string -> Result<(Vec3, Flags3), PoscarError>)
  {
    |ps| == |fs| && forall j :: 0 <= j < |ps| ==> row(Line(lines, start + j)) == Ok((ps[j], fs[j]))
  }

  /** Lines that each read back as the next position and flags read back as all of
      them. */
  lemma RowsFromLines(lines: seq<string>, start: nat, ps: seq<Vec3>, fs: seq<Flags3>,
                      row: string -> Result<(Vec3, Flags3), PoscarError>)
    requires RowsReadAs(lines, start, ps, fs, row)
    ensures ParseRows(lines, start, |ps|, row) == Ok((ps, fs))
  {
    RowsParse(lines, start, ps, fs, row, 0);
    assert ps[0..] == ps && fs[0..] == fs;
  }

  /** Position line `j` of `str(g)` reads back as position `j` and its flags. */
  lemma PrintedRowParses(g: Geometry, fmt: real -> string, parse: string -> Option<real>, j: nat)
    requires CodecOk(fmt, parse) && Writable(g) && j < Len(g)
    ensures RowReader(g.selective.Some?, parse)(Line(ToLines(g, fmt), FirstPosition(g.selective.Some?) + j))
            == Ok((RereadAll(fmt, parse, g.positions)[j], FlagsOf(g)[j]))
  {
    var f := if g.selective.Some? then Some(g.selective.value[j]) else None;
    var name := Ions(g.ionTypes, g.ionNumbers)[j];
    var line := Line(ToLines(g, fmt), FirstPosition(g.selective.Some?) + j);
    assert line == PositionLine(g.positions[j], f, name, fmt) by { ToLinesAt(g, fmt, j); }
    assert FlagsOf(g)[j] == f.GetOr(Flags3(false, false, false));
    assert RereadAll(fmt, parse, g.positions)[j] == RereadVec(fmt, parse, g.positions[j]);
    LineParses(line, g.positions[j], f, name, g.selective.Some?, fmt, parse,
               RereadAll(fmt, parse, g.positions)[j], FlagsOf(g)[j]);
  }

  /** A line that is a written position line reads back through the row reader as
      the re-read position and the flags. */
  lemma LineParses(line: string, p: Vec3, flags: Option<Flags3>, name: string, sel: bool,
                   fmt: real -> string, parse: string -> Option<real>, q: Vec3, fl: Flags3)
    requires CodecOk(fmt, parse) && line == PositionLine(p, flags, name, fmt) && sel == flags.Some?
    requires q == RereadVec(fmt, parse, p) && fl == flags.GetOr(Flags3(false, false, false))
    ensures RowReader(sel, parse)(line) == Ok((q, fl))
  {
    RowParses(p, flags, name, fmt, parse);
  }

  /** Lines that each read back as the next position and flags read back, from
      row `k` on, as the remaining positions and flags. */
  lemma {:induction false} RowsParse(lines: seq<string>, start: nat, ps: seq<Vec3>, fs: seq<Flags3>,
                                     row: string -> Result<(Vec3, Flags3), PoscarError>, k: nat)
    requires |ps| == |fs| && k <= |ps|
    requires forall j :: 0 <= j < |ps| ==> row(Line(lines, start + j)) == Ok((ps[j], fs[j]))
    ensures ParseRows(lines, start + k, |ps| - k, row) == Ok((ps[k..], fs[k..]))
    decreases |ps| - k
  {
    if k < |ps| {
      RowsParse(lines, start, ps, fs, row, k + 1);
      assert row(Line(lines, start + k)) == Ok((ps[k], fs[k]));
      RowsCons(lines, start + k, |ps| - k, row, ps[k], fs[k], ps[k + 1..], fs[k + 1..]);
      assert ps[k..] == [ps[k]] + ps[k + 1..];
      assert fs[k..] == [fs[k]] + fs[k + 1..];
    }
  }

  /** A line that reads, followed by rows that read, reads as that row then those. */
  lemma RowsCons(lines: seq<string>, start: nat, count: nat, row: string -> Result<(Vec3, Flags3), PoscarError>,
                 p: Vec3, f: Flags3, ps: seq<Vec3>, fs: seq<Flags3>)
    requires count > 0 && row(Line(lines, start)) == Ok((p, f))
    requires ParseRows(lines, start + 1, count - 1, row) == Ok((ps, fs))
    ensures ParseRows(lines, start, count, row) == Ok(([p] + ps, [f] + fs))
  {
  }

  /** Line `k` after the header is the position line of ion `k`. */
  lemma ToLinesAt(g: Geometry, fmt: real -> string, k: nat)
    requires Printable(g) && k < Len(g)
    ensures Line(ToLines(g, fmt), FirstPosition(g.selective.Some?) + k) ==
            PositionLine(g.positions[k], if g.selective.Some? then Some(g.selective.value[k]) else None,
                         Ions(g.ionTypes, g.ionNumbers)[k], fmt)
  {
    assert |HeaderLines(g, fmt)| == FirstPosition(g.selective.Some?);
  }

  /** The written coordinates of one vector read back as three tokens. */
  lemma CoordinatesSplit(v: Vec3, fmt: real -> string, parse: string -> Option<real>, rest: seq<string>)
    requires CodecOk(fmt, parse)
    ensures var t := Split(JoinSpace(Fmt3(v, fmt) + rest));
            |t| >= 3
            && parse(t[0]) == Some(Reread(fmt, parse, v.x))
            && parse(t[1]) == Some(Reread(fmt, parse, v.y))
            && parse(t[2]) == Some(Reread(fmt, parse, v.z))
            && t[3..] == SplitAll(rest)
  {
    var parts := Fmt3(v, fmt) + rest;
    SplitJoinSpace(parts);
    var sx, sy, sz := Split(fmt(v.x)), Split(fmt(v.y)), Split(fmt(v.z));
    assert |sx| == 1 && |sy| == 1 && |sz| == 1;
    assert parts[0] == fmt(v.x);
    assert parts[1..] == [fmt(v.y), fmt(v.z)] + rest;
    assert parts[1..][1..] == [fmt(v.z)] + rest;
    assert parts[1..][1..][1..] == rest;
    assert SplitAll(parts) == sx + SplitAll(parts[1..]);
    assert SplitAll(parts[1..]) == sy + SplitAll(parts[1..][1..]);
    assert SplitAll(parts[1..][1..]) == sz + SplitAll(rest);
    var t := Split(JoinSpace(parts));
    assert t == [sx[0], sy[0], sz[0]] + SplitAll(rest);
  }

  lemma LatticeRowParses(v: Vec3, fmt: real -> string, parse: string -> Option<real>)
    requires CodecOk(fmt, parse)
    ensures ParseLatticeRow(JoinSpace(Fmt3(v, fmt)), parse) == Ok(RereadVec(fmt, parse, v))
  {
    CoordinatesSplit(v, fmt, parse, []);
    assert Fmt3(v, fmt) + [] == Fmt3(v, fmt);
    var t := Split(JoinSpace(Fmt3(v, fmt)));
    assert SplitAll([]) == [];
    assert |t| == 3;
  }

  lemma CountsParse(ns: seq<int>)
    ensures ParseInts(Split(JoinSpace(IntStrings(ns)))) == Some(ns)
  {
    var ss := IntStrings(ns);
    forall i | 0 <= i < |ss| ensures IsToken(ss[i]) && ParseInt(ss[i]) == Some(ns[i]) {
      IntToStringRoundTrip(ns[i]);
    }
    SplitJoinTokens(ss);
    var r := ParseInts(ss);
    assert r.value == ns;
  }

  /** A position line reads back as its position and its flags. */
  lemma RowParses(p: Vec3, flags: Option<Flags3>, name: string,
                  fmt: real -> string, parse: string -> Option<real>)
    requires CodecOk(fmt, parse)
    ensures ParsePositionRow(PositionLine(p, flags, name, fmt), flags.Some?, parse) ==
              Ok((RereadVec(fmt, parse, p), flags.GetOr(Flags3(false, false, false))))
  {
    var ft := if flags.Some? then FlagTokens(flags.value) else [];
    var rest := ft + [name];
    var q := RereadVec(fmt, parse, p);
    var t := Split(PositionLine(p, flags, name, fmt));
    assert |t| >= 3 && t[3..] == SplitAll(rest)
           && parse(t[0]) == Some(q.x) && parse(t[1]) == Some(q.y) && parse(t[2]) == Some(q.z) by {
      assert Fmt3(p, fmt) + ft + [name] == Fmt3(p, fmt) + rest;
      CoordinatesSplit(p, fmt, parse, rest);
    }
    assert ParseReals(t[..3], parse) == Some([q.x, q.y, q.z]) by {
      assert t[..3][0] == t[0] && t[..3][1] == t[1] && t[..3][2] == t[2];
      ThreeReals(t[..3], parse, q.x, q.y, q.z);
    }
    if flags.Some? {
      var f := flags.value;
      assert |t| >= 6 && t[3] == FlagToken(f.x) && t[4] == FlagToken(f.y) && t[5] == FlagToken(f.z) by {
        FlagsSplit(f, name);
        assert t[3..][0] == t[3] && t[3..][1] == t[4] && t[3..][2] == t[5];
      }
    }
  }

  /** The flag tokens come back as three tokens, `T` exactly for the set flags. */
  lemma FlagsSplit(f: Flags3, name: string)
    ensures var s := SplitAll(FlagTokens(f) + [name]);
            |s| >= 3 && s[0] == FlagToken(f.x) && s[1] == FlagToken(f.y) && s[2] == FlagToken(f.z)
  {
    var ft := FlagTokens(f);
    var rest := ft + [name];
    SplitOfToken(ft[0]);
    SplitOfToken(ft[1]);
    SplitOfToken(ft[2]);
    assert rest[1..] == [ft[1], ft[2], name];
    assert rest[1..][1..] == [ft[2], name];
    assert SplitAll(rest) == [ft[0]] + SplitAll(rest[1..]);
    assert SplitAll(rest[1..]) == [ft[1]] + SplitAll(rest[1..][1..]);
    assert SplitAll(rest[1..][1..]) == [ft[2]] + SplitAll([name]);
  }

  // ---------------------------------------------------------------------------
  // Cartesian coordinates (lines 102-111)

  function RowSum(v: Vec3): real
  {
    v.x + v.y + v.z
  }

  /** `cartesian_coordinates()` as written: in direct mode `einsum('ij,jk->ij')`
      scales coordinate `j` of every position by the sum of lattice vector `j`; in
      cartesian mode the positions themselves. */
  function Cartesian(g: Geometry): (r: seq<Vec3>)
    ensures |r| == |g.positions|
    ensures !g.isDirect ==> r == g.positions
  {
    if g.isDirect then
      seq(|g.positions|, i requires 0 <= i < |g.positions| =>
            Vec3(g.positions[i].x * RowSum(g.lattice.a),
                 g.positions[i].y * RowSum(g.lattice.b),
                 g.positions[i].z * RowSum(g.lattice.c)))
    else g.positions
  }

  /** The direct-to-cartesian map of crystallography: the fractional coordinates as a
      row vector times the lattice matrix. */
  function ToCartesian(p: Vec3, m: Mat3): Vec3
  {
    Vec3(p.x * m.a.x + p.y * m.b.x + p.z * m.c.x,
         p.x * m.a.y + p.y * m.b.y + p.z * m.c.y,
         p.x * m.a.z + p.y * m.b.z + p.z * m.c.z)
  }

  predicate Diagonal(m: Mat3)
  {
    m.a.y == 0.0 && m.a.z == 0.0 && m.b.x == 0.0 && m.b.z == 0.0 && m.c.x == 0.0 && m.c.y == 0.0
  }

  /** In direct mode, for every lattice, entry `(i, j)` of the result is
      `einsum('ij,jk->ij')`'s sum over `k` of `positions[i][j] * lattice[j][k]`. */
  lemma CartesianEinsum(g: Geometry, i: nat)
    requires g.isDirect && i < |g.positions|
    ensures var p, m, r := g.positions[i], g.lattice, Cartesian(g)[i];
            && r.x == p.x * m.a.x + p.x * m.a.y + p.x * m.a.z
            && r.y == p.y * m.b.x + p.y * m.b.y + p.y * m.b.z
            && r.z == p.z * m.c.x + p.z * m.c.y + p.z * m.c.z
  {
  }

  /** For a diagonal lattice the map as written is the crystallographic one. */
  lemma CartesianDiagonal(g: Geometry)
    requires g.isDirect && Diagonal(g.lattice)
    ensures forall i :: 0 <= i < |g.positions| ==>
              Cartesian(g)[i] == ToCartesian(g.positions[i], g.lattice)
  {
  }

  /** For the oblique cell of the geometry tests the map as written is not the
      crystallographic one: the fractional position (0.5, 0.25, 0) goes to
      (1.5, 1.125, 0) instead of (1.875, 0.75, 0). */
  lemma CartesianObliqueCell()
    ensures var g := Geometry("test",
                              Mat3(Vec3(3.0, 0.0, 0.0), Vec3(1.5, 3.0, 0.0), Vec3(0.25, 0.25, 5.0)),
                              ["C"], [1], [Vec3(0.5, 0.25, 0.0)], true, None);
            Cartesian(g)[0] == Vec3(1.5, 1.125, 0.0)
            && ToCartesian(g.positions[0], g.lattice) == Vec3(1.875, 0.75, 0.0)
  {
  }

  // ---------------------------------------------------------------------------
  // Slab measurements (lines 113-125)

  /** The cartesian z coordinate of every ion. */
  function ZCoords(g: Geometry): (z: seq<real>)
    ensures |z| == |g.positions|
  {
    var c := Cartesian(g);
    seq(|c|, i requires 0 <= i < |c| => c[i].z)
  }

  /** The z coordinate of ion `i`: scaled by the sum of the third lattice vector in
      direct mode. */
  lemma ZCoordsAt(g: Geometry, i: nat)
    requires i < |g.positions|
    ensures ZCoords(g)[i] == if g.isDirect then g.positions[i].z * RowSum(g.lattice.c)
                             else g.positions[i].z
  {
  }

  /** Highest minus lowest value. */
  function Span(z: seq<real>): (w: real)
    requires |z| > 0
  {
    RealSeq.Max(z) - RealSeq.Min(z)
  }

  /** `slab_thickness()`: the highest z minus the lowest; `None` for a geometry
      without positions, where `min()` raises `ValueError`. */
  function SlabThickness(g: Geometry): (r: Option<real>)
    ensures r.None? <==> |g.positions| == 0
  {
    if |g.positions| == 0 then None
    else Some(Span(ZCoords(g)))
  }

  /** The thickness is the largest difference between the z coordinates of two ions. */
  lemma SlabThicknessSpan(g: Geometry)
    requires |g.positions| > 0
    ensures var t := SlabThickness(g).value;
            var z := ZCoords(g);
            && t >= 0.0
            && (forall i, j :: 0 <= i < |z| && 0 <= j < |z| ==> z[i] - z[j] <= t)
            && (exists i, j :: 0 <= i < |z| && 0 <= j < |z| && z[i] - z[j] == t)
  {
    var z := ZCoords(g);
    RealSeq.MaxIsGreatest(z);
    RealSeq.MinIsLeast(z);
    var i :| 0 <= i < |z| && z[i] == RealSeq.Max(z);
    var j :| 0 <= j < |z| && z[j] == RealSeq.Min(z);
    assert z[i] - z[j] == SlabThickness(g).value;
  }

  /** `interslab_distance()`: the lowest z, minus the highest, plus the z component of
      the third lattice vector. */
  function InterslabDistance(g: Geometry): (r: Option<real>)
    ensures r.None? <==> |g.positions| == 0
  {
    if |g.positions| == 0 then None
    else Some(g.lattice.c.z - Span(ZCoords(g)))
  }

  /** Slab and gap fill the cell along z. */
  lemma ThicknessPlusInterslab(g: Geometry)
    requires |g.positions| > 0
    ensures SlabThickness(g).value + InterslabDistance(g).value == g.lattice.c.z
  {
  }

  // ---------------------------------------------------------------------------
  // Changing the interslab distance (lines 127-164)

  /** `NoAtoms`: `min()` of an empty array raises `ValueError`. `ZeroCell`: in direct
      mode a new cell height of zero makes numpy divide by zero, which yields
      non-finite coordinates rather than an exception. */
  datatype ResizeError = NoAtoms | ZeroCell

  /** The positions with their z coordinates replaced. */
  function WithZ(ps: seq<Vec3>, z: seq<real>): (r: seq<Vec3>)
    requires |z| == |ps|
    ensures |r| == |ps|
  {
    seq(|ps|, i requires 0 <= i < |ps| => Vec3(ps[i].x, ps[i].y, z[i]))
  }

  /** Every element divided by `n`. */
  function DivideAll(a: seq<real>, n: real): (r: seq<real>)
    requires n != 0.0
    ensures |r| == |a|
  {
    seq(|a|, i requires 0 <= i < |a| => a[i] / n)
  }

  /** Height of the new cell (`slab_size + d` in the source): the span of `z`, plus `d`. */
  function CellHeight(z: seq<real>, d: real): (h: real)
    requires |z| > 0
    ensures h == RealSeq.Max(z) - RealSeq.Min(z) + d
  {
    RealSeq.MaxShift(z, -RealSeq.Min(z));
    RealSeq.Max(RealSeq.Shift(z, -RealSeq.Min(z))) + d
  }

  /** The z coordinates moved so the lowest is at zero, then up by `d/2` (both moves
      made as one shift by `d/2 - min`). */
  function Resettled(z: seq<real>, d: real): (r: seq<real>)
    requires |z| > 0
    ensures |r| == |z|
  {
    RealSeq.Shift(z, d / 2.0 - RealSeq.Min(z))
  }

  /** After resettling, the lowest coordinate is `d/2` and the span is unchanged. */
  lemma ResettledBounds(z: seq<real>, d: real)
    requires |z| > 0
    ensures RealSeq.Min(Resettled(z, d)) == d / 2.0
    ensures RealSeq.Max(Resettled(z, d)) == RealSeq.Max(z) - RealSeq.Min(z) + d / 2.0
  {
    var c := d / 2.0 - RealSeq.Min(z);
    RealSeq.MinShift(z, c);
    RealSeq.MaxShift(z, c);
  }

  /** Every resettled coordinate keeps its distance to the others. */
  lemma ResettledAt(z: seq<real>, d: real, i: nat)
    requires i < |z|
    ensures Resettled(z, d)[i] == z[i] - RealSeq.Min(z) + d / 2.0
  {
  }

  /** `change_interslab_distance(d)`: move the slab so its lowest ion is at `d/2`, set
      the third lattice vector to `(0, 0, thickness + d)`, and store the new z
      coordinates (divided by the new cell height in direct mode). */
  function ChangeInterslab(g: Geometry, d: real): (r: Result<Geometry, ResizeError>)
    ensures r == Err(NoAtoms) <==> |g.positions| == 0
    ensures r == Err(ZeroCell) <==> |g.positions| > 0 && g.isDirect && SlabThickness(g).value + d == 0.0
  {
    var z := ZCoords(g);
    if |z| == 0 then Err(NoAtoms)
    else
      var norm := CellHeight(z, d);
      if g.isDirect && norm == 0.0 then Err(ZeroCell)
      else
        var z1 := Resettled(z, d);
        var ps := WithZ(g.positions, if g.isDirect then DivideAll(z1, norm) else z1);
        Ok(g.(lattice := g.lattice.(c := Vec3(0.0, 0.0, norm)), positions := ps))
  }

  /** Everything but the third lattice vector and the z coordinates is kept; the third
      lattice vector becomes `(0, 0, thickness + d)`. */
  lemma ChangeInterslabKeeps(g: Geometry, d: real)
    requires ChangeInterslab(g, d).Ok?
    ensures var h := ChangeInterslab(g, d).value;
            && h.title == g.title && h.ionTypes == g.ionTypes && h.ionNumbers == g.ionNumbers
            && h.isDirect == g.isDirect && h.selective == g.selective
            && h.lattice.a == g.lattice.a && h.lattice.b == g.lattice.b
            && h.lattice.c == Vec3(0.0, 0.0, SlabThickness(g).value + d)
            && |h.positions| == |g.positions|
            && forall i :: 0 <= i < |g.positions| ==>
                 h.positions[i].x == g.positions[i].x && h.positions[i].y == g.positions[i].y
  {
  }

  /** In direct mode, a z coordinate stored as `v / n` in a cell whose third vector is
      `(0, 0, n)` is `v` in cartesian coordinates. */
  lemma DirectZ(h: Geometry, i: nat, v: real, n: real)
    requires i < |h.positions| && h.isDirect && n != 0.0
    requires h.lattice.c == Vec3(0.0, 0.0, n) && h.positions[i].z == v / n
    ensures ZCoords(h)[i] == v
  {
    ZCoordsAt(h, i);
    assert RowSum(h.lattice.c) == n;
  }

  /** The new cartesian z coordinates are the old ones moved so that the lowest is at
      `d/2`. */
  lemma ChangeInterslabZ(g: Geometry, d: real)
    requires ChangeInterslab(g, d).Ok?
    ensures var z := ZCoords(g);
            var zh := ZCoords(ChangeInterslab(g, d).value);
            |zh| == |z| && forall i :: 0 <= i < |z| ==> zh[i] == z[i] - RealSeq.Min(z) + d / 2.0
  {
    var z := ZCoords(g);
    var h := ChangeInterslab(g, d).value;
    var zh := ZCoords(h);
    ChangeInterslabResettles(g, d);
    forall i | 0 <= i < |z| ensures zh[i] == z[i] - RealSeq.Min(z) + d / 2.0 {
      ResettledAt(z, d, i);
    }
  }

  lemma ChangeInterslabResettles(g: Geometry, d: real)
    requires ChangeInterslab(g, d).Ok?
    ensures ZCoords(ChangeInterslab(g, d).value) == Resettled(ZCoords(g), d)
  {
    var z := ZCoords(g);
    var h := ChangeInterslab(g, d).value;
    var z1 := Resettled(z, d);
    var zh := ZCoords(h);
    ChangeInterslabKeeps(g, d);
    forall i | 0 <= i < |z| ensures zh[i] == z1[i] {
      if g.isDirect {
        DirectZ(h, i, z1[i], CellHeight(z, d));
      } else {
        ZCoordsAt(h, i);
      }
    }
  }

  /** Resettling keeps the span and puts the lowest value at `d/2`. */
  lemma ResettledSpan(z: seq<real>, d: real)
    requires |z| > 0
    ensures Span(Resettled(z, d)) == Span(z)
    ensures RealSeq.Min(Resettled(z, d)) == d / 2.0
  {
    ResettledBounds(z, d);
  }

  /** The slab keeps its thickness, the gap becomes exactly `d`, and the lowest ion
      sits at `d/2`. */
  lemma ChangeInterslabGap(g: Geometry, d: real)
    requires ChangeInterslab(g, d).Ok?
    ensures var h := ChangeInterslab(g, d).value;
            && SlabThickness(h) == SlabThickness(g)
            && InterslabDistance(h) == Some(d)
            && RealSeq.Min(ZCoords(h)) == d / 2.0
  {
    ChangeInterslabResettles(g, d);
    ChangeInterslabKeeps(g, d);
    ResettledSpan(ZCoords(g), d);
  }
}
